=== FILE: README.md ===
# 606plus core, modelled in Dafny

This project models the logic at the heart of the 606plus site, a catalogue of furniture
for the 606 Universal Shelving System, and proves properties of that model. Every piece is
a pure Dafny function, or a method with loop invariants, over immutable datatypes.

- **My 606 shelf engine** (`shelf_geometry.dfy`, `shelf_canvas.dfy`). The two bays' slot
  lists are their shelves and drawers sorted by top edge. The model covers the
  point-to-slot hit test and the one item-box formula shared by drawing, selection and
  removal. The canvas handlers are pure state transitions on the ordered list of placed
  items: mouse down, move and up, drop from the picker, and double-click removal. The
  model also covers the mount-time load and the save effect.
- **Shelf persistence** (`shelf_storage.dfy`). This is save, load and clear of the shelf
  state under the key `606-shelf-state` of an abstract key/value store, with the
  placed-item records and their JSON form.
- **606 layout preview** (`preview_layout.dfy`, `view_box.dfy`):
  - bay widths in cm, and rail positions as prefix sums;
  - the rail-hole lines;
  - where each furniture image is drawn so that its pin hangs on the rail to the right
    of its bay, with a placeholder strip when the image or pin is missing.
- **Preview configuration editor** (`preview_config.dfy`). This is the default
  configuration and the validation of edited JSON text, which reports the first
  violation.
- **Pin locator** (`pin_locator.dfy`). This is the click-to-SVG mapping, the marker drawn
  back over a stored pin, the per-file pin map, and the zoom and file-navigation
  controls.
- **Item picker, e-track grids** (`item_picker.dfy`, `etrack_grid.dfy`,
  `etrack_row_grid.dfy`). This is facet extraction, filtering and the drag payload.
  It also covers column distribution with the between-column tracks, and row chunking
  with empty-cell padding.
- **Content library** (`sanity.dfy`, `structured_data.dfy`). This is slugs, subtitles,
  alt text, the image URL guard, the homepage card pipeline, and the JSON-LD item list,
  breadcrumb, organization and person builders.
- **Scripts** (`migrate_descriptions.dfy`, `populate_cms.dfy`, `delete_cms.dfy`):
  - the plain-text to Portable Text converter and the migrate-or-skip decision;
  - the year parser;
  - category and designer extraction;
  - the markdown catalogue table reader;
  - the argument parser of the deletion script.
- **Admin route guard** (`proxy.dfy`).

Shared helpers live in `wrappers.dfy` (`Option`, `Result`), `json.dfy` (an abstract JSON
value), `text.dfy` (ASCII `trim`, `toLowerCase`, `split`, `join`, sorting) and `seqs.dfy`
(filter, flatten, subsequence).

Three behaviours of the code that a reader might not expect, all modelled as written:

- Both selection and double-click removal pick the first item in list order whose box
  contains the point (`src/components/ui/ShelfCanvas.tsx:355-366, 501-512`). They do not
  pick the most recently placed one.
- The preview places each image by its pin's distance from `0 0`, so a pin in a view box
  with another origin is drawn off the rail. The pin locator scales its marker by the zoom
  twice. `Layout(AsWritten, …)` and `MarkerShown` are what the code draws. The corrected
  placements are modelled alongside, and "## Findings" gives both.
- In the migration script, the branches for a non-string description cannot be reached
  once the selection query has run. The model keeps them as a skip with a reason.

## Model

| member | source | states |
|---|---|---|
| ShelfStorage.Save | src/lib/shelf-storage.ts:28-35 | writes the encoded state under `606-shelf-state` and touches no other key; without a window or when the store refuses, the store is unchanged |
| ShelfStorage.Load | src/lib/shelf-storage.ts:40-55 | returns a value exactly when there is a window, the key holds non-empty text, the text parses, and the result is an object with an `items` array; that value is then the parsed one; nothing stored gives `None` |
| ShelfStorage.Clear | src/lib/shelf-storage.ts:60-67 | removes the shelf key and leaves every other key alone; a no-op without a window or when the store refuses |
| ShelfStorage.Initial | src/lib/shelf-storage.ts:72-75 | the loaded value when there is one, else the default `{items: [], version: 1}`; either way an object with an `items` array |
| ShelfStorage.SaveThenLoad | src/lib/shelf-storage.ts:28-55 | with a working store and a text codec that round-trips the saved state's JSON, loading after saving gives back the saved state's JSON, and decoding it gives back the state |
| ShelfStorage.ClearThenLoad | src/lib/shelf-storage.ts:40-67 | after clearing, nothing is loaded |
| ShelfStorage.DecodeEncode | src/lib/shelf-storage.ts:5-17 | the typed reading of a state's JSON form gives back the state, optional `rotation` and `version` included |
| Proxy.Guard | src/proxy.ts:4-24 | `/admin/login` passes; paths outside `/admin` pass; the `authenticated` cookie passes; a redirect happens exactly for the other `/admin` paths, and it goes to `/admin/login` and remembers the path |
| Proxy.RedirectNeverChains | src/proxy.ts:8-19 | the redirect target passes whatever the cookie, so one redirect never leads to another |
| Proxy.SignedInPasses | src/proxy.ts:13-16 | every redirected path passes once the cookie says `authenticated` |
| ShelfGeometry.SlotsAreSortedConfig | src/components/ui/ShelfCanvas.tsx:19-48 | each bay's slot list is a permutation of its shelves and drawers, sorted by top edge, with distinct tops, so the stable sort yields exactly this order |
| ShelfGeometry.SlotsDisjoint | src/components/ui/ShelfCanvas.tsx:22-47 | slots have positive height and each ends at or above the start of the next |
| ShelfGeometry.ShelfBounds | src/components/ui/ShelfCanvas.tsx:169-183 | `None` exactly for an index outside the sorted slot list; otherwise that slot's `y` and height with the bay's `x` (0 or 0.35) and width |
| ShelfGeometry.FirstSlotFrom | src/components/ui/ShelfCanvas.tsx:296-308 | the first slot from the start index whose pixel interval, ends included, contains the point; `None` when no slot does |
| ShelfGeometry.ShelfFromPoint | src/components/ui/ShelfCanvas.tsx:287-335 | picks the narrow bay iff `x < 0.35·width`; returns the lowest-index slot of that bay containing `y`, or `None` exactly when none does; a found slot has `relativeY` in [0, 1], and `relativeX` in [0, 1] for a point on the canvas; the exact fractions are stated by `HitPosition` |
| ShelfGeometry.RelativeX | src/components/ui/ShelfCanvas.tsx:304 | the fraction times the bay's pixel width is the cursor's distance from the bay's left edge; it lies in [0, 1] for a point on the canvas in the bay it falls in (also lines 314-316) |
| ShelfGeometry.RelativeY | src/components/ui/ShelfCanvas.tsx:298-305 | the fraction times the slot's pixel height is the cursor's distance below the slot's top; it lies in [0, 1] for a point inside the slot |
| ShelfGeometry.HitPosition | src/components/ui/ShelfCanvas.tsx:287-335 | a resolved hit has bounds, and its fractions are the cursor's offset from the slot's top-left corner divided by the bay's width and the slot's height, in pixels |
| ShelfGeometry.HitAnchorsBox | src/components/ui/ShelfCanvas.tsx:195-209 | the hit test and the item box are inverse: an item placed at the fractions a point resolves to is drawn with its bottom centre exactly at that point, whatever its size |
| ShelfGeometry.HitHasBounds | src/components/ui/ShelfCanvas.tsx:169-183 | a resolved slot always has bounds, and the point lies vertically inside them (also lines 287-335) |
| ShelfGeometry.MidpointResolves | src/components/ui/ShelfCanvas.tsx:287-335 | the vertical midpoint of every slot resolves to exactly that slot |
| ShelfGeometry.SharedBoundaryGoesToEarlierSlot | src/components/ui/ShelfCanvas.tsx:296-300 | the 25% line shared by the two top shelves resolves to the first one |
| ShelfGeometry.GapResolvesToNothing | src/components/ui/ShelfCanvas.tsx:22-47 | a point between 40% and 45% of the height resolves to no slot in either bay (also line 332) |
| ShelfGeometry.DisplayDim | src/components/ui/ShelfCanvas.tsx:50-54 | a missing or zero dimension falls back to 100 mm; any other value is kept (also lines 195-196) |
| ShelfGeometry.ItemBox | src/components/ui/ShelfCanvas.tsx:195-209 | the box is `dim · 2 · canvasWidth / 1000` wide and high, with its bottom centre at the placed position within the slot |
| ShelfGeometry.FindItem | src/components/ui/ShelfCanvas.tsx:189 | a found record carries the id and is the first such record, every earlier one having another id; `None` exactly when no record has it (also line 349) |
| ShelfGeometry.BoxFor | src/components/ui/ShelfCanvas.tsx:189-193 | an item has a box exactly when it has a catalogue record and its slot index is in range (also lines 349-353) |
| ShelfGeometry.HitIndexFrom | src/components/ui/ShelfCanvas.tsx:348-380 | the first item in list order whose box contains the point, edges included; items before it are not hit; `None` when no item is hit |
| ShelfGeometry.DrawItems | src/components/ui/ShelfCanvas.tsx:186-238 | one draw per drawable item, in list order, each with that item's box, outlined exactly when it is the dragged item |
| ShelfGeometry.ClickHitsWhatIsDrawn | src/components/ui/ShelfCanvas.tsx:186-238 | the click scan finds an item exactly when the point lies in some drawn box, so drawing and selection use the same box (also lines 348-380) |
| ShelfCanvas.Place | src/components/ui/ShelfCanvas.tsx:400-408 | the moved entry sits at the resolved column, slot and relative position and keeps its id and rotation (also lines 447-456) |
| ShelfCanvas.Mount | src/components/ui/ShelfCanvas.tsx:68-74 | a loaded state that decodes to placed items replaces the canvas's shelf; nothing loaded, or a stored object whose entries are not placed items, leaves the canvas as it was (see Left out) |
| ShelfCanvas.SaveEffect | src/components/ui/ShelfCanvas.tsx:108-113 | the shelf is saved exactly when it has items or something is already stored; otherwise the store is untouched |
| ShelfCanvas.SaveEffectThenMount | src/components/ui/ShelfCanvas.tsx:68-74 | after a non-empty shelf is saved, mounting a fresh canvas on the same store restores exactly that shelf, when the text codec round-trips that shelf's JSON (also lines 108-113) |
| ShelfCanvas.MouseDown | src/components/ui/ShelfCanvas.tsx:338-383 | a press on the first hit item selects it, starts a drag and records a grab offset inside its box; a press that hits nothing changes nothing; the shelf is never changed |
| ShelfCanvas.MoveAll | src/components/ui/ShelfCanvas.tsx:400-410 | entries with the dragged id are moved to the hit; every other entry and the length are unchanged |
| ShelfCanvas.MouseMove | src/components/ui/ShelfCanvas.tsx:385-415 | while dragging over a slot, only the entries with the dragged id change; when not dragging or over no slot nothing changes; drag state, version and length are kept |
| ShelfCanvas.MouseUp | src/components/ui/ShelfCanvas.tsx:417-422 | mouse-up and mouse-leave end a drag in progress and clear the selection; otherwise nothing changes (also lines 539-540) |
| ShelfCanvas.FindIndex | src/components/ui/ShelfCanvas.tsx:442 | the index of the first entry with the id, or `None` exactly when no entry has it |
| ShelfCanvas.DropItems | src/components/ui/ShelfCanvas.tsx:441-474 | an existing id updates that entry in place, same index and length, every other entry kept; a new id is appended at the end without rotation |
| ShelfCanvas.Drop | src/components/ui/ShelfCanvas.tsx:425-477 | an empty payload or a point outside every slot changes nothing; otherwise the shelf becomes `DropItems` of the resolved hit; drag state and version are kept |
| ShelfCanvas.DropAnchorsAtCursor | src/components/ui/ShelfCanvas.tsx:425-477 | after a drop on a slot, the first entry with the dropped id is drawn with its bottom centre exactly at the drop point (also lines 195-209) |
| ShelfCanvas.DoubleClick | src/components/ui/ShelfCanvas.tsx:484-530 | a double-click removes every entry with the hit item's id; a double-click that hits nothing changes nothing |
| ShelfCanvas.RemoveId | src/components/ui/ShelfCanvas.tsx:523 | the kept entries keep their order, and each entry without the id is kept as many times as it occurs while entries with the id are all gone |
| ShelfCanvas.SubsequenceKeepsUniqueIds | src/components/ui/ShelfCanvas.tsx:523 | keeping some entries of a list with distinct ids keeps the ids distinct |
| ShelfCanvas.DropKeepsIdsUnique | src/components/ui/ShelfCanvas.tsx:441-474 | dropping keeps at most one entry per item id, and afterwards the dropped id sits at the resolved slot |
| ShelfCanvas.DropIdempotent | src/components/ui/ShelfCanvas.tsx:425-477 | dropping the same payload at the same point a second time changes nothing more |
| ShelfCanvas.LastDropWins | src/components/ui/ShelfCanvas.tsx:441-474 | two drops of one item at different slots leave one entry, at the later slot |
| ShelfCanvas.DropInGapIsIgnored | src/components/ui/ShelfCanvas.tsx:438-439 | a drop into the gap between the upper shelves and the drawers changes nothing |
| ShelfCanvas.MoveKeepsIdsUnique | src/components/ui/ShelfCanvas.tsx:398-411 | moving keeps at most one entry per item id |
| ShelfCanvas.DoubleClickRemoves | src/components/ui/ShelfCanvas.tsx:514-525 | with distinct ids, a removal drops exactly the hit entry, keeps the others in order, and keeps the ids distinct |
| ShelfCanvas.RemoveUniqueLength | src/components/ui/ShelfCanvas.tsx:523 | with distinct ids, filtering out one entry's id shortens the list by exactly one |
| ViewBox.Parts | src/components/ui/SixZeroSixPreview.tsx:202 | one number (or `NaN`) per space-separated piece of the view box text |
| ViewBox.Parse | src/app/pin-locator/page.tsx:36 | a frame exactly when the text splits into four pieces that are all numbers, and then the four numbers in order (also line 156) |
| ViewBox.DefaultParts | src/app/pin-locator/page.tsx:109 | the default view box `0 0 100 100` splits into its four numerals |
| ViewBox.FourWords | src/components/ui/SixZeroSixPreview.tsx:202 | four space-free words joined by single spaces split back into exactly those words |
| PreviewLayout.TrackPositions | src/components/ui/SixZeroSixPreview.tsx:90-98 | one rail more than bays, the first at 0, consecutive rails one bay width apart, the last at the total width |
| PreviewLayout.TracksIncrease | src/components/ui/SixZeroSixPreview.tsx:90-98 | the rails strictly increase from left to right |
| PreviewLayout.PiecesMax | src/components/ui/SixZeroSixPreview.tsx:85-88 | the maximum of a floor and every piece's hanging height (`height * 4`): at least each of them and equal to one of them |
| PreviewLayout.MaxHeight | src/components/ui/SixZeroSixPreview.tsx:85-88 | at least 50 and at least every piece's hanging height, and equal to 50 or to one of them |
| PreviewLayout.Ceil | src/components/ui/SixZeroSixPreview.tsx:162 | the least integer not below `x` |
| PreviewLayout.HoleLines | src/components/ui/SixZeroSixPreview.tsx:162-169 | `numHoles + 1` dashed lines one hole pitch (8 px) apart from the top, the last at least one pitch below the tallest hanging point |
| PreviewLayout.PlacementFrame | src/components/ui/SixZeroSixPreview.tsx:201-204 | a text that does not split into four pieces uses the 100 x 100 default; a four-piece text uses its own frame; a usable frame never has a zero size |
| PreviewLayout.DrawPiece | src/components/ui/SixZeroSixPreview.tsx:179-223 | the corrected placement (see Findings): a piece without a loaded image or a pin is the placeholder strip at the foot of its bay; otherwise the image is drawn at its view-box size in px with its pin point exactly on the bay's right rail at the piece's hanging height |
| PreviewLayout.SizeAsWritten | src/components/ui/SixZeroSixPreview.tsx:201-208 | the image size agrees with the frame's size whenever the frame is usable |
| PreviewLayout.DrawPieceAsWritten | src/components/ui/SixZeroSixPreview.tsx:200-223 | without a loaded image or a pin, the placeholder strip; otherwise an image exactly when the view box's width and height parts are usable, whatever its origin; with a fully numeric view box the pin lands off the rail by the view box origin, scaled to px |
| PreviewLayout.AsWrittenMissesRail | src/components/ui/SixZeroSixPreview.tsx:211-219 | with the view box `10 0 100 100` the as-written pin lands 20 px left of the bay's right rail |
| PreviewLayout.AsWrittenPiecesOffByOrigin | src/components/ui/SixZeroSixPreview.tsx:200-223 | in the preview as drawn, every loaded piece with a pin and a usable view box is placed with its pin off the bay's right rail by the view box origin scaled to px; it is on the rail exactly when the origin is `0 0` |
| PreviewLayout.ShiftedFrame | src/components/ui/SixZeroSixPreview.tsx:201-204 | the view box `10 0 100 100` gives the frame with origin `(10, 0)` |
| PreviewLayout.FourPartFrame | src/components/ui/SixZeroSixPreview.tsx:201-204 | four numerals with a non-zero size are placed at exactly their frame |
| PreviewLayout.BayDraws | src/components/ui/SixZeroSixPreview.tsx:179-224 | one draw command per piece of the bay, in configuration order, each placed as written or corrected according to the mode |
| PreviewLayout.Rails | src/components/ui/SixZeroSixPreview.tsx:137-138 | one rail per track position, at `position * 2` px |
| PreviewLayout.Layout | src/components/ui/SixZeroSixPreview.tsx:81-98 | the drawing area is the total width by the tallest hanging point plus 50 cm, in px; one rail per track; the hole lines of the tallest hanging point; every bay's commands start at its left edge; the as-written mode is what the component draws (also lines 123-124, 174-225) |
| PreviewLayout.AllBayDraws | src/components/ui/SixZeroSixPreview.tsx:174-177 | one list of commands per bay, in the given mode, each starting at that bay's left edge |
| PreviewLayout.ColumnSpansRails | src/components/ui/SixZeroSixPreview.tsx:176-177 | bay `i` runs exactly from rail `i` to rail `i + 1` |
| PreviewLayout.PiecesHangOnRails | src/components/ui/SixZeroSixPreview.tsx:174-225 | every piece of the preview hangs from the right rail of its own bay at its hanging height, or is the placeholder spanning its bay |
| PreviewLayout.DrawnBetween | src/components/ui/SixZeroSixPreview.tsx:177-223 | a piece drawn in the bay from `left` to `right` hangs from `right` |
| PinLocator.ZoomIn | src/app/pin-locator/page.tsx:216-218 | one quarter step up, capped at 3 |
| PinLocator.ZoomOut | src/app/pin-locator/page.tsx:220-222 | one quarter step down, floored at 0.5 |
| PinLocator.ZoomInOut | src/app/pin-locator/page.tsx:216-222 | both steps keep the zoom on the quarter-step grid from 0.5 to 3, and away from the clamps each undoes the other |
| PinLocator.CurrentFile | src/app/pin-locator/page.tsx:240 | the file at the current index exactly when it is listed and non-empty |
| PinLocator.FilesLoaded | src/app/pin-locator/page.tsx:75-91 | a non-empty list replaces the file list; an empty one changes nothing; pins and zoom are kept |
| PinLocator.ChooseViewBox | src/app/pin-locator/page.tsx:109 | the `viewBox` attribute when non-empty; else the `width` attribute when non-empty, as the code falls back to it; else `0 0 100 100`; never empty |
| PinLocator.DefaultViewBoxUsable | src/app/pin-locator/page.tsx:109 | a file with neither attribute gets the usable 100 x 100 frame at the origin |
| PinLocator.SvgLoaded | src/app/pin-locator/page.tsx:107-110 | loading an SVG records a non-empty view box and changes nothing else |
| PinLocator.GoToNext | src/app/pin-locator/page.tsx:192-198 | one file on unless at the last; only the index changes |
| PinLocator.GoToPrevious | src/app/pin-locator/page.tsx:200-206 | one file back unless at the first; only the index changes |
| PinLocator.GoToFile | src/app/pin-locator/page.tsx:209-213 | the chosen file becomes current at zoom 1; files, pins and view box are kept |
| PinLocator.NextPreviousInverse | src/app/pin-locator/page.tsx:192-206 | away from the ends, next then previous (or previous then next) returns to the same state |
| PinLocator.ClickToSvg | src/app/pin-locator/page.tsx:136-176 | a usable view box maps the click proportionally into the frame, independent of the zoom; without one, both size attributes scale the click; otherwise the click offset divided by the zoom |
| PinLocator.AsWrittenMarkerScaledByZoom | src/app/pin-locator/page.tsx:30-48 | with a usable view box, the as-written marker of a clicked point shows at the click offset times the zoom (also lines 142-161, 350) |
| PinLocator.AsWrittenMarkerAtClick | src/app/pin-locator/page.tsx:42-43 | the as-written marker of a clicked point, before the container's zoom is applied, sits at the click offset (also lines 160-161) |
| PinLocator.AsWrittenMarkerMissesClick | src/app/pin-locator/page.tsx:30-48 | at zoom 2, a click 50 px into a 200 px SVG with view box `0 0 100 100` is stored at 25 and its marker shows at 100 px (also lines 142-161) |
| PinLocator.MissesClickIn | src/app/pin-locator/page.tsx:30-48 | the same counterexample for any view box text that reads as `0 0 100 100` (also lines 142-161) |
| PinLocator.Marker | src/app/pin-locator/page.tsx:30-48 | the marker with the zoom divided out of the rectangle; once the container's zoom is applied it equals the as-written offset, and it is the pin itself without a usable view box |
| PinLocator.ClickThenMarker | src/app/pin-locator/page.tsx:30-48 | with a usable view box or without size attributes, the marker of a clicked point shows exactly where the click was, at every zoom (also lines 136-176) |
| PinLocator.ClickInFrame | src/app/pin-locator/page.tsx:156-161 | with a usable view box the click maps proportionally into the frame |
| PinLocator.ClickWithoutFrame | src/app/pin-locator/page.tsx:171-175 | without a usable view box or both size attributes a click maps to its offset divided by the zoom |
| PinLocator.MarkerWithoutFrame | src/app/pin-locator/page.tsx:44-48 | without a usable view box the marker of a divided offset shows back at that offset |
| PinLocator.Round2 | src/app/pin-locator/page.tsx:183-184 | within half a hundredth of the value, and a whole number of hundredths |
| PinLocator.Round2Idempotent | src/app/pin-locator/page.tsx:183-184 | rounding an already rounded value changes nothing |
| PinLocator.Click | src/app/pin-locator/page.tsx:178-188 | the current file's pin becomes the clicked point with each coordinate rounded to hundredths, with the page's view box (absent when empty); other pins are kept; no current file, no change |
| PinLocator.ClearPin | src/app/pin-locator/page.tsx:229-238 | exactly the current file's pin is deleted; no current file, no change |
| PinLocator.ClickThenClear | src/app/pin-locator/page.tsx:178-188 | clicking and then clearing leaves the other pins as they were and none for the current file (also lines 229-238) |
| PinLocator.MarkerShown | src/app/pin-locator/page.tsx:366-372 | a marker is shown exactly when the current file has a pin; it is placed as written, which with a usable view box is the corrected marker scaled once more by the zoom, and otherwise the stored pin's raw coordinates (also lines 240-241) |
| PinLocator.Press | src/app/pin-locator/page.tsx:192-238 | no control changes the file list or the view box; only Clear changes the pins, exactly as `clearPin` (also line 318) |
| PinLocator.ControlsKeepValid | src/app/pin-locator/page.tsx:64-70 | the page starts valid, and every control keeps the index on a listed file and the zoom on the quarter-step grid from 0.5 to 3 (also lines 192-226, 313-318) |
| PinLocator.EventsKeepValid | src/app/pin-locator/page.tsx:75-91 | the first file list, a click and a loaded SVG keep the page valid (also lines 107-110, 136-188) |
| Json.Get | src/app/preview/606/page.tsx:88 | reading a property throws exactly on `null` and finds a value exactly for an object holding the key (also lines 93-103) |
| PreviewConfig.Message | src/app/preview/606/page.tsx:89-104 | every error shows a non-empty message, a parser error without text as `Invalid JSON` (also line 112) |
| PreviewConfig.CheckPiece | src/app/preview/606/page.tsx:99-106 | an accepted piece has a non-empty file name and a height of at least 0; a rejection names this piece's file name or height (or is the `null` error) |
| PreviewConfig.CheckPieces | src/app/preview/606/page.tsx:99-106 | all pieces accepted one by one in order, or the error of the first rejected piece, all earlier pieces accepted |
| PreviewConfig.CheckColumn | src/app/preview/606/page.tsx:92-107 | an accepted column has a valid type and only valid pieces |
| PreviewConfig.CheckColumns | src/app/preview/606/page.tsx:92-107 | all columns accepted one by one in order, or the error of the first rejected column, all earlier columns accepted |
| PreviewConfig.Validate | src/app/preview/606/page.tsx:84-110 | an accepted configuration is valid throughout; `null` fails with the type error, a value without a `columns` array with the columns message; with an array, it succeeds exactly when every column checks, giving the checked bays in order, and otherwise fails with the error of the first column that does not |
| PreviewConfig.OnEdit | src/app/preview/606/page.tsx:77-114 | blank text restores the default configuration with no error; valid JSON shows its configuration with no error; a parse or validation failure keeps the previous configuration and shows a non-empty error, which for a validation failure is the message of the first violation `Validate` reports |
| PreviewConfig.EncodePieces | src/app/preview/606/page.tsx:21-24 | one JSON object per piece, in order |
| PreviewConfig.EncodeBays | src/app/preview/606/page.tsx:26-29 | one JSON object per bay, in order |
| PreviewConfig.CheckPieceEncoded | src/app/preview/606/page.tsx:99-106 | an encoded piece is accepted exactly when valid; an empty file name is reported before a negative height |
| PreviewConfig.CheckValidPieces | src/app/preview/606/page.tsx:99-106 | valid encoded pieces are accepted as themselves |
| PreviewConfig.CheckPiecesEncoded | src/app/preview/606/page.tsx:99-106 | encoded pieces are accepted as themselves exactly when all are valid |
| PreviewConfig.CheckBayEncoded | src/app/preview/606/page.tsx:92-107 | an encoded bay is accepted as itself exactly when its pieces are valid |
| PreviewConfig.CheckValidColumns | src/app/preview/606/page.tsx:92-107 | valid encoded bays are accepted as themselves |
| PreviewConfig.CheckColumnsEncoded | src/app/preview/606/page.tsx:92-107 | encoded bays are accepted as themselves exactly when all are valid |
| PreviewConfig.ValidateEncode | src/app/preview/606/page.tsx:84-110 | validating an encoded configuration gives it back exactly when it is valid |
| PreviewConfig.DefaultIsValid | src/app/preview/606/page.tsx:35-51 | the default configuration passes its own validation |
| PreviewConfig.InitialTextShowsDefault | src/app/preview/606/page.tsx:72-74 | the editor's initial text, the printed default, shows the default configuration with no error, when the text codec round-trips the default's JSON (also lines 77-114) |
| ItemPicker.FacetNames | src/components/ui/ItemPicker.tsx:20-38 | exactly the non-empty category (or designer) names that occur among the items |
| ItemPicker.Options | src/components/ui/ItemPicker.tsx:20-38 | the filter options are strictly sorted, each once, and exactly the non-empty names that occur |
| ItemPicker.Filtered | src/components/ui/ItemPicker.tsx:41-67 | the kept items keep their order; each matches the lowered search in a name, designer, brand or category and has the selected category and designer; every item passing those tests is kept, as many times as it occurs, and no other |
| ItemPicker.FilterKeepsAll | src/components/ui/ItemPicker.tsx:42-66 | a filter that accepts every item returns the list unchanged |
| ItemPicker.NoFilterShowsAll | src/components/ui/ItemPicker.tsx:44 | with no search and nothing selected the whole list is shown (also lines 56, 61) |
| ItemPicker.SelectedCategoryFilter | src/components/ui/ItemPicker.tsx:20-28 | selecting an offered category shows a non-empty list of exactly that category's items (also lines 56-58) |
| ItemPicker.DragPayload | src/components/ui/ItemPicker.tsx:69-72 | the drag carries the item's id |
| ItemPicker.DragThenDrop | src/components/ui/ItemPicker.tsx:69-72 | dragging an item onto a slot of the canvas leaves one entry of it at that slot and the ids distinct |
| ETrackGrid.CeilDiv | src/components/ui/ETrackGrid.tsx:64 | the fewest runs of `c` items that cover `n` |
| ETrackGrid.Slice | src/components/ui/ETrackGrid.tsx:70 | the items from `start` to `end`, both cut back to the list's end |
| ETrackGrid.PrefixThenSlice | src/components/ui/ETrackGrid.tsx:67-71 | the items before `start` followed by the next slice are the items before its end |
| ETrackGrid.Distribute | src/components/ui/ETrackGrid.tsx:63-71 | exactly `columns` columns, column `i` being the items from `i·per` to `i·per + per` cut back to the list's end, with `per = ceil(n / columns)`; so their concatenation is the items, none is longer than `per`, none longer than a column to its left, and all are empty when there are no items |
| ETrackGrid.ExtendColumns | src/components/ui/ETrackGrid.tsx:67-71 | one more column keeps the columns a prefix of the items with ordered lengths |
| ETrackGrid.ExtendFlatten | src/components/ui/ETrackGrid.tsx:68-70 | the next column continues the items where the previous columns stop |
| ETrackGrid.ExtendLengths | src/components/ui/ETrackGrid.tsx:68-70 | the next column keeps the column lengths bounded and non-increasing |
| ETrackGrid.BetweenTracks | src/components/ui/ETrackGrid.tsx:82-100 | `columns - 1` tracks when shown with more than one column, none otherwise |
| ETrackGrid.BetweenTracksOrdered | src/components/ui/ETrackGrid.tsx:82-100 | the between-tracks lie strictly inside the grid, increase from left to right, and track `i` sits on the boundary after column `i` |
| ETrackGrid.BetweenTracksInside | src/components/ui/ETrackGrid.tsx:84-89 | each between-track sits on its column boundary, strictly between 0 and 100 percent |
| ETrackGrid.BetweenTracksIncrease | src/components/ui/ETrackGrid.tsx:84-89 | the between-tracks increase from left to right |
| ETrackGrid.TrackInside | src/components/ui/ETrackGrid.tsx:88-89 | the `m`-th of `n` equal steps lies strictly inside the grid |
| ETrackRowGrid.Rows | src/components/ui/ETrackRowGrid.tsx:76-80 | `ceil(n / columns)` rows whose concatenation is the items, every row but the last full, the last non-empty |
| ETrackRowGrid.ExtendRows | src/components/ui/ETrackRowGrid.tsx:78-79 | one more row keeps the rows a prefix of the items, full except perhaps the last |
| ETrackRowGrid.RowCount | src/components/ui/ETrackRowGrid.tsx:78 | runs of `c` that reach `n` with the last starting before `n` number `ceil(n / c)` |
| ETrackRowGrid.Cells | src/components/ui/ETrackRowGrid.tsx:89-113 | a row renders as its items followed by empty cells, `columns` cells in all |
| ETrackRowGrid.CellsCoverItems | src/components/ui/ETrackRowGrid.tsx:87-115 | every rendered row spans the grid and its filled cells are exactly its items in order |
| ETrackRowGrid.PresentOfCells | src/components/ui/ETrackRowGrid.tsx:89-113 | the filled cells of a rendered row are its items |
| ETrackRowGrid.PresentPrefix | src/components/ui/ETrackRowGrid.tsx:105 | filled cells followed by empty cells read back as the filled values |
| Sanity.Kept | src/lib/sanity.ts:54 | only lower-case letters and digits remain |
| Sanity.SkipRun | src/lib/sanity.ts:54 | the rest of a run of dropped characters is skipped; what follows starts with a kept character and keeps the same letters and digits |
| Sanity.Collapse | src/lib/sanity.ts:54 | only letters, digits and single dashes remain; nothing is emptied; a leading letter or digit is kept and a leading run of other characters becomes a dash; the letters and digits are kept in order |
| Sanity.CollapseSeparates | src/lib/sanity.ts:54 | two words of letters and digits separated by any non-empty run of other characters come out as the two words joined by exactly one dash |
| Sanity.CollapseWord | src/lib/sanity.ts:54 | a leading word of letters and digits passes through the dash replacement unchanged |
| Sanity.CollapseRun | src/lib/sanity.ts:54 | a leading run of other characters before a word becomes exactly one dash |
| Sanity.StripDashes | src/lib/sanity.ts:55 | no dash remains at either end, no double dash is made, and the letters and digits are kept |
| Sanity.KeptOfDash | src/lib/sanity.ts:55 | a trailing dash adds no letter or digit |
| Sanity.Slug | src/lib/sanity.ts:51-56 | a well-formed slug holding exactly the lower-cased name's letters and digits, in order (also lines 107-109) |
| Sanity.CollapseWellFormed | src/lib/sanity.ts:54 | a string of letters, digits and single dashes is left unchanged by the dash replacement |
| Sanity.SlugIdempotent | src/lib/sanity.ts:51-56 | slugging a slug gives it back |
| Sanity.Subtitle | src/lib/sanity.ts:72-84 | the category and the start year, whichever are present, joined by ` · `, and empty when neither is |
| Sanity.JoinTwo | src/lib/sanity.ts:83 | joining one, two or three parts puts the separator only between them (also line 100) |
| Sanity.ImageAlt | src/lib/sanity.ts:89-101 | the name, then `by <designer>` and `- <category>` when present, separated by spaces; always starts with the name |
| Sanity.ImageUrl | src/lib/sanity.ts:61-67 | empty without an asset id, the builder's URL with one |
| Sanity.ToCard | src/lib/sanity.ts:156-167 | the title is the name, the link is `/items/` and the stored slug or else the name's slug, and the image is the built URL |
| Sanity.HomepageCards | src/lib/sanity.ts:154-168 | no more cards than items; every card has a title and an image and is the card of a shown item; every shown item's card is there |
| Sanity.ShownCards | src/lib/sanity.ts:154-168 | the filtered cards are exactly those of the shown items |
| Sanity.HomepageCardsOfShown | src/lib/sanity.ts:154-168 | the cards are exactly the cards of the shown items, in the fetched order and as many times as the items occur |
| Sanity.HomepageKeepsOrder | src/lib/sanity.ts:132-168 | the cards keep the fetched order: they are a subsequence of all items' cards |
| Sanity.FallbackHrefIsSlug | src/lib/sanity.ts:157 | an item without a stored slug links to a well-formed slug of its name (also line 165) |
| StructuredData.SiteUrl | src/lib/structured-data.ts:5 | the configured site URL when set and non-empty, else the default; never empty |
| StructuredData.ItemListSchema | src/lib/structured-data.ts:39-57 | `numberOfItems` is the number of items; one list element per item in input order, at positions 1 to n, each naming the item, linking to the site URL followed by its `href`, and carrying a description exactly when the item has a subtitle |
| StructuredData.AbsoluteUrl | src/lib/structured-data.ts:96 | a link starting with `http` is kept; any other is prefixed with the site URL |
| StructuredData.AbsoluteUrlIdempotent | src/lib/structured-data.ts:96 | with a site URL starting with `http`, making a link absolute a second time changes nothing |
| StructuredData.BreadcrumbSchema | src/lib/structured-data.ts:88-99 | one list element per crumb in input order, at positions 1 to n, each with the crumb's name and its absolute link |
| StructuredData.OrganizationSchema | src/lib/structured-data.ts:62-70 | name and URL are copied; `sameAs` is present exactly when given, and then holds the given links |
| StructuredData.Strings | src/lib/structured-data.ts:68 | one JSON string per link, in order |
| StructuredData.PersonSchema | src/lib/structured-data.ts:75-83 | name and URL are copied; `email` is present exactly when it is a non-empty string, and then holds it |
| MigrateDescriptions.SkipNewlines | scripts/migrate-descriptions.ts:51 | drops exactly the leading newlines: a suffix, preceded only by newlines, not starting with one |
| MigrateDescriptions.Paragraphs | scripts/migrate-descriptions.ts:51 | a split of the text, never an empty list; `ParagraphsRejoin` shows that it loses nothing but the separators |
| MigrateDescriptions.Separators | scripts/migrate-descriptions.ts:51 | the runs the split removes, left to right, each two or more newlines |
| MigrateDescriptions.ParagraphsRejoin | scripts/migrate-descriptions.ts:51 | there is one separator fewer than paragraphs, and putting the separators back between the paragraphs gives exactly the text |
| MigrateDescriptions.ParagraphsHaveNoBreak | scripts/migrate-descriptions.ts:51 | no paragraph holds two newlines in a row: every run of two or more is a split |
| MigrateDescriptions.ParagraphStartsWith | scripts/migrate-descriptions.ts:51 | without a split at the start, the first paragraph starts with the text's first character |
| MigrateDescriptions.BlankParagraphs | scripts/migrate-descriptions.ts:51-55 | if every paragraph is blank then so is the text: the split loses only whitespace |
| MigrateDescriptions.NewlinesToSpaces | scripts/migrate-descriptions.ts:59 | same length, no newline left, and the same positions are whitespace |
| MigrateDescriptions.CleanText | scripts/migrate-descriptions.ts:59 | the cleaned text of a non-blank paragraph is non-empty, trimmed at both ends and free of newlines |
| MigrateDescriptions.NonBlank | scripts/migrate-descriptions.ts:51 | the non-blank paragraphs, in their order, each as many times as it occurs and no blank one; empty exactly when every paragraph is blank |
| MigrateDescriptions.Block | scripts/migrate-descriptions.ts:61-73 | a `normal` block with one unmarked `span` of the text, keyed by its index |
| MigrateDescriptions.Blocks | scripts/migrate-descriptions.ts:57-74 | one block per paragraph, in order, the `k`-th carrying the `k`-th paragraph's cleaned text and key |
| MigrateDescriptions.ToPortableText | scripts/migrate-descriptions.ts:36-75 | a value that is not a non-empty string converts to nothing; a string converts to one block per non-blank paragraph, in order, with its cleaned text |
| MigrateDescriptions.ConvertedIsPortableText | scripts/migrate-descriptions.ts:46-84 | a blank text converts to nothing, and a non-blank one to a value `isPortableText` accepts |
| MigrateDescriptions.ParagraphsOfBlank | scripts/migrate-descriptions.ts:51 | the paragraphs of a blank text are blank |
| MigrateDescriptions.Decide | scripts/migrate-descriptions.ts:142-207 | an item is patched exactly when its description is a non-blank string, and then with its conversion, which is Portable Text; a blank string is skipped as empty; anything else is not selected |
| MigrateDescriptions.MigrationIdempotent | scripts/migrate-descriptions.ts:142-145 | a patched item is not selected by a second run (also lines 199-203) |
| PopulateCms.Leftmost | scripts/populate-cms.ts:154 | the first position in the range where the pattern matches, or none when it matches nowhere there (also lines 173, 180) |
| PopulateCms.Skip | scripts/populate-cms.ts:154 | the end of the greedy run of a character class: every character before it is in the class, the one at it is not (also line 173) |
| PopulateCms.DigitRun | scripts/populate-cms.ts:154 | the length of the run of digits: all digits, and the next character is not one (also line 180) |
| PopulateCms.ValueAt | scripts/populate-cms.ts:156 | the value of `n` digits is below `10^n`, so four digits are worth less than 10000 (also lines 163, 182) |
| PopulateCms.DigitsBound | scripts/populate-cms.ts:154 | `n` digits are worth less than `10^n` |
| PopulateCms.AfterDash | scripts/populate-cms.ts:154 | where the range's end starts after `\s*-\s*`, inside the string |
| PopulateCms.RangeEnd | scripts/populate-cms.ts:154 | the end year's digits, at most four of them, or none for `present` (also lines 157-163) |
| PopulateCms.PreYear | scripts/populate-cms.ts:173-175 | the four digits after `pre` and dashes or spaces, below 10000 |
| PopulateCms.RangeYears | scripts/populate-cms.ts:155-170 | the start is the four digits; the end is absent exactly for `present`; a two-digit end after a start of 1900 or later is read in the start's century; any other end is kept as read |
| PopulateCms.SpecificYears | scripts/populate-cms.ts:153-186 | no years exactly when there are no four digits in a row; a range, when one matches, decides the years; a start year is always some four digits; an end year without a start comes from `pre` with no range anywhere, one year earlier |
| PopulateCms.ParseYear | scripts/populate-cms.ts:143-187 | no years for a vague string (blank, `-`, or mentioning various, vintage, antique, traditional or contemporary in any case); otherwise no years exactly when there are no four digits in a row; an end year without a start is the year after `pre` minus one and needs no range anywhere |
| PopulateCms.ParseYearFirstMatch | scripts/populate-cms.ts:153-184 | outside vague strings, the leftmost range decides the years; with no range, the leftmost `pre` year gives only an end year, one earlier; with neither, the leftmost four digits give only a start year |
| PopulateCms.TrimmedPiece | scripts/populate-cms.ts:85-86 | the trimmed piece exactly when it is not empty (also lines 100-101) |
| PopulateCms.Pieces | scripts/populate-cms.ts:83-86 | every piece is a non-empty trimmed name free of the separators |
| PopulateCms.PiecesSpec | scripts/populate-cms.ts:83-86 | the pieces are exactly the non-empty trimmed parts between separators, and each is a clean name |
| PopulateCms.PartsClean | scripts/populate-cms.ts:83-86 | every kept piece is a clean name and the trim of one of the parts |
| PopulateCms.PartsKept | scripts/populate-cms.ts:85-86 | every part that trims to something non-empty is kept |
| PopulateCms.ItemCategories | scripts/populate-cms.ts:83-87 | an item's categories are clean names free of `/` |
| PopulateCms.CategoryNames | scripts/populate-cms.ts:81-88 | the catalogue's category names are exactly those of some item |
| PopulateCms.ExtractCategories | scripts/populate-cms.ts:79-90 | strictly sorted, each once, and exactly the non-empty trimmed `/`-separated parts of the items' categories |
| PopulateCms.CutAt | scripts/populate-cms.ts:106-107 | the string up to the leftmost match, or all of it when nothing matches |
| PopulateCms.StripFor | scripts/populate-cms.ts:106 | a prefix of the part, cut at the leftmost ` for …` match, unchanged when there is none |
| PopulateCms.StripForRemovesAll | scripts/populate-cms.ts:106 | on one line, no ` for …` is left once it is stripped |
| PopulateCms.ForInPrefix | scripts/populate-cms.ts:106 | a ` for …` match in a prefix of a line is a match in the line |
| PopulateCms.SkipInPrefix | scripts/populate-cms.ts:106 | a run inside a prefix ends where it ends in the whole string, unless it reaches the prefix's end |
| PopulateCms.StripParenthetical | scripts/populate-cms.ts:107 | a prefix of the part, cut at the leftmost place ` (…)` runs to the end, unchanged when there is none; a cut part ends with `)` |
| PopulateCms.CleanDesigner | scripts/populate-cms.ts:105-108 | the cleaned designer is trimmed |
| PopulateCms.CleanDesignerAvoids | scripts/populate-cms.ts:105-108 | cleaning adds no character that the part lacks |
| PopulateCms.DesignerParts | scripts/populate-cms.ts:98-101 | the non-empty trimmed parts between `&` and `/`, except `-` |
| PopulateCms.Cleaned | scripts/populate-cms.ts:103-110 | exactly the non-empty cleaned forms of the parts |
| PopulateCms.CleanedMembers | scripts/populate-cms.ts:103-110 | a name is kept exactly when it is the non-empty cleaned form of a part |
| PopulateCms.ItemDesigners | scripts/populate-cms.ts:95-111 | nothing unless the item names a designer; every designer is a trimmed name free of `&` and `/` |
| PopulateCms.ItemDesignersSpec | scripts/populate-cms.ts:95-111 | an item contributes exactly the non-empty cleaned forms of its parts, and only when it names a designer |
| PopulateCms.CleanedNames | scripts/populate-cms.ts:98-109 | cleaned designer parts are clean names free of `&` and `/` |
| PopulateCms.DesignerNames | scripts/populate-cms.ts:95-112 | the catalogue's designer names are exactly those some item contributes |
| PopulateCms.ExtractDesigners | scripts/populate-cms.ts:93-114 | strictly sorted, each once, and exactly the designers the items contribute |
| PopulateCms.ParseIntOfDigits | scripts/populate-cms.ts:62 | a string of digits reads as its decimal value |
| PopulateCms.ParseIntRejects | scripts/populate-cms.ts:62-63 | a string starting with neither space, sign nor digit is `NaN` |
| PopulateCms.AllDigitsRead | scripts/populate-cms.ts:62 | in a string of digits nothing is skipped and every digit is read |
| PopulateCms.NoDigitRead | scripts/populate-cms.ts:62 | a string starting with neither space, sign nor digit reads no digit |
| PopulateCms.Cells | scripts/populate-cms.ts:59 | every cell is a non-empty trimmed text without `\|` |
| PopulateCms.RowOf | scripts/populate-cms.ts:56-72 | a line gives an item exactly when, trimmed, it starts with `\|` but not `\|---`, has at least six cells, and the first reads as an integer |
| PopulateCms.ItemOfCells | scripts/populate-cms.ts:60-72 | six or more cells whose first is an integer give the item of the first six; anything else gives none |
| PopulateCms.FirstHeader | scripts/populate-cms.ts:48 | the first line whose trimmed form starts with `\| #`, or none when no line does |
| PopulateCms.ParseTable | scripts/populate-cms.ts:43-55 | an error exactly when no line is a header |
| PopulateCms.TableRowsFromLines | scripts/populate-cms.ts:55-73 | every item read comes from a line at least two past the first header |
| PopulateCms.TableRowsInOrder | scripts/populate-cms.ts:55-73 | the items read are one per line from two past the first header on that holds an item, in the order of those lines, with none missing |
| PopulateCms.TableLinesRead | scripts/populate-cms.ts:55-73 | every line at least two past the first header that holds an item gives that item |
| PopulateCms.RowRoundTrip | scripts/populate-cms.ts:56-72 | a table row written from an item reads back as that item, when each text field is a clean cell |
| PopulateCms.FieldsDescribeItem | scripts/populate-cms.ts:60-72 | an item's six fields as cells describe that item |
| PopulateCms.ReadRow | scripts/populate-cms.ts:56-57 | a trimmed table line holds the item its cells describe |
| PopulateCms.NumberCell | scripts/populate-cms.ts:62 | a printed number reads back as itself |
| PopulateCms.CellsOfRow | scripts/populate-cms.ts:56-59 | a formatted row is a trimmed table line whose cells are the item's fields |
| PopulateCms.DigitsCell | scripts/populate-cms.ts:59 | a printed number is a clean cell |
| PopulateCms.PiecesAvoidBar | scripts/populate-cms.ts:59 | padding clean cells adds no `\|` |
| PopulateCms.RowShape | scripts/populate-cms.ts:56-57 | a formatted row is left alone by trimming and is a table line |
| PopulateCms.RowEnds | scripts/populate-cms.ts:56-57 | a formatted row starts with `\| ` and ends with `\|` |
| PopulateCms.JoinEndsWithSeparator | scripts/populate-cms.ts:59 | a join whose last piece is empty ends with the separator |
| PopulateCms.CellsOfPieces | scripts/populate-cms.ts:59 | the cells of a formatted row's pieces are exactly its six fields |
| PopulateCms.Framed | scripts/populate-cms.ts:59 | empty pieces at both ends give no cell |
| PopulateCms.EmptyPiece | scripts/populate-cms.ts:59 | an empty piece gives no cell |
| PopulateCms.PaddedCell | scripts/populate-cms.ts:59 | a clean cell with a space on each side trims back to itself |
| PopulateCms.HeaderIsNotARow | scripts/populate-cms.ts:48 | the header line itself never reads as an item (also lines 62-63) |
| PopulateCms.HeaderPieces | scripts/populate-cms.ts:48 | a line starting `\| #` splits into an empty piece, then one starting ` #` (also line 59) |
| PopulateCms.HashCell | scripts/populate-cms.ts:59-63 | a cell written ` #…` trims to one starting with `#`, which is not a number |
| PopulateCms.NotANumber | scripts/populate-cms.ts:62-63 | a cell starting with `#` is not a number |
| DeleteCms.Name | scripts/delete-cms.ts:33-34 | every schema type's name is one of `VALID_SCHEMA_TYPES` |
| DeleteCms.TypeOf | scripts/delete-cms.ts:152 | a type exactly for the names in `VALID_SCHEMA_TYPES`, and the one with that name |
| DeleteCms.NameRoundTrip | scripts/delete-cms.ts:33-34 | a type's name reads back as that type |
| DeleteCms.Requested | scripts/delete-cms.ts:145-149 | the comma-separated pieces trimmed and lower-cased, the empty ones dropped: none empty, in their order, and every non-empty one kept as many times as it occurs |
| DeleteCms.Normalised | scripts/delete-cms.ts:148 | each piece trimmed and lower-cased, one for one |
| DeleteCms.NonEmpty | scripts/delete-cms.ts:149 | exactly the non-empty strings, in their order and each as many times as it occurs; a list without empty strings is unchanged |
| DeleteCms.FilterKeepsAll | scripts/delete-cms.ts:149 | dropping empty strings from a list without any changes nothing |
| DeleteCms.Types | scripts/delete-cms.ts:164 | one type per valid name, in order, each with that name |
| DeleteCms.Invalid | scripts/delete-cms.ts:152 | the names outside `VALID_SCHEMA_TYPES`; every requested name that is not valid is listed; empty exactly when every name is valid |
| DeleteCms.InvalidExactly | scripts/delete-cms.ts:151-152 | the invalid names are a subsequence of the requested ones, each invalid name kept as many times as it was requested and no valid name kept |
| DeleteCms.ParseArguments | scripts/delete-cms.ts:130-165 | no argument is an error; otherwise success exactly when the first argument requests a non-empty list of valid names, giving their types in order with duplicates kept; an invalid-name error lists the requested invalid names, in order with duplicates kept; the no-valid-types error means nothing was requested; every requested invalid name appears in that error |
| DeleteCms.OnlyFirstArgument | scripts/delete-cms.ts:145 | arguments after the first change nothing |
| DeleteCms.NameIsNormal | scripts/delete-cms.ts:33 | a type's name holds no comma and is already trimmed and lower-cased (also line 148) |
| DeleteCms.LowerWordIsNormal | scripts/delete-cms.ts:148 | a non-empty word of lower-case letters is its own trimmed, lower-cased form |
| DeleteCms.NormalOfFixed | scripts/delete-cms.ts:148 | a trimmed string that lower-casing leaves alone is its own normal form |
| DeleteCms.LowerIsTrimmed | scripts/delete-cms.ts:148 | a word of lower-case letters has no whitespace at either end |
| DeleteCms.LowerKeepsLower | scripts/delete-cms.ts:148 | lower-casing lower-case letters changes nothing |
| DeleteCms.ArgumentRoundTrip | scripts/delete-cms.ts:130-165 | a non-empty list of types written as `item,brand,…` parses back to the same list |
| DeleteCms.NamesAreNormal | scripts/delete-cms.ts:33 | the names of types hold no comma and are trimmed and lower-cased (also line 148) |
| DeleteCms.RequestedOfNormal | scripts/delete-cms.ts:145-149 | joining non-empty normal names with commas and reading the argument gives the names back |
| DeleteCms.ParseValidNames | scripts/delete-cms.ts:151-164 | an argument requesting only valid names parses to their types |
| DeleteCms.Names | scripts/delete-cms.ts:33 | the names of a list of types, in order, none empty |
| DeleteCms.TypesOfNames | scripts/delete-cms.ts:33-34 | reading back the names of types gives the types |
| DeleteCms.NameInjective | scripts/delete-cms.ts:33-34 | different types have different names |
| Text.TrimSpec | scripts/populate-cms.ts:56 | `trim()` gives the empty string exactly when the input is all whitespace; otherwise the result neither starts nor ends with whitespace and is a contiguous piece of the input |
| Text.TrimIdempotent | scripts/populate-cms.ts:56-59 | trimming an already trimmed line changes nothing, so the second `trim()` on each cell of a trimmed line is harmless |
| Text.SplitJoin | scripts/delete-cms.ts:147 | `split(',')` loses nothing: joining the pieces back with `,` gives the original argument |
| Text.JoinSplit | scripts/delete-cms.ts:147 | splitting on `,` a `,`-joined list of pieces that contain no `,` gives the pieces back |
| Text.SortedUnique | src/components/ui/ItemPicker.tsx:27 | `Array.from(new Set(xs)).sort()` is strictly increasing in code-unit order and holds exactly the values of `xs`, each once |
| Seqs.FilterIsSubsequence | src/lib/sanity.ts:154-168 | `filter` keeps a subsequence of its input: the kept items appear in their original order |
| Seqs.FilterMapIsMapOfFilter | src/lib/sanity.ts:154-168 | mapping to an optional value and dropping the missing ones is the same as filtering and then mapping, when the value is present exactly for the items the filter keeps |
| Seqs.FilterMapPicks | scripts/populate-cms.ts:55-73 | mapping to an optional value and dropping the missing ones keeps one value per element that gives one, in order, none missing |
| Seqs.FilterMultiset | scripts/delete-cms.ts:149 | `filter` keeps every item that passes as many times as it occurs and no item that fails |

## Left out

- ShelfCanvas.Mount: the component installs any stored object that has an `items` array, even one whose entries are not placed items (`{"items":[1]}`), because the check at src/lib/shelf-storage.ts:47 looks only at the array. The model's shelf is typed and cannot hold such entries, so the model keeps the canvas as it was in that case. It does not promise what the component then draws.
- Canvas drawing calls, device-pixel-ratio scaling, resize listeners and React hook wiring are left out. Drawing is modelled as the boxes or draw commands the canvas would receive.
- Image loading is asynchronous (`Promise.all` over `Image` loads), so it is left out. Whether an image has loaded is a parameter of the layout.
- `localStorage` is an abstract map, with flags for "there is a window" and "the store accepts the call". `JSON.parse` and `JSON.stringify` are function parameters, and the only fact used about them is that they round-trip the one value being saved or shown: no printer can round-trip every value, since the model's numbers are reals and texts are countable, and `JSON.stringify` does not round-trip `NaN` or `-0`.
- Numbers are Dafny reals, so IEEE-754 rounding, `NaN` and infinities are not modelled. Divisions require non-zero view-box and rect sizes. `Number`/`parseFloat` on view-box parts and attributes are parameters that return `None` for `NaN`. `Math.round(v * 100) / 100` is modelled with `Floor`.
- `getBoundingClientRect`, `fetch`, `DOMParser`, `XMLSerializer` and the JSON download in the pin locator are left out. The rendered SVG size and the loaded file list are inputs.
- The content client is left out: its fetch, create, patch, delete and `createOrReplace` calls. So are environment reads, `process.exit`, `process.argv`, the delay between operations, 403 handling and all logging in the scripts. The deletion script's exits are error results.
- The `_key` values of Portable Text blocks and spans are built from `Date.now()`, so the model takes them as parameters.
- `extractBrands` in `scripts/populate-cms.ts` is left out. It is a hard-coded list of brand patterns and adds nothing beyond the designer extraction.
- `handleItemClick` in src/components/ui/ItemPicker.tsx:74-76 is left out. It only forwards a clicked id to the optional `onItemSelect` callback, which the canvas page does not pass, so a click does nothing the model could state.
- The table reader takes the catalogue file as its list of lines. Reading the file is left out.
- Strings are ASCII only. `trim`, `\s` and `toLowerCase` treat other characters as neither space nor letter. `sort()` compares strings by code unit, as JavaScript's default comparator does.
- `generateCollectionPageSchema` and `generateWebSiteSchema` in `src/lib/structured-data.ts` are left out. They build constant objects from their arguments without any logic.
- Also left out: the admin items table (it uses a filter helper defined in none of the files), the password route, the admin review actions, and every presentational component and page. These are cookie plumbing, network calls or markup.
- PopulateCms.ParseTable: its own contract states only when the header is missing. What the rows of a found table are is stated by PopulateCms.TableRowsFromLines, PopulateCms.TableLinesRead and PopulateCms.TableRowsInOrder.

## Findings

| source | as written | input that shows it | evidently intended | confidence | as-written member | corrected member |
|---|---|---|---|---|---|---|
| src/components/ui/SixZeroSixPreview.tsx:201-220 | The image is placed by the pin's distance from `0 0`. The view box's own origin `vb[0] vb[1]` is ignored. | Pin `(60, 50)` in view box `10 0 100 100`: the pin is drawn 20 px left of the rail. | Place by `pin.x - vb[0]` and `pin.y - vb[1]`, as the pin locator does, so the pin lands on the rail for every view box. | medium, not executed | PreviewLayout.AsWrittenMissesRail | PreviewLayout.PiecesHangOnRails |
| src/app/pin-locator/page.tsx:30-48 | The marker is scaled by `getBoundingClientRect()`, which is already multiplied by the zoom. It is then drawn inside the `scale(zoom)` container, so it is scaled twice. | Zoom 2, 200 px SVG, view box `0 0 100 100`, click 50 px in: the pin is stored at 25, but the marker shows 100 px in. | Divide the rect size by the zoom, as the click handler does, so the marker sits under the click at every zoom. | medium, not executed | PinLocator.AsWrittenMarkerMissesClick | PinLocator.ClickThenMarker |

=== FILE: delete_cms.dfy ===
/** The argument parser of the deletion script: the first command-line argument is a
    comma-separated list of schema types, each of which must be one of the four the content
    schema defines. Where the script prints a message and exits, the model returns an error. */
module DeleteCms {
  import opened Wrappers
  import Text
  import Seqs

  /** `VALID_SCHEMA_TYPES`. */
  datatype SchemaType = ItemType | BrandType | DesignerType | CategoryType

  const ValidSchemaTypes: seq<string> := ["item", "brand", "designer", "category"]

  /** The schema type's name as the content store spells it. */
  function Name(t: SchemaType): (r: string)
    ensures r in ValidSchemaTypes
  {
    match t
    case ItemType => "item"
    case BrandType => "brand"
    case DesignerType => "designer"
    case CategoryType => "category"
  }

  /** `VALID_SCHEMA_TYPES.includes(s)`, with the type it names. */
  function TypeOf(s: string): (r: Option<SchemaType>)
    ensures r.Some? <==> s in ValidSchemaTypes
    ensures r.Some? ==> Name(r.value) == s
  {
    if s == "item" then Some(ItemType)
    else if s == "brand" then Some(BrandType)
    else if s == "designer" then Some(DesignerType)
    else if s == "category" then Some(CategoryType)
    else None
  }

  /** Names and types correspond one to one. */
  lemma NameRoundTrip(t: SchemaType)
    ensures TypeOf(Name(t)) == Some(t)
  {
  }

  /** Why the script exits instead of returning. */
  datatype ArgumentError = NoSchemaTypes | InvalidTypes(invalid: seq<string>) | NoValidSchemaTypes

  /** Helper: `s.trim().toLowerCase()`. */
  function Normal(s: string): string {
    Text.Lower(Text.Trim(s))
  }

  /** The requested names: the argument split on commas, each piece trimmed and lower-cased,
      the empty ones dropped. */
  function Requested(arg: string): (r: seq<string>)
    ensures forall k :: 0 <= k < |r| ==> r[k] != ""
    ensures Seqs.IsSubsequence(r, Normalised(Text.Split(arg, {','})))
    ensures forall p :: p in Text.Split(arg, {','}) && Normal(p) != "" ==> Normal(p) in r
    ensures forall s :: s != "" ==> multiset(r)[s] == multiset(Normalised(Text.Split(arg, {','})))[s]
  {
    NonEmpty(Normalised(Text.Split(arg, {','})))
  }

  /** Helper: each piece normalised. */
  function Normalised(pieces: seq<string>): (r: seq<string>)
    ensures |r| == |pieces|
    ensures forall k :: 0 <= k < |r| ==> r[k] == Normal(pieces[k])
  {
    if |pieces| == 0 then [] else [Normal(pieces[0])] + Normalised(pieces[1..])
  }

  /** Helper: the non-empty strings, in order. */
  function NonEmpty(xs: seq<string>): (r: seq<string>)
    ensures forall k :: 0 <= k < |r| ==> r[k] != ""
    ensures Seqs.IsSubsequence(r, xs)
    ensures forall k :: 0 <= k < |xs| && xs[k] != "" ==> xs[k] in r
    ensures forall s :: s != "" ==> multiset(r)[s] == multiset(xs)[s]
    ensures (forall k :: 0 <= k < |xs| ==> xs[k] != "") ==> r == xs
  {
    var r := Seqs.Filter((s: string) => s != "", xs);
    Seqs.FilterIsSubsequence((s: string) => s != "", xs);
    Seqs.FilterMultiset((s: string) => s != "", xs);
    if forall k :: 0 <= k < |xs| ==> xs[k] != "" then
      FilterKeepsAll(xs);
      r
    else r
  }

  /** Helper: dropping empties from a list with none changes nothing. */
  lemma {:induction false} FilterKeepsAll(xs: seq<string>)
    requires forall k :: 0 <= k < |xs| ==> xs[k] != ""
    ensures Seqs.Filter((s: string) => s != "", xs) == xs
  {
    if |xs| > 0 {
      FilterKeepsAll(xs[1..]);
      assert xs == [xs[0]] + xs[1..];
    }
  }

  /** The types named by a list of valid names, in order. */
  function Types(names: seq<string>): (r: seq<SchemaType>)
    requires forall k :: 0 <= k < |names| ==> names[k] in ValidSchemaTypes
    ensures |r| == |names|
    ensures forall k :: 0 <= k < |r| ==> Name(r[k]) == names[k]
  {
    if |names| == 0 then [] else [TypeOf(names[0]).value] + Types(names[1..])
  }

  /** The names outside `VALID_SCHEMA_TYPES`, in order. */
  function Invalid(names: seq<string>): (r: seq<string>)
    ensures forall k :: 0 <= k < |r| ==> r[k] !in ValidSchemaTypes && r[k] in names
    ensures forall k :: 0 <= k < |names| && names[k] !in ValidSchemaTypes ==> names[k] in r
    ensures |r| == 0 <==> forall k :: 0 <= k < |names| ==> names[k] in ValidSchemaTypes
  {
    if |names| == 0 then []
    else
      var rest := Invalid(names[1..]);
      assert forall k :: 1 <= k < |names| ==> names[k] == names[1..][k - 1];
      if names[0] in ValidSchemaTypes then rest else [names[0]] + rest
  }

  /** The invalid names are reported in the order given, each as often as it was requested:
      exactly `names.filter((n) => !VALID_SCHEMA_TYPES.includes(n))`. */
  lemma {:induction false} InvalidExactly(names: seq<string>)
    ensures Seqs.IsSubsequence(Invalid(names), names)
    ensures forall s :: s !in ValidSchemaTypes ==> multiset(Invalid(names))[s] == multiset(names)[s]
    ensures forall s :: s in ValidSchemaTypes ==> multiset(Invalid(names))[s] == 0
  {
    if |names| > 0 {
      var rest := Invalid(names[1..]);
      InvalidExactly(names[1..]);
      assert names == [names[0]] + names[1..];
      if names[0] in ValidSchemaTypes {
        Seqs.SubsequenceOfTail(rest, names);
      } else {
        assert ([names[0]] + rest)[1..] == rest;
      }
    }
  }

  /** `parseArguments(argv.slice(2))`: the requested types in the order given, duplicates kept,
      or the reason the script stops. */
  function ParseArguments(args: seq<string>): (r: Result<seq<SchemaType>, ArgumentError>)
    ensures |args| == 0 <==> r == Err(NoSchemaTypes)
    ensures |args| > 0 ==> (r.Ok? <==> |Requested(args[0])| > 0 &&
                                        forall k :: 0 <= k < |Requested(args[0])| ==> Requested(args[0])[k] in ValidSchemaTypes)
    ensures r.Ok? ==> |r.value| > 0 && |r.value| == |Requested(args[0])| &&
                      forall k :: 0 <= k < |r.value| ==> Name(r.value[k]) == Requested(args[0])[k]
    ensures r.Err? && r.error.InvalidTypes? ==>
              |r.error.invalid| > 0 &&
              forall k :: 0 <= k < |r.error.invalid| ==> r.error.invalid[k] !in ValidSchemaTypes && r.error.invalid[k] in Requested(args[0])
    ensures r.Err? && r.error.InvalidTypes? ==>
              forall k :: 0 <= k < |Requested(args[0])| && Requested(args[0])[k] !in ValidSchemaTypes ==>
                Requested(args[0])[k] in r.error.invalid
    ensures r.Err? && r.error.InvalidTypes? ==> |args| > 0 && r.error.invalid == Invalid(Requested(args[0]))
    ensures r == Err(NoValidSchemaTypes) ==> |args| > 0 && Requested(args[0]) == []
  {
    if |args| == 0 then Err(NoSchemaTypes)
    else
      var names := Requested(args[0]);
      var invalid := Invalid(names);
      if |invalid| > 0 then Err(InvalidTypes(invalid))
      else if |names| == 0 then Err(NoValidSchemaTypes)
      else Ok(Types(names))
  }

  /** Only the first argument counts. */
  lemma OnlyFirstArgument(first: string, more: seq<string>)
    ensures ParseArguments([first] + more) == ParseArguments([first])
  {
  }

  /** Helper: names of schema types hold no comma and are already trimmed and lower-cased. */
  lemma NameIsNormal(t: SchemaType)
    ensures forall i :: 0 <= i < |Name(t)| ==> Name(t)[i] != ','
    ensures Normal(Name(t)) == Name(t)
  {
    var n := Name(t);
    assert forall i :: 0 <= i < |n| ==> 'a' <= n[i] <= 'z' by {
      match t
      case ItemType =>
      case BrandType =>
      case DesignerType =>
      case CategoryType =>
    }
    LowerWordIsNormal(n);
  }

  /** Helper: a non-empty word of lower-case letters is its own trimmed, lower-cased form. */
  lemma LowerWordIsNormal(n: string)
    requires |n| > 0 && forall i :: 0 <= i < |n| ==> 'a' <= n[i] <= 'z'
    ensures Normal(n) == n
  {
    LowerKeepsLower(n);
    LowerIsTrimmed(n);
    NormalOfFixed(n);
  }

  /** Helper: a trimmed string that lower-casing leaves alone is normal. */
  lemma NormalOfFixed(n: string)
    requires Text.Trimmed(n) && Text.Lower(n) == n
    ensures Normal(n) == n
  {
    Text.TrimmedIsFixed(n);
  }

  /** Helper: a word of lower-case letters has no whitespace at either end. */
  lemma LowerIsTrimmed(n: string)
    requires |n| > 0 && forall i :: 0 <= i < |n| ==> 'a' <= n[i] <= 'z'
    ensures Text.Trimmed(n)
  {
    assert 'a' <= n[0] <= 'z' && 'a' <= n[|n| - 1] <= 'z';
  }

  /** Helper: lower-casing a word of lower-case letters changes nothing. */
  lemma LowerKeepsLower(n: string)
    requires forall i :: 0 <= i < |n| ==> 'a' <= n[i] <= 'z'
    ensures Text.Lower(n) == n
  {
    assert forall i :: 0 <= i < |n| ==> Text.Lower(n)[i] == n[i];
  }

  /** Writing a non-empty list of types back as `item,brand,...` and parsing it gives the
      same list. */
  lemma {:induction false} ArgumentRoundTrip(types: seq<SchemaType>)
    requires |types| > 0
    ensures ParseArguments([Text.Join(Names(types), ",")]) == Ok(types)
  {
    var names := Names(types);
    NamesAreNormal(types);
    RequestedOfNormal(names);
    TypesOfNames(types);
    ParseValidNames([Text.Join(names, ",")], names);
  }

  /** Helper: the names of types hold no comma and are already trimmed and lower-cased. */
  lemma NamesAreNormal(types: seq<SchemaType>)
    ensures forall k :: 0 <= k < |Names(types)| ==> Normal(Names(types)[k]) == Names(types)[k]
    ensures forall k, i :: 0 <= k < |Names(types)| && 0 <= i < |Names(types)[k]| ==> Names(types)[k][i] != ','
  {
    var names := Names(types);
    forall k | 0 <= k < |names| ensures Normal(names[k]) == names[k] {
      NameIsNormal(types[k]);
    }
    forall k, i | 0 <= k < |names| && 0 <= i < |names[k]| ensures names[k][i] != ',' {
      NameIsNormal(types[k]);
    }
  }

  /** Helper: joining non-empty normal names without commas and reading the list back gives
      the names. */
  lemma RequestedOfNormal(names: seq<string>)
    requires |names| > 0
    requires forall k :: 0 <= k < |names| ==> names[k] != "" && Normal(names[k]) == names[k]
    requires forall k, i :: 0 <= k < |names| && 0 <= i < |names[k]| ==> names[k][i] != ','
    ensures Requested(Text.Join(names, ",")) == names
  {
    Text.JoinSplit(names, ',');
    assert Normalised(names) == names;
  }

  /** Helper: an argument list whose first argument requests valid names parses to their types. */
  lemma ParseValidNames(args: seq<string>, names: seq<string>)
    requires |args| > 0 && Requested(args[0]) == names && |names| > 0
    requires forall k :: 0 <= k < |names| ==> names[k] in ValidSchemaTypes
    ensures ParseArguments(args) == Ok(Types(names))
  {
    assert Invalid(names) == [];
  }

  /** The names of a list of types, in order. */
  function Names(types: seq<SchemaType>): (r: seq<string>)
    ensures |r| == |types|
    ensures forall k :: 0 <= k < |r| ==> r[k] == Name(types[k]) && r[k] != ""
  {
    if |types| == 0 then [] else [Name(types[0])] + Names(types[1..])
  }

  /** Helper: reading back the names of a list of types gives the list. */
  lemma TypesOfNames(types: seq<SchemaType>)
    ensures Types(Names(types)) == types
  {
    var names := Names(types);
    var r := Types(names);
    forall k | 0 <= k < |types| ensures r[k] == types[k] {
      NameInjective(r[k], types[k]);
    }
  }

  /** Helper: different types have different names. */
  lemma NameInjective(a: SchemaType, b: SchemaType)
    requires Name(a) == Name(b)
    ensures a == b
  {
    NameRoundTrip(a);
    NameRoundTrip(b);
  }
}

=== FILE: etrack_grid.dfy ===
/** The e-track column grid: the items dealt into a fixed number of columns, each column a
    consecutive run of `ceil(n / columns)` items, and the tracks drawn between columns. */
module ETrackGrid {
  import Seqs

  /** The `columns` prop: one to four, three when not given. */
  type ColumnCount = c: nat | 1 <= c <= 4 witness 3

  const DefaultColumns: ColumnCount := 3

  /** `Math.ceil(n / c)` for a natural `n` and a positive `c`: the fewest runs of `c` that
      cover `n`. */
  function CeilDiv(n: nat, c: nat): (r: nat)
    requires c > 0
    ensures c * r >= n
    ensures r > 0 ==> c * (r - 1) < n
  {
    (n + c - 1) / c
  }

  /** `xs.slice(start, end)` for `start <= end`: indices past the end are cut back to it. */
  function Slice<T>(xs: seq<T>, start: nat, end: nat): (r: seq<T>)
    requires start <= end
    ensures |r| == (if end <= |xs| then end - start else if start <= |xs| then |xs| - start else 0)
    ensures forall k :: 0 <= k < |r| ==> r[k] == xs[start + k]
  {
    if start >= |xs| then [] else if end >= |xs| then xs[start..] else xs[start..end]
  }

  /** Helper: the items up to `m`, cut back to the length of the list. */
  function Prefix<T>(xs: seq<T>, m: nat): seq<T> {
    if m <= |xs| then xs[..m] else xs
  }

  /** Helper: the length of the slice of `per` items starting at `start` of `n`. */
  function ChunkLength(n: nat, start: nat, per: nat): nat {
    if start >= n then 0 else if n - start < per then n - start else per
  }

  /** Helper: a prefix followed by the next slice is the longer prefix. */
  lemma PrefixThenSlice<T>(xs: seq<T>, start: nat, per: nat)
    ensures Prefix(xs, start) + Slice(xs, start, start + per) == Prefix(xs, start + per)
    ensures |Slice(xs, start, start + per)| == ChunkLength(|xs|, start, per)
  {
    if start < |xs| && start + per <= |xs| {
      assert xs[..start + per] == xs[..start] + xs[start..start + per];
    } else if start < |xs| {
      assert xs == xs[..start] + xs[start..];
    }
  }

  /** `columnsData`: column `i` holds items `i·per .. i·per + per` with `per = ceil(n / columns)`. */
  method Distribute<T>(items: seq<T>, columns: ColumnCount) returns (cols: seq<seq<T>>)
    ensures |cols| == columns
    ensures Seqs.Flatten(cols) == items
    ensures forall i :: 0 <= i < |cols| ==> |cols[i]| <= CeilDiv(|items|, columns)
    ensures forall i, j :: 0 <= i < j < |cols| ==> |cols[i]| >= |cols[j]|
    ensures |items| == 0 ==> forall i :: 0 <= i < |cols| ==> cols[i] == []
    ensures forall i :: 0 <= i < |cols| ==>
              cols[i] == Slice(items, i * CeilDiv(|items|, columns), i * CeilDiv(|items|, columns) + CeilDiv(|items|, columns))
  {
    var per := CeilDiv(|items|, columns);
    cols := [];
    var i := 0;
    var start := 0;
    while i < columns
      invariant 0 <= i <= columns && |cols| == i
      invariant ColumnsSoFar(items, per, cols, start)
    {
      var column := Slice(items, start, start + per);
      ExtendColumns(items, per, cols, start);
      cols := cols + [column];
      i := i + 1;
      start := start + per;
    }
    AllColumns(items, columns, cols, start);
  }

  /** Helper: once every column is dealt, the columns hold all the items. */
  lemma AllColumns<T>(items: seq<T>, columns: ColumnCount, cols: seq<seq<T>>, start: nat)
    requires |cols| == columns && ColumnsSoFar(items, CeilDiv(|items|, columns), cols, start)
    ensures Seqs.Flatten(cols) == items
    ensures |items| == 0 ==> forall i :: 0 <= i < |cols| ==> cols[i] == []
  {
    assert Prefix(items, start) == items;
  }

  /** The loop's facts: `cols` are the first columns of `per` items, `start` is where the next
      one begins, no column is longer than `per`, and the columns never grow from left to
      right. */
  ghost predicate ColumnsSoFar<T>(items: seq<T>, per: nat, cols: seq<seq<T>>, start: nat) {
    && start == |cols| * per
    && Seqs.Flatten(cols) == Prefix(items, start)
    && (forall k :: 0 <= k < |cols| ==> |cols[k]| <= per)
    && (forall k :: 0 <= k < |cols| ==> |cols[k]| >= ChunkLength(|items|, start, per))
    && (forall k, j :: 0 <= k < j < |cols| ==> |cols[k]| >= |cols[j]|)
    && ColumnsAreSlices(items, per, cols)
  }

  /** Helper: column `k` is the slice of `per` items starting at `k · per`. */
  ghost predicate ColumnsAreSlices<T>(items: seq<T>, per: nat, cols: seq<seq<T>>) {
    forall k :: 0 <= k < |cols| ==> cols[k] == Slice(items, k * per, k * per + per)
  }

  /** Helper: the slice starting at `|cols| · per` is the next column. */
  lemma ExtendSlices<T>(items: seq<T>, per: nat, cols: seq<seq<T>>, start: nat)
    requires ColumnsAreSlices(items, per, cols) && start == |cols| * per
    ensures ColumnsAreSlices(items, per, cols + [Slice(items, start, start + per)])
  {
    var cols' := cols + [Slice(items, start, start + per)];
    assert forall k :: 0 <= k < |cols| ==> cols'[k] == cols[k];
  }

  /** Helper: one more column keeps the loop's facts. */
  lemma ExtendColumns<T>(items: seq<T>, per: nat, cols: seq<seq<T>>, start: nat)
    requires ColumnsSoFar(items, per, cols, start)
    ensures ColumnsSoFar(items, per, cols + [Slice(items, start, start + per)], start + per)
  {
    NextStart(|cols|, per);
    ExtendFlatten(items, per, cols, start);
    PrefixThenSlice(items, start, per);
    ExtendLengths(|items|, per, cols, Slice(items, start, start + per), start);
    ExtendSlices(items, per, cols, start);
  }

  /** Helper: the next column continues the items where the others stop. */
  lemma ExtendFlatten<T>(items: seq<T>, per: nat, cols: seq<seq<T>>, start: nat)
    requires Seqs.Flatten(cols) == Prefix(items, start)
    ensures Seqs.Flatten(cols + [Slice(items, start, start + per)]) == Prefix(items, start + per)
  {
    var column := Slice(items, start, start + per);
    Seqs.FlattenAppend(cols, [column]);
    assert Seqs.Flatten([column]) == column + Seqs.Flatten([column][1..]);
    PrefixThenSlice(items, start, per);
  }

  /** Helper: a next column of the next chunk's length keeps the length facts. */
  lemma ExtendLengths<T>(n: nat, per: nat, cols: seq<seq<T>>, column: seq<T>, start: nat)
    requires |column| == ChunkLength(n, start, per)
    requires forall k :: 0 <= k < |cols| ==> |cols[k]| <= per
    requires forall k :: 0 <= k < |cols| ==> |cols[k]| >= ChunkLength(n, start, per)
    requires forall k, j :: 0 <= k < j < |cols| ==> |cols[k]| >= |cols[j]|
    ensures forall k :: 0 <= k < |cols| + 1 ==> |(cols + [column])[k]| <= per
    ensures forall k :: 0 <= k < |cols| + 1 ==> |(cols + [column])[k]| >= ChunkLength(n, start + per, per)
    ensures forall k, j :: 0 <= k < j < |cols| + 1 ==> |(cols + [column])[k]| >= |(cols + [column])[j]|
  {
    var cols' := cols + [column];
    assert forall k :: 0 <= k < |cols| ==> cols'[k] == cols[k];
    assert ChunkLength(n, start, per) >= ChunkLength(n, start + per, per);
  }

  /** Helper: the next column starts one run further on. */
  lemma NextStart(i: nat, per: nat)
    ensures i * per + per == (i + 1) * per
  {
  }

  /** The tracks drawn between columns: when shown and there is more than one column,
      `columns - 1` of them at `(i + 1) · 100 / columns` percent. */
  function BetweenTracks(columns: ColumnCount, showBetweenTracks: bool): (r: seq<real>)
    ensures showBetweenTracks && columns > 1 ==> |r| == columns - 1
    ensures !(showBetweenTracks && columns > 1) ==> r == []
  {
    if showBetweenTracks && columns > 1 then
      seq(columns - 1, i requires 0 <= i < columns - 1 => (i + 1) as real * (100.0 / columns as real))
    else []
  }

  /** The between-tracks sit strictly inside the grid, in increasing order, one on each inner
      column boundary. */
  lemma BetweenTracksOrdered(columns: ColumnCount, showBetweenTracks: bool)
    ensures var r := BetweenTracks(columns, showBetweenTracks);
            (forall i :: 0 <= i < |r| ==> 0.0 < r[i] < 100.0) &&
            (forall i, j :: 0 <= i < j < |r| ==> r[i] < r[j]) &&
            (forall i :: 0 <= i < |r| ==> r[i] * columns as real == (i + 1) as real * 100.0)
  {
    BetweenTracksInside(columns, showBetweenTracks);
    BetweenTracksIncrease(columns, showBetweenTracks);
  }

  /** Helper: each between-track sits on its column boundary, strictly inside the grid. */
  lemma BetweenTracksInside(columns: ColumnCount, showBetweenTracks: bool)
    ensures var r := BetweenTracks(columns, showBetweenTracks);
            forall i :: 0 <= i < |r| ==> 0.0 < r[i] < 100.0 && r[i] * columns as real == (i + 1) as real * 100.0
  {
    var r := BetweenTracks(columns, showBetweenTracks);
    var n := columns as real;
    var w := 100.0 / n;
    assert w > 0.0 && w * n == 100.0;
    forall i | 0 <= i < |r|
      ensures 0.0 < r[i] < 100.0 && r[i] * columns as real == (i + 1) as real * 100.0
    {
      TrackAt(columns, showBetweenTracks, i);
      TrackInside((i + 1) as real, n, w);
    }
  }

  /** Helper: the between-tracks increase from left to right. */
  lemma BetweenTracksIncrease(columns: ColumnCount, showBetweenTracks: bool)
    ensures var r := BetweenTracks(columns, showBetweenTracks);
            forall i, j :: 0 <= i < j < |r| ==> r[i] < r[j]
  {
    var r := BetweenTracks(columns, showBetweenTracks);
    var w := 100.0 / columns as real;
    assert w > 0.0;
    forall i, j | 0 <= i < j < |r| ensures r[i] < r[j] {
      TrackAt(columns, showBetweenTracks, i);
      TrackAt(columns, showBetweenTracks, j);
      ScaleIncreases((i + 1) as real, (j + 1) as real, w);
    }
  }

  /** Helper: the `i`-th between-track is `i + 1` steps of `100 / columns`. */
  lemma TrackAt(columns: ColumnCount, showBetweenTracks: bool, i: nat)
    requires i < |BetweenTracks(columns, showBetweenTracks)|
    ensures BetweenTracks(columns, showBetweenTracks)[i] == (i + 1) as real * (100.0 / columns as real)
  {
  }

  /** Helper: the `m`-th of `n` equal steps of `w` lies strictly inside `(0, n·w)`. */
  lemma TrackInside(m: real, n: real, w: real)
    requires 1.0 <= m < n && w > 0.0 && w * n == 100.0
    ensures 0.0 < m * w < 100.0 && m * w * n == m * 100.0
  {
    ScaleIncreases(0.0, m, w);
    ScaleIncreases(m, n, w);
    var x := m * w;
    assert 0.0 < x < 100.0;
    assert x * n == m * (w * n);
  }

  /** Helper: a positive scale keeps the order. */
  lemma ScaleIncreases(a: real, b: real, w: real)
    requires a < b && w > 0.0
    ensures a * w < b * w
  {
  }
}

=== FILE: etrack_row_grid.dfy ===
/** The e-track row grid: the items dealt row by row, `columns` to a row, each short row
    padded with empty cells so every row spans the grid. */
module ETrackRowGrid {
  import opened Wrappers
  import Seqs
  import ETrackGrid

  /** `rowsData`: consecutive runs of `columns` items, the last one possibly shorter. */
  method Rows<T>(items: seq<T>, columns: ETrackGrid.ColumnCount) returns (rows: seq<seq<T>>)
    ensures Seqs.Flatten(rows) == items
    ensures |rows| == ETrackGrid.CeilDiv(|items|, columns)
    ensures forall i :: 0 <= i < |rows| - 1 ==> |rows[i]| == columns
    ensures |rows| > 0 ==> 1 <= |rows[|rows| - 1]| <= columns
  {
    rows := [];
    var i := 0;
    while i < |items|
      invariant RowsSoFar(items, columns, rows, i)
      decreases |items| - i
    {
      var row := ETrackGrid.Slice(items, i, i + columns);
      ExtendRows(items, columns, rows, i);
      rows := rows + [row];
      i := i + columns;
    }
    RowCount(|items|, |rows|, columns);
  }

  /** The loop's facts: `rows` are the rows of the first `i` items, all full except perhaps
      the last, and `i` counts the items they span, reaching past the end by less than a row. */
  ghost predicate RowsSoFar<T>(items: seq<T>, columns: nat, rows: seq<seq<T>>, i: nat) {
    && columns > 0
    && i == |rows| * columns
    && (|rows| > 0 ==> (|rows| - 1) * columns < |items|)
    && Seqs.Flatten(rows) == ETrackGrid.Prefix(items, i)
    && (forall k :: 0 <= k < |rows| - 1 ==> |rows[k]| == columns)
    && (|rows| > 0 ==> 1 <= |rows[|rows| - 1]| <= columns)
    && (|rows| > 0 && i <= |items| ==> |rows[|rows| - 1]| == columns)
  }

  /** Helper: one more row keeps the loop's facts. */
  lemma ExtendRows<T>(items: seq<T>, columns: nat, rows: seq<seq<T>>, i: nat)
    requires RowsSoFar(items, columns, rows, i) && i < |items|
    ensures RowsSoFar(items, columns, rows + [ETrackGrid.Slice(items, i, i + columns)], i + columns)
  {
    var row := ETrackGrid.Slice(items, i, i + columns);
    ETrackGrid.PrefixThenSlice(items, i, columns);
    ETrackGrid.NextStart(|rows|, columns);
    Seqs.FlattenAppend(rows, [row]);
    assert Seqs.Flatten([row]) == row + Seqs.Flatten([row][1..]);
    var rows' := rows + [row];
    assert forall k :: 0 <= k < |rows| ==> rows'[k] == rows[k];
  }

  /** Helper: `r` runs of `c` that reach `n` but whose last run starts before `n` number
      `ceil(n / c)`. */
  lemma RowCount(n: nat, r: nat, c: nat)
    requires c > 0 && r * c >= n && (r > 0 ==> (r - 1) * c < n)
    ensures r == ETrackGrid.CeilDiv(n, c)
  {
    var q := ETrackGrid.CeilDiv(n, c);
    if r < q {
      MulMonotone(r, q - 1, c);
      assert false;
    }
    if q < r {
      MulMonotone(q, r - 1, c);
      assert false;
    }
  }

  /** Helper: multiplying by a natural keeps the order. */
  lemma MulMonotone(a: int, b: int, c: nat)
    requires a <= b
    ensures a * c <= b * c
  {
  }

  /** The cells of one rendered row: its items, then `columns - len` empty cells when it is short. */
  function Cells<T>(row: seq<T>, columns: ETrackGrid.ColumnCount): (r: seq<Option<T>>)
    requires |row| <= columns
    ensures |r| == columns
    ensures forall k :: 0 <= k < |row| ==> r[k] == Some(row[k])
    ensures forall k :: |row| <= k < columns ==> r[k] == None
  {
    var filled := seq(|row|, k requires 0 <= k < |row| => Some(row[k]));
    if |row| < columns then filled + seq(columns - |row|, _ => None) else filled
  }

  /** Every rendered row spans the grid, and reading the cells of all rows in order, skipping
      the empty ones, gives back the items. */
  lemma CellsCoverItems<T>(rows: seq<seq<T>>, columns: ETrackGrid.ColumnCount)
    requires forall i :: 0 <= i < |rows| ==> |rows[i]| <= columns
    ensures forall i :: 0 <= i < |rows| ==> |Cells(rows[i], columns)| == columns
    ensures forall i :: 0 <= i < |rows| ==> Present(Cells(rows[i], columns)) == rows[i]
  {
    forall i | 0 <= i < |rows| ensures Present(Cells(rows[i], columns)) == rows[i] {
      PresentOfCells(rows[i], columns);
    }
  }

  /** The values of the filled cells, in order. */
  function Present<T>(cells: seq<Option<T>>): seq<T> {
    if |cells| == 0 then []
    else if cells[0].Some? then [cells[0].value] + Present(cells[1..])
    else Present(cells[1..])
  }

  /** Helper: the filled cells of a rendered row are its items. */
  lemma {:induction false} PresentOfCells<T>(row: seq<T>, columns: ETrackGrid.ColumnCount)
    requires |row| <= columns
    ensures Present(Cells(row, columns)) == row
  {
    var cells := Cells(row, columns);
    PresentPrefix(cells, |row|);
    assert cells[..|row|] == seq(|row|, k requires 0 <= k < |row| => Some(row[k]));
  }

  /** Helper: when the first `m` cells are filled and the rest are empty, `Present` reads the
      first `m` values. */
  lemma {:induction false} PresentPrefix<T>(cells: seq<Option<T>>, m: nat)
    requires m <= |cells|
    requires forall k :: 0 <= k < m ==> cells[k].Some?
    requires forall k :: m <= k < |cells| ==> cells[k].None?
    ensures Present(cells) == seq(m, k requires 0 <= k < m => cells[k].value)
  {
    if |cells| > 0 {
      if m > 0 {
        PresentPrefix(cells[1..], m - 1);
      } else {
        PresentPrefix(cells[1..], 0);
      }
    }
  }
}

=== FILE: item_picker.dfy ===
/** The item picker beside the shelf canvas: the category and designer facets offered as
    filters, the filtered list, and the id an item carries when dragged onto the canvas. */
module ItemPicker {
  import opened Wrappers
  import Text
  import Seqs
  import ShelfGeometry
  import ShelfCanvas

  /** A catalogue item as the picker reads it; each reference is present or not, and a present
      one has a name. */
  datatype PickerItem = PickerItem(id: string, name: string, category: Option<string>,
                                   designer: Option<string>, brand: Option<string>)

  datatype Facet = CategoryFacet | DesignerFacet

  /** `item.category?.name` or `item.designer?.name`. */
  function NameOf(item: PickerItem, facet: Facet): Option<string> {
    match facet
    case CategoryFacet => item.category
    case DesignerFacet => item.designer
  }

  /** The truthy names of one facet, in item order and with repetitions. */
  function FacetNames(items: seq<PickerItem>, facet: Facet): (r: seq<string>)
    ensures forall n :: n in r <==> n != "" && exists i :: 0 <= i < |items| && NameOf(items[i], facet) == Some(n)
  {
    if |items| == 0 then []
    else
      var rest := FacetNames(items[1..], facet);
      assert forall i :: 1 <= i < |items| ==> items[i] == items[1..][i - 1];
      var head := NameOf(items[0], facet);
      if head.Some? && head.value != "" then [head.value] + rest else rest
  }

  /** `Array.from(new Set(names)).sort()`: the filter options of a facet, sorted, each once,
      and exactly the truthy names present. */
  function Options(items: seq<PickerItem>, facet: Facet): (r: seq<string>)
    ensures Text.StrictlySorted(r)
    ensures forall i, j :: 0 <= i < j < |r| ==> r[i] != r[j]
    ensures forall n :: n in r <==> n != "" && exists i :: 0 <= i < |items| && NameOf(items[i], facet) == Some(n)
  {
    var r := Text.SortedUnique(FacetNames(items, facet));
    Text.StrictlySortedDistinct(r);
    r
  }

  /** `name?.toLowerCase().includes(query) || false`. */
  predicate Mentions(name: Option<string>, query: string) {
    name.Some? && Text.Contains(Text.Lower(name.value), query)
  }

  /** The test an item must pass to stay in the list. */
  predicate Keep(item: PickerItem, searchQuery: string, selectedCategory: string, selectedDesigner: string) {
    (searchQuery != "" ==>
       var q := Text.Lower(searchQuery);
       Mentions(Some(item.name), q) || Mentions(item.designer, q) || Mentions(item.brand, q) || Mentions(item.category, q))
    && (selectedCategory != "" ==> item.category == Some(selectedCategory))
    && (selectedDesigner != "" ==> item.designer == Some(selectedDesigner))
  }

  /** `filteredItems`: the items that pass the search and both selections, in their order. */
  function Filtered(items: seq<PickerItem>, searchQuery: string, selectedCategory: string, selectedDesigner: string)
    : (r: seq<PickerItem>)
    ensures Seqs.IsSubsequence(r, items)
    ensures forall i :: 0 <= i < |r| ==> r[i] in items
    ensures searchQuery != "" ==> forall i :: 0 <= i < |r| ==>
              var q := Text.Lower(searchQuery);
              Mentions(Some(r[i].name), q) || Mentions(r[i].designer, q) || Mentions(r[i].brand, q) || Mentions(r[i].category, q)
    ensures selectedCategory != "" ==> forall i :: 0 <= i < |r| ==> r[i].category == Some(selectedCategory)
    ensures selectedDesigner != "" ==> forall i :: 0 <= i < |r| ==> r[i].designer == Some(selectedDesigner)
    ensures forall i :: 0 <= i < |items| && Keep(items[i], searchQuery, selectedCategory, selectedDesigner) ==> items[i] in r
    ensures forall x :: multiset(r)[x] ==
              if Keep(x, searchQuery, selectedCategory, selectedDesigner) then multiset(items)[x] else 0
  {
    var keep := (item: PickerItem) => Keep(item, searchQuery, selectedCategory, selectedDesigner);
    Seqs.FilterIsSubsequence(keep, items);
    Seqs.FilterMultiset(keep, items);
    Seqs.Filter(keep, items)
  }

  /** Helper: a filter that keeps everything returns its input. */
  lemma {:induction false} FilterKeepsAll<T>(p: T -> bool, xs: seq<T>)
    requires forall i :: 0 <= i < |xs| ==> p(xs[i])
    ensures Seqs.Filter(p, xs) == xs
  {
    if |xs| > 0 {
      FilterKeepsAll(p, xs[1..]);
      assert xs == [xs[0]] + xs[1..];
    }
  }

  /** With no search text and nothing selected, the list shows every item. */
  lemma NoFilterShowsAll(items: seq<PickerItem>)
    ensures Filtered(items, "", "", "") == items
  {
    FilterKeepsAll((item: PickerItem) => Keep(item, "", "", ""), items);
  }

  /** Selecting an offered category leaves a list in which every item has it, and each item
      of that category is still there. */
  lemma SelectedCategoryFilter(items: seq<PickerItem>, category: string)
    requires category in Options(items, CategoryFacet)
    ensures forall i :: 0 <= i < |Filtered(items, "", category, "")| ==>
              Filtered(items, "", category, "")[i].category == Some(category)
    ensures forall i :: 0 <= i < |items| && items[i].category == Some(category) ==>
              items[i] in Filtered(items, "", category, "")
    ensures |Filtered(items, "", category, "")| > 0
  {
    var i :| 0 <= i < |items| && NameOf(items[i], CategoryFacet) == Some(category);
    assert Keep(items[i], "", category, "");
  }

  /** `handleDragStart`: the drag carries the item's id as `text/plain`. */
  function DragPayload(item: PickerItem): (r: (string, string))
    ensures r.1 == item.id
  {
    ("text/plain", item.id)
  }

  /** Dragging an item from the picker onto a slot of the canvas leaves exactly one entry of
      that item on the shelf, at the slot under the cursor, and the ids stay distinct. */
  lemma DragThenDrop(item: PickerItem, c: ShelfCanvas.Canvas, px: real, py: real, canvasWidth: real, canvasHeight: real)
    requires canvasWidth > 0.0 && canvasHeight > 0.0
    requires item.id != "" && ShelfGeometry.ShelfFromPoint(px, py, canvasWidth, canvasHeight).Some?
    requires ShelfCanvas.UniqueIds(c.shelf.items)
    ensures var r := ShelfCanvas.Drop(c, DragPayload(item).1, px, py, canvasWidth, canvasHeight);
            ShelfCanvas.UniqueIds(r.shelf.items) &&
            exists k :: 0 <= k < |r.shelf.items| && r.shelf.items[k].itemId == item.id &&
                        ShelfCanvas.AtHit(r.shelf.items[k], ShelfGeometry.ShelfFromPoint(px, py, canvasWidth, canvasHeight).value)
  {
    ShelfCanvas.DropKeepsIdsUnique(c.shelf.items, item.id, ShelfGeometry.ShelfFromPoint(px, py, canvasWidth, canvasHeight).value);
  }
}

=== FILE: json.dfy ===
/** An abstract JSON value: what `JSON.parse` produces and `JSON.stringify` consumes. The
    text codec itself is not modelled; modules that parse or stringify take the codec as a
    function parameter and state the only fact they rely on, the round trip. */
module Json {
  import opened Wrappers

  datatype Json =
    | JNull
    | JBool(b: bool)
    | JNum(n: real)
    | JStr(s: string)
    | JArr(elems: seq<Json>)
    | JObj(fields: map<string, Json>)

  /** What `value.key` evaluates to in JavaScript for a parsed value: an object's field,
      `undefined` for a missing field or a non-object, and a `TypeError` for `null`. */
  datatype Access = Found(v: Json) | Undefined | Throws

  function Get(j: Json, key: string): (r: Access)
    ensures r.Throws? <==> j.JNull?
    ensures r.Found? <==> j.JObj? && key in j.fields
  {
    match j
    case JNull => Throws
    case JObj(f) => if key in f then Found(f[key]) else Undefined
    case _ => Undefined
  }

  /** `JSON.parse(text)` either yields a value or throws a `SyntaxError` with a message. */
  type Parser = string -> Result<Json, string>

  /** `JSON.stringify(value)`. */
  type Printer = Json -> string

  /** Printing `j` and then parsing the text gives `j` back. Only the one value a caller
      saves is asked to round-trip: no printer can do so for every value (numbers are reals,
      texts are countable), and `JSON.stringify` does not for `NaN` or `-0`. */
  ghost predicate RoundTripsOn(parse: Parser, stringify: Printer, j: Json) {
    parse(stringify(j)) == Ok(j)
  }

  /** `Number.isInteger(n)`. */
  predicate IsInteger(n: real) {
    n.Floor as real == n
  }
}

=== FILE: migrate_descriptions.dfy ===
/** The description migration script: plain-text descriptions become Portable Text, one
    `block` per paragraph, and the per-item decision between patching and skipping. The
    content client is left out; `_key` values are parameters because the script stamps them
    with the clock. */
module MigrateDescriptions {
  import opened Wrappers
  import opened Json
  import Text
  import Seqs

  // ---------------------------------------------------------------------------
  // Paragraphs

  /** Drops the leading newlines. */
  function SkipNewlines(s: string): (r: string)
    ensures |r| <= |s| && r == s[|s| - |r|..]
    ensures forall i :: 0 <= i < |s| - |r| ==> s[i] == '\n'
    ensures |r| > 0 ==> r[0] != '\n'
  {
    if |s| > 0 && s[0] == '\n' then SkipNewlines(s[1..]) else s
  }

  /** `text.split(/\n\n+/)`: the pieces between runs of two or more newlines. */
  function Paragraphs(s: string): (r: seq<string>)
    ensures |r| >= 1
    decreases |s|
  {
    if |s| == 0 then [""]
    else if |s| >= 2 && s[0] == '\n' && s[1] == '\n' then [""] + Paragraphs(SkipNewlines(s))
    else
      var rest := Paragraphs(s[1..]);
      [[s[0]] + rest[0]] + rest[1..]
  }

  /** The runs of two or more newlines that `Paragraphs` splits at, in order. */
  function Separators(s: string): (r: seq<string>)
    ensures forall k :: 0 <= k < |r| ==> NewlineRun(r[k])
    decreases |s|
  {
    if |s| == 0 then []
    else if |s| >= 2 && s[0] == '\n' && s[1] == '\n' then
      var t := SkipNewlines(s);
      assert |t| <= |s| - 2;
      [s[..|s| - |t|]] + Separators(t)
    else Separators(s[1..])
  }

  /** A match of `\n\n+`: two or more newlines. */
  predicate NewlineRun(x: string) {
    |x| >= 2 && forall i :: 0 <= i < |x| ==> x[i] == '\n'
  }

  /** The pieces with the separators put back between them. */
  function Interleave(pieces: seq<string>, seps: seq<string>): string
    requires |pieces| == |seps| + 1
    decreases |seps|
  {
    if |seps| == 0 then pieces[0] else pieces[0] + seps[0] + Interleave(pieces[1..], seps[1..])
  }

  /** The split loses nothing: putting the newline runs back between the paragraphs, in order,
      gives the text. */
  lemma {:induction false} ParagraphsRejoin(s: string)
    ensures |Separators(s)| == |Paragraphs(s)| - 1
    ensures Interleave(Paragraphs(s), Separators(s)) == s
    decreases |s|
  {
    if |s| >= 2 && s[0] == '\n' && s[1] == '\n' {
      ParagraphsRejoin(SkipNewlines(s));
      RejoinAtBreak(s);
    } else if |s| > 0 {
      ParagraphsRejoin(s[1..]);
      RejoinAtChar(s);
    }
  }

  /** The paragraphs of `s` with its separators put back between them give `s`. */
  predicate Rejoins(s: string) {
    |Separators(s)| == |Paragraphs(s)| - 1 && Interleave(Paragraphs(s), Separators(s)) == s
  }

  /** Helper: at a break, the text rejoins when what follows the newline run does. */
  lemma RejoinAtBreak(s: string)
    requires |s| >= 2 && s[0] == '\n' && s[1] == '\n'
    requires Rejoins(SkipNewlines(s))
    ensures Rejoins(s)
  {
    var t := SkipNewlines(s);
    var run := s[..|s| - |t|];
    BreakParts(s);
    var ps := Paragraphs(s);
    var ss := Separators(s);
    assert ps[0] == "" && ps[1..] == Paragraphs(t);
    assert ss[0] == run && ss[1..] == Separators(t);
    assert Interleave(ps, ss) == ps[0] + ss[0] + Interleave(Paragraphs(t), Separators(t));
    assert "" + run == run;
  }

  /** Helper: at a break, the first paragraph is empty, the first separator is the newline
      run, and the rest are those of the text after the run. */
  lemma BreakParts(s: string)
    requires |s| >= 2 && s[0] == '\n' && s[1] == '\n'
    ensures var t := SkipNewlines(s);
            && Paragraphs(s) == [""] + Paragraphs(t)
            && Separators(s) == [s[..|s| - |t|]] + Separators(t)
            && s[..|s| - |t|] + t == s
  {
    var t := SkipNewlines(s);
    var k := |s| - |t|;
    assert t == s[k..];
    RunThenRest(s, k);
  }

  /** Helper: a text is its first `k` characters followed by the rest. */
  lemma RunThenRest(s: string, k: nat)
    requires k <= |s|
    ensures s[..k] + s[k..] == s
  {
  }

  /** Helper: away from a break, the text rejoins when its tail does. */
  lemma RejoinAtChar(s: string)
    requires |s| > 0 && !(|s| >= 2 && s[0] == '\n' && s[1] == '\n')
    requires Rejoins(s[1..])
    ensures Rejoins(s)
  {
    PrefixFirstPiece(s[0], Paragraphs(s[1..]), Separators(s[1..]));
    assert [s[0]] + s[1..] == s;
  }

  /** Helper: a character put in front of the first piece comes first in the rejoined text. */
  lemma PrefixFirstPiece(c: char, pieces: seq<string>, seps: seq<string>)
    requires |pieces| == |seps| + 1
    ensures Interleave([[c] + pieces[0]] + pieces[1..], seps) == [c] + Interleave(pieces, seps)
  {
    var q := [[c] + pieces[0]] + pieces[1..];
    assert q[1..] == pieces[1..];
  }

  /** No paragraph holds two newlines in a row, and none starts with a newline that follows a
      split. */
  lemma {:induction false} ParagraphsHaveNoBreak(s: string)
    ensures forall k, i :: 0 <= k < |Paragraphs(s)| && 0 <= i < |Paragraphs(s)[k]| - 1 ==>
              !(Paragraphs(s)[k][i] == '\n' && Paragraphs(s)[k][i + 1] == '\n')
    decreases |s|
  {
    if |s| >= 2 && s[0] == '\n' && s[1] == '\n' {
      ParagraphsHaveNoBreak(SkipNewlines(s));
    } else if |s| > 0 {
      var rest := Paragraphs(s[1..]);
      ParagraphsHaveNoBreak(s[1..]);
      var first := [s[0]] + rest[0];
      forall i | 0 <= i < |first| - 1 ensures !(first[i] == '\n' && first[i + 1] == '\n') {
        if i == 0 && s[0] == '\n' {
          // a newline followed by another one would have been a split
          assert |s| >= 2 && s[1] != '\n';
          assert first[1] == s[1] by {
            ParagraphStartsWith(s[1..]);
          }
        } else if i > 0 {
          assert first[i] == rest[0][i - 1] && first[i + 1] == rest[0][i];
        }
      }
    }
  }

  /** Helper: the first paragraph starts with the first character, unless a split comes first. */
  lemma ParagraphStartsWith(s: string)
    requires |s| > 0 && !(|s| >= 2 && s[0] == '\n' && s[1] == '\n')
    ensures |Paragraphs(s)[0]| > 0 && Paragraphs(s)[0][0] == s[0]
  {
  }

  /** When every paragraph is blank the text is blank: nothing but whitespace is lost by the
      split. */
  lemma {:induction false} BlankParagraphs(s: string)
    requires forall k :: 0 <= k < |Paragraphs(s)| ==> Text.IsBlank(Paragraphs(s)[k])
    ensures Text.IsBlank(s)
    decreases |s|
  {
    if |s| >= 2 && s[0] == '\n' && s[1] == '\n' {
      var t := SkipNewlines(s);
      assert forall k :: 0 <= k < |Paragraphs(t)| ==> Paragraphs(t)[k] == Paragraphs(s)[k + 1];
      BlankParagraphs(t);
      assert forall i :: 0 <= i < |s| ==> Text.IsSpace(s[i]) by {
        forall i | 0 <= i < |s| ensures Text.IsSpace(s[i]) {
          if i >= |s| - |t| {
            assert s[i] == t[i - (|s| - |t|)];
          }
        }
      }
    } else if |s| > 0 {
      var rest := Paragraphs(s[1..]);
      var first := Paragraphs(s)[0];
      assert first == [s[0]] + rest[0];
      assert Text.IsSpace(first[0]);
      assert forall i :: 0 <= i < |rest[0]| ==> rest[0][i] == first[i + 1];
      assert forall k :: 1 <= k < |rest| ==> rest[k] == Paragraphs(s)[k];
      BlankParagraphs(s[1..]);
      assert forall i :: 1 <= i < |s| ==> s[i] == s[1..][i - 1];
    }
  }

  /** `paragraph.replace(/\n/g, ' ')`. */
  function NewlinesToSpaces(p: string): (r: string)
    ensures |r| == |p|
    ensures forall i :: 0 <= i < |r| ==> r[i] != '\n'
    ensures forall i :: 0 <= i < |r| ==> (Text.IsSpace(r[i]) <==> Text.IsSpace(p[i]))
  {
    seq(|p|, i requires 0 <= i < |p| => if p[i] == '\n' then ' ' else p[i])
  }

  /** The text of a paragraph's block: newlines turned into spaces, then trimmed. */
  function CleanText(p: string): (r: string)
    requires !Text.IsBlank(p)
    ensures r != "" && !Text.IsSpace(r[0]) && !Text.IsSpace(r[|r| - 1])
    ensures forall i :: 0 <= i < |r| ==> r[i] != '\n'
  {
    var q := NewlinesToSpaces(p);
    assert !Text.IsBlank(q);
    Text.TrimBlank(q);
    Text.TrimAvoids(q, {'\n'});
    Text.Trim(q)
  }

  /** The non-blank paragraphs, in order, each as often as it occurs. */
  function NonBlank(ps: seq<string>): (r: seq<string>)
    ensures forall k :: 0 <= k < |r| ==> !Text.IsBlank(r[k]) && r[k] in ps
    ensures forall k :: 0 <= k < |ps| && !Text.IsBlank(ps[k]) ==> ps[k] in r
    ensures |r| == 0 <==> forall k :: 0 <= k < |ps| ==> Text.IsBlank(ps[k])
    ensures Seqs.IsSubsequence(r, ps)
    ensures forall x :: multiset(r)[x] == if Text.IsBlank(x) then 0 else multiset(ps)[x]
  {
    var keep := (p: string) => !Text.IsBlank(p);
    Seqs.FilterIsSubsequence(keep, ps);
    Seqs.FilterMultiset(keep, ps);
    Seqs.Filter(keep, ps)
  }

  // ---------------------------------------------------------------------------
  // Blocks

  /** The `_key` values; the script builds them from the index and `Date.now()`. */
  type KeyOf = nat -> string

  /** A block of style `normal` whose one child is a `span` of the given text with no marks. */
  predicate IsBlockOf(b: Json, text: string) {
    Get(b, "_type") == Found(JStr("block")) && Get(b, "style") == Found(JStr("normal")) &&
    SpanOf(b).Found? && Get(SpanOf(b).v, "_type") == Found(JStr("span")) &&
    Get(SpanOf(b).v, "marks") == Found(JArr([])) && Get(SpanOf(b).v, "text") == Found(JStr(text))
  }

  /** The block's one span. */
  function SpanOf(b: Json): Access {
    match Get(b, "children")
    case Found(JArr(children)) => if |children| == 1 then Found(children[0]) else Undefined
    case _ => Undefined
  }

  /** The block the script builds for the paragraph at `index`. */
  function Block(text: string, index: nat, blockKey: KeyOf, spanKey: KeyOf): (r: Json)
    ensures IsBlockOf(r, text)
    ensures Get(r, "_key") == Found(JStr(blockKey(index)))
  {
    var span := JObj(map["_type" := JStr("span"), "_key" := JStr(spanKey(index)), "text" := JStr(text), "marks" := JArr([])]);
    JObj(map["_type" := JStr("block"), "_key" := JStr(blockKey(index)), "style" := JStr("normal"), "children" := JArr([span])])
  }

  /** The blocks of the given paragraphs, the one at `k` keyed by `k`. */
  function Blocks(paragraphs: seq<string>, blockKey: KeyOf, spanKey: KeyOf): (r: seq<Json>)
    requires forall k :: 0 <= k < |paragraphs| ==> !Text.IsBlank(paragraphs[k])
    ensures |r| == |paragraphs|
    ensures forall k :: 0 <= k < |r| ==> IsBlockOf(r[k], CleanText(paragraphs[k]))
    ensures forall k :: 0 <= k < |r| ==> Get(r[k], "_key") == Found(JStr(blockKey(k)))
  {
    seq(|paragraphs|, k requires 0 <= k < |paragraphs| => Block(CleanText(paragraphs[k]), k, blockKey, spanKey))
  }

  /** `textToPortableText(text)`: nothing for a value that is not a non-empty string, else one
      block per non-blank paragraph, each with the paragraph's cleaned text. */
  function ToPortableText(text: Json, blockKey: KeyOf, spanKey: KeyOf): (r: seq<Json>)
    ensures !(text.JStr? && text.s != "") ==> r == []
    ensures text.JStr? && text.s != "" ==>
              |r| == |NonBlank(Paragraphs(text.s))| &&
              forall k :: 0 <= k < |r| ==> IsBlockOf(r[k], CleanText(NonBlank(Paragraphs(text.s))[k]))
  {
    if !(text.JStr? && text.s != "") then []
    else Blocks(NonBlank(Paragraphs(text.s)), blockKey, spanKey)
  }

  /** `isPortableText(description)`: a non-empty array whose first element has `_type` `block`. */
  predicate IsPortableText(d: Json) {
    d.JArr? && |d.elems| > 0 && Get(d.elems[0], "_type") == Found(JStr("block"))
  }

  /** The conversion of a non-blank text is Portable Text; of a blank one, nothing. */
  lemma ConvertedIsPortableText(text: string, blockKey: KeyOf, spanKey: KeyOf)
    ensures Text.IsBlank(text) ==> ToPortableText(JStr(text), blockKey, spanKey) == []
    ensures !Text.IsBlank(text) ==> IsPortableText(JArr(ToPortableText(JStr(text), blockKey, spanKey)))
  {
    var ps := Paragraphs(text);
    if !Text.IsBlank(text) {
      if forall k :: 0 <= k < |ps| ==> Text.IsBlank(ps[k]) {
        BlankParagraphs(text);
      }
    } else if text != "" {
      forall k | 0 <= k < |ps| ensures Text.IsBlank(ps[k]) {
        ParagraphsOfBlank(text, k);
      }
    }
  }

  /** Helper: the paragraphs of a blank text are blank. */
  lemma {:induction false} ParagraphsOfBlank(s: string, k: nat)
    requires Text.IsBlank(s) && k < |Paragraphs(s)|
    ensures Text.IsBlank(Paragraphs(s)[k])
    decreases |s|
  {
    if |s| >= 2 && s[0] == '\n' && s[1] == '\n' {
      var t := SkipNewlines(s);
      if k > 0 {
        assert forall i :: 0 <= i < |t| ==> t[i] == s[i + (|s| - |t|)];
        ParagraphsOfBlank(t, k - 1);
      }
    } else if |s| > 0 {
      var rest := Paragraphs(s[1..]);
      if k == 0 {
        if |rest[0]| > 0 { ParagraphsOfBlank(s[1..], 0); }
      } else {
        ParagraphsOfBlank(s[1..], k);
      }
    }
  }

  // ---------------------------------------------------------------------------
  // The per-item decision

  datatype SkipReason = AlreadyPortableText | NotAString | EmptyDescription | EmptyAfterConversion

  /** Left out of the run (no string description), skipped with a reason, or patched with blocks. */
  datatype Decision = NotSelected | Skip(reason: SkipReason) | Patch(blocks: seq<Json>)

  /** The script's treatment of one fetched item, given its `description` (`None` when the
      field is undefined). */
  function Decide(description: Option<Json>, blockKey: KeyOf, spanKey: KeyOf): (r: Decision)
    ensures r.Patch? <==> description.Some? && description.value.JStr? && !Text.IsBlank(description.value.s)
    ensures r.Patch? ==> r.blocks == ToPortableText(description.value, blockKey, spanKey) && IsPortableText(JArr(r.blocks))
    ensures description.Some? && description.value.JStr? && Text.IsBlank(description.value.s) ==> r == Skip(EmptyDescription)
    ensures !(description.Some? && description.value.JStr?) ==> r == NotSelected
  {
    if !(description.Some? && description.value.JStr?) then NotSelected
    else
      var d := description.value;
      if IsPortableText(d) then Skip(AlreadyPortableText)
      else if !d.JStr? then Skip(NotAString)
      else if d.s == "" || Text.Trim(d.s) == "" then
        Text.TrimSpec(d.s);
        Skip(EmptyDescription)
      else
        var blocks := ToPortableText(d, blockKey, spanKey);
        Text.TrimSpec(d.s);
        ConvertedIsPortableText(d.s, blockKey, spanKey);
        if |blocks| == 0 then Skip(EmptyAfterConversion) else Patch(blocks)
  }

  /** Running the migration again changes nothing: a patched description is an array, which
      the next run leaves out. */
  lemma MigrationIdempotent(description: Option<Json>, blockKey: KeyOf, spanKey: KeyOf, blockKey2: KeyOf, spanKey2: KeyOf)
    ensures var r := Decide(description, blockKey, spanKey);
            r.Patch? ==> Decide(Some(JArr(r.blocks)), blockKey2, spanKey2) == NotSelected
  {
  }
}

=== FILE: pin_locator.dfy ===
/** The pin locator page: the mapping from a click on the displayed SVG to a point in the
    SVG's own coordinates, the marker drawn back over a stored pin, the map of pins per
    file, and the zoom and file-navigation controls. */
module PinLocator {
  import opened Wrappers
  import opened ViewBox

  /** A stored pin: a point in SVG coordinates and the view box text it was taken in. */
  datatype PinLocation = PinLocation(x: real, y: real, viewBox: Option<string>)

  /** The size `getBoundingClientRect()` reports for the displayed SVG: screen pixels, so
      already multiplied by the zoom of the container it sits in. */
  datatype Rect = Rect(width: real, height: real)

  /** A point, in whatever units the context says. */
  datatype Point = Point(x: real, y: real)

  // ---------------------------------------------------------------------------
  // Zoom

  const ZoomStep: real := 0.25
  const MinZoom: real := 0.5
  const MaxZoom: real := 3.0

  /** `Math.min(prev + 0.25, 3)`. */
  function ZoomIn(z: real): (r: real)
    ensures r <= MaxZoom
    ensures z <= MaxZoom - ZoomStep ==> r == z + ZoomStep
    ensures z >= MaxZoom - ZoomStep ==> r == MaxZoom
  {
    if z + ZoomStep < MaxZoom then z + ZoomStep else MaxZoom
  }

  /** `Math.max(prev - 0.25, 0.5)`. */
  function ZoomOut(z: real): (r: real)
    ensures r >= MinZoom
    ensures z >= MinZoom + ZoomStep ==> r == z - ZoomStep
    ensures z <= MinZoom + ZoomStep ==> r == MinZoom
  {
    if z - ZoomStep > MinZoom then z - ZoomStep else MinZoom
  }

  /** The zoom levels the controls can produce: quarter steps from 0.5 to 3. */
  predicate OnGrid(z: real) {
    MinZoom <= z <= MaxZoom && (z * 4.0).Floor as real == z * 4.0
  }

  /** Zooming in and then out (or out and then in) returns to the level one started from,
      away from the clamps; both steps keep the zoom on its grid. */
  lemma ZoomInOut(z: real)
    requires OnGrid(z)
    ensures OnGrid(ZoomIn(z)) && OnGrid(ZoomOut(z))
    ensures z <= MaxZoom - ZoomStep ==> ZoomOut(ZoomIn(z)) == z
    ensures z >= MinZoom + ZoomStep ==> ZoomIn(ZoomOut(z)) == z
  {
    var k := (z * 4.0).Floor;
    assert ZoomIn(z) * 4.0 == if z + ZoomStep < MaxZoom then (k + 1) as real else 12.0;
    assert ZoomOut(z) * 4.0 == if z - ZoomStep > MinZoom then (k - 1) as real else 2.0;
  }

  // ---------------------------------------------------------------------------
  // Page state

  /** `svgFiles`, `currentIndex`, `pinData`, `viewBox` and `zoom`. */
  datatype Locator = Locator(files: seq<string>, index: int, pins: map<string, PinLocation>,
                             viewBox: string, zoom: real)

  /** The state before the file list arrives. */
  const Initial: Locator := Locator([], 0, map[], "", 1.0)

  /** The index stays on a listed file (or at 0 while there are none) and the zoom on its grid. */
  predicate Valid(s: Locator) {
    0 <= s.index && (s.index < |s.files| || s.index == 0) && OnGrid(s.zoom)
  }

  /** `svgFiles[currentIndex]` when it is a truthy string. */
  function CurrentFile(s: Locator): (r: Option<string>)
    ensures r.Some? <==> 0 <= s.index < |s.files| && s.files[s.index] != ""
    ensures r.Some? ==> r.value == s.files[s.index]
  {
    if 0 <= s.index < |s.files| && s.files[s.index] != "" then Some(s.files[s.index]) else None
  }

  /** The file-list response: a non-empty list replaces the (empty) one; anything else is ignored. */
  function FilesLoaded(s: Locator, files: seq<string>): (r: Locator)
    ensures |files| > 0 ==> r.files == files && r.index == s.index
    ensures |files| == 0 ==> r == s
    ensures r.pins == s.pins && r.zoom == s.zoom
  {
    if |files| > 0 then s.(files := files) else s
  }

  /** The view box `loadSvg` records for a file: the `viewBox` attribute, else the `width`
      attribute, else `"0 0 100 100"`, each taken only when it is a non-empty string. */
  function ChooseViewBox(viewBoxAttr: Option<string>, widthAttr: Option<string>): (r: string)
    ensures r != ""
    ensures viewBoxAttr.Some? && viewBoxAttr.value != "" ==> r == viewBoxAttr.value
    ensures (viewBoxAttr.None? || viewBoxAttr.value == "") && widthAttr.Some? && widthAttr.value != "" ==>
              r == widthAttr.value
    ensures (viewBoxAttr.None? || viewBoxAttr.value == "") && (widthAttr.None? || widthAttr.value == "") ==>
              r == "0 0 100 100"
  {
    if viewBoxAttr.Some? && viewBoxAttr.value != "" then viewBoxAttr.value
    else if widthAttr.Some? && widthAttr.value != "" then widthAttr.value
    else "0 0 100 100"
  }

  /** A file without `viewBox` and `width` attributes gets a usable 100 by 100 view box. */
  lemma DefaultViewBoxUsable(toNumber: NumberOf)
    requires toNumber("0") == Some(0.0) && toNumber("100") == Some(100.0)
    ensures Parse(ChooseViewBox(None, None), toNumber) == Some(Frame(0.0, 0.0, 100.0, 100.0))
  {
    DefaultParts();
  }

  /** The SVG content arrives: the page records the chosen view box. */
  function SvgLoaded(s: Locator, viewBoxAttr: Option<string>, widthAttr: Option<string>): (r: Locator)
    ensures r.viewBox != ""
    ensures r.files == s.files && r.index == s.index && r.pins == s.pins && r.zoom == s.zoom
  {
    s.(viewBox := ChooseViewBox(viewBoxAttr, widthAttr))
  }

  // ---------------------------------------------------------------------------
  // Navigation

  /** `goToNext`: one file on, unless already at the last. */
  function GoToNext(s: Locator): (r: Locator)
    ensures s.index < |s.files| - 1 ==> r.index == s.index + 1
    ensures s.index >= |s.files| - 1 ==> r == s
    ensures r == s.(index := r.index)
  {
    if s.index < |s.files| - 1 then s.(index := s.index + 1) else s
  }

  /** `goToPrevious`: one file back, unless already at the first. */
  function GoToPrevious(s: Locator): (r: Locator)
    ensures s.index > 0 ==> r.index == s.index - 1
    ensures s.index <= 0 ==> r == s
    ensures r == s.(index := r.index)
  {
    if s.index > 0 then s.(index := s.index - 1) else s
  }

  /** `goToFile(index)`, called from the gallery with the index of a listed file: that file,
      at zoom 1. */
  function GoToFile(s: Locator, index: int): (r: Locator)
    requires 0 <= index < |s.files|
    ensures CurrentFile(r).Some? ==> CurrentFile(r).value == s.files[index]
    ensures r.zoom == 1.0 && r.files == s.files && r.pins == s.pins && r.viewBox == s.viewBox
  {
    s.(index := index, zoom := 1.0)
  }

  /** Stepping forward and back (or back and forward) away from the ends returns to the same file. */
  lemma NextPreviousInverse(s: Locator)
    requires Valid(s)
    ensures s.index < |s.files| - 1 ==> GoToPrevious(GoToNext(s)) == s
    ensures s.index > 0 ==> GoToNext(GoToPrevious(s)) == s
  {
  }

  // ---------------------------------------------------------------------------
  // Click and marker geometry

  /** `parseFloat(attr) || fallback`: a parsed size unless it is `NaN` or zero. */
  function SizeOr(parsed: Option<real>, fallback: real): real {
    if parsed.Some? && parsed.value != 0.0 then parsed.value else fallback
  }

  /** A truthy attribute value. */
  predicate Present(attr: Option<string>) {
    attr.Some? && attr.value != ""
  }

  /** A usable view box does not have a zero width or height (the page divides by them). */
  predicate FrameNonZero(viewBox: string, toNumber: NumberOf) {
    Parse(viewBox, toNumber).Some? ==>
      Parse(viewBox, toNumber).value.width != 0.0 && Parse(viewBox, toNumber).value.height != 0.0
  }

  /** Helper: dividing numerator and denominator by the same zoom changes nothing. */
  lemma ZoomCancels(a: real, b: real, z: real)
    requires b != 0.0 && z != 0.0
    ensures (a / z) / (b / z) == a / b
  {
    calc {
      (a / z) / (b / z);
      (a / z) * (z / b);
      a / b;
    }
  }

  /** `handleSvgClick`'s conversion of the click offset `(ox, oy)` from the displayed SVG's
      top-left corner, in screen pixels, into SVG coordinates. */
  function ClickToSvg(ox: real, oy: real, rect: Rect, zoom: real, viewBox: string,
                      widthAttr: Option<string>, heightAttr: Option<string>,
                      parseFloat: NumberOf, toNumber: NumberOf): (r: Point)
    requires zoom > 0.0 && rect.width > 0.0 && rect.height > 0.0
    ensures Parse(viewBox, toNumber).Some? ==>
              var f := Parse(viewBox, toNumber).value;
              r == Point(ox / rect.width * f.width + f.minX, oy / rect.height * f.height + f.minY)
    ensures Parse(viewBox, toNumber).None? && Present(widthAttr) && Present(heightAttr) ==>
              r == Point(ox / rect.width * SizeOr(parseFloat(widthAttr.value), rect.width / zoom),
                    oy / rect.height * SizeOr(parseFloat(heightAttr.value), rect.height / zoom))
    ensures Parse(viewBox, toNumber).None? && !(Present(widthAttr) && Present(heightAttr)) ==>
              r == Point(ox / zoom, oy / zoom)
  {
    var clickX := ox / zoom;
    var clickY := oy / zoom;
    var svgWidth := rect.width / zoom;
    var svgHeight := rect.height / zoom;
    ZoomCancels(ox, rect.width, zoom);
    ZoomCancels(oy, rect.height, zoom);
    assert clickX / svgWidth == ox / rect.width;
    assert clickY / svgHeight == oy / rect.height;
    match Parse(viewBox, toNumber)
    case Some(f) =>
      Point(clickX / svgWidth * f.width + f.minX, clickY / svgHeight * f.height + f.minY)
    case None =>
      if Present(widthAttr) && Present(heightAttr) then
        var width := SizeOr(parseFloat(widthAttr.value), svgWidth);
        var height := SizeOr(parseFloat(heightAttr.value), svgHeight);
        Point(clickX / svgWidth * width, clickY / svgHeight * height)
      else Point(clickX, clickY)
  }

  /** Where the marker's `left`/`top` appears on screen: it sits inside the container scaled
      by `zoom`, so its offset from the SVG's corner is multiplied by the zoom. */
  function Displayed(zoom: real, marker: Point): Point {
    Point(zoom * marker.x, zoom * marker.y)
  }

  /** `PinMarker` as written: a usable view box maps the pin with the on-screen rectangle's
      size, which already includes the zoom. */
  function MarkerAsWritten(pin: PinLocation, viewBox: string, rect: Rect, toNumber: NumberOf): Point
    requires FrameNonZero(viewBox, toNumber)
  {
    match Parse(viewBox, toNumber)
    case Some(f) => Point((pin.x - f.minX) / f.width * rect.width, (pin.y - f.minY) / f.height * rect.height)
    case None => Point(pin.x, pin.y)
  }

  /** Helper: scaling into a frame and back out of it returns the original offset. */
  lemma FrameRoundTrip(o: real, size: real, extent: real, origin: real)
    requires size != 0.0 && extent != 0.0
    ensures (o / size * extent + origin - origin) / extent * size == o
  {
    calc {
      (o / size * extent + origin - origin) / extent * size;
      (o / size * extent) / extent * size;
      o / size * size;
      o;
    }
  }

  /** With a usable view box, the as-written marker lands at the click offset times the
      zoom: the marker drifts away from the click whenever the zoom is not 1. */
  lemma AsWrittenMarkerScaledByZoom(ox: real, oy: real, rect: Rect, zoom: real, viewBox: string,
                                    widthAttr: Option<string>, heightAttr: Option<string>,
                                    parseFloat: NumberOf, toNumber: NumberOf)
    requires zoom > 0.0 && rect.width > 0.0 && rect.height > 0.0
    requires Parse(viewBox, toNumber).Some? && FrameNonZero(viewBox, toNumber)
    ensures var p := ClickToSvg(ox, oy, rect, zoom, viewBox, widthAttr, heightAttr, parseFloat, toNumber);
            Displayed(zoom, MarkerAsWritten(PinLocation(p.x, p.y, Some(viewBox)), viewBox, rect, toNumber))
              == Point(zoom * ox, zoom * oy)
  {
    var f := Parse(viewBox, toNumber).value;
    ClickInFrame(ox, oy, rect, zoom, viewBox, widthAttr, heightAttr, parseFloat, toNumber, f);
    AsWrittenMarkerAtClick(ox, oy, rect, viewBox, toNumber, f);
  }

  /** Helper: with a usable view box a click maps into the frame. */
  lemma ClickInFrame(ox: real, oy: real, rect: Rect, zoom: real, viewBox: string,
                     widthAttr: Option<string>, heightAttr: Option<string>,
                     parseFloat: NumberOf, toNumber: NumberOf, f: Frame)
    requires zoom > 0.0 && rect.width > 0.0 && rect.height > 0.0
    requires Parse(viewBox, toNumber) == Some(f)
    ensures ClickToSvg(ox, oy, rect, zoom, viewBox, widthAttr, heightAttr, parseFloat, toNumber)
            == Point(ox / rect.width * f.width + f.minX, oy / rect.height * f.height + f.minY)
  {
  }

  /** Helper: the as-written marker of the point a click maps to sits at the click offset. */
  lemma AsWrittenMarkerAtClick(ox: real, oy: real, rect: Rect, viewBox: string, toNumber: NumberOf, f: Frame)
    requires rect.width > 0.0 && rect.height > 0.0
    requires FrameNonZero(viewBox, toNumber) && Parse(viewBox, toNumber) == Some(f)
    ensures var pin := PinLocation(ox / rect.width * f.width + f.minX, oy / rect.height * f.height + f.minY, Some(viewBox));
            MarkerAsWritten(pin, viewBox, rect, toNumber) == Point(ox, oy)
  {
    FrameRoundTrip(ox, rect.width, f.width, f.minX);
    FrameRoundTrip(oy, rect.height, f.height, f.minY);
  }

  /** The concrete case: at zoom 2 a click 50 px into a 200 px wide SVG with view box
      `0 0 100 100` stores the pin at 25, and the marker shows 100 px in, not 50. */
  lemma AsWrittenMarkerMissesClick(parseFloat: NumberOf, toNumber: NumberOf)
    requires toNumber("0") == Some(0.0) && toNumber("100") == Some(100.0)
    ensures Parse("0 0 100 100", toNumber) == Some(Frame(0.0, 0.0, 100.0, 100.0))
    ensures var rect := Rect(200.0, 200.0);
            var p := ClickToSvg(50.0, 50.0, rect, 2.0, "0 0 100 100", None, None, parseFloat, toNumber);
            p == Point(25.0, 25.0) &&
            Displayed(2.0, MarkerAsWritten(PinLocation(p.x, p.y, Some("0 0 100 100")), "0 0 100 100", rect, toNumber))
              == Point(100.0, 100.0)
  {
    DefaultParts();
    assert Parse("0 0 100 100", toNumber) == Some(Frame(0.0, 0.0, 100.0, 100.0));
    MissesClickIn("0 0 100 100", parseFloat, toNumber);
  }

  /** Helper: the concrete case for any view box that reads as `0 0 100 100`. */
  lemma MissesClickIn(viewBox: string, parseFloat: NumberOf, toNumber: NumberOf)
    requires Parse(viewBox, toNumber) == Some(Frame(0.0, 0.0, 100.0, 100.0))
    ensures var rect := Rect(200.0, 200.0);
            var p := ClickToSvg(50.0, 50.0, rect, 2.0, viewBox, None, None, parseFloat, toNumber);
            p == Point(25.0, 25.0) &&
            Displayed(2.0, MarkerAsWritten(PinLocation(p.x, p.y, Some(viewBox)), viewBox, rect, toNumber))
              == Point(100.0, 100.0)
  {
    var f := Frame(0.0, 0.0, 100.0, 100.0);
    ClickInFrame(50.0, 50.0, Rect(200.0, 200.0), 2.0, viewBox, None, None, parseFloat, toNumber, f);
    AsWrittenMarkerScaledByZoom(50.0, 50.0, Rect(200.0, 200.0), 2.0, viewBox, None, None, parseFloat, toNumber);
  }

  /** Helper: scaling by `size / zoom` and then by `zoom` is scaling by `size`. */
  lemma UnZoom(a: real, size: real, zoom: real)
    requires zoom != 0.0
    ensures zoom * (a * (size / zoom)) == a * size
  {
    calc {
      zoom * (a * (size / zoom));
      a * (zoom * (size / zoom));
      a * size;
    }
  }

  /** `PinMarker` with the zoom taken out of the rectangle's size, as the click handler does. */
  function Marker(pin: PinLocation, viewBox: string, rect: Rect, zoom: real, toNumber: NumberOf): (r: Point)
    requires zoom > 0.0 && FrameNonZero(viewBox, toNumber)
    ensures Parse(viewBox, toNumber).None? ==> r == Point(pin.x, pin.y)
    ensures Parse(viewBox, toNumber).Some? ==> Displayed(zoom, r) == MarkerAsWritten(pin, viewBox, rect, toNumber)
  {
    match Parse(viewBox, toNumber)
    case Some(f) =>
      var r := Point((pin.x - f.minX) / f.width * (rect.width / zoom), (pin.y - f.minY) / f.height * (rect.height / zoom));
      UnZoom((pin.x - f.minX) / f.width, rect.width, zoom);
      UnZoom((pin.y - f.minY) / f.height, rect.height, zoom);
      r
    case None => Point(pin.x, pin.y)
  }

  /** The click and the marker are inverse: with a usable view box, or with neither size
      attribute, the marker for the unrounded clicked point shows exactly where the click was,
      at every zoom. */
  lemma ClickThenMarker(ox: real, oy: real, rect: Rect, zoom: real, viewBox: string,
                        widthAttr: Option<string>, heightAttr: Option<string>,
                        parseFloat: NumberOf, toNumber: NumberOf)
    requires zoom > 0.0 && rect.width > 0.0 && rect.height > 0.0 && FrameNonZero(viewBox, toNumber)
    requires Parse(viewBox, toNumber).Some? || !(Present(widthAttr) && Present(heightAttr))
    ensures var p := ClickToSvg(ox, oy, rect, zoom, viewBox, widthAttr, heightAttr, parseFloat, toNumber);
            Displayed(zoom, Marker(PinLocation(p.x, p.y, Some(viewBox)), viewBox, rect, zoom, toNumber)) == Point(ox, oy)
  {
    if Parse(viewBox, toNumber).Some? {
      var f := Parse(viewBox, toNumber).value;
      ClickInFrame(ox, oy, rect, zoom, viewBox, widthAttr, heightAttr, parseFloat, toNumber, f);
      AsWrittenMarkerAtClick(ox, oy, rect, viewBox, toNumber, f);
    } else {
      ClickWithoutFrame(ox, oy, rect, zoom, viewBox, widthAttr, heightAttr, parseFloat, toNumber);
      MarkerWithoutFrame(ox, oy, rect, zoom, viewBox, toNumber);
    }
  }

  /** Helper: without a usable view box or both size attributes, a click maps to the offset
      divided by the zoom. */
  lemma ClickWithoutFrame(ox: real, oy: real, rect: Rect, zoom: real, viewBox: string,
                          widthAttr: Option<string>, heightAttr: Option<string>,
                          parseFloat: NumberOf, toNumber: NumberOf)
    requires zoom > 0.0 && rect.width > 0.0 && rect.height > 0.0
    requires Parse(viewBox, toNumber).None? && !(Present(widthAttr) && Present(heightAttr))
    ensures ClickToSvg(ox, oy, rect, zoom, viewBox, widthAttr, heightAttr, parseFloat, toNumber) == Point(ox / zoom, oy / zoom)
  {
  }

  /** Helper: without a usable view box the marker of the divided offset shows at the offset. */
  lemma MarkerWithoutFrame(ox: real, oy: real, rect: Rect, zoom: real, viewBox: string, toNumber: NumberOf)
    requires zoom > 0.0 && Parse(viewBox, toNumber).None?
    ensures Displayed(zoom, Marker(PinLocation(ox / zoom, oy / zoom, Some(viewBox)), viewBox, rect, zoom, toNumber))
            == Point(ox, oy)
  {
    assert zoom * (ox / zoom) == ox;
    assert zoom * (oy / zoom) == oy;
  }

  // ---------------------------------------------------------------------------
  // Pins

  /** `Math.round(v * 100) / 100`: rounded to two decimals, halves upwards. */
  function Round2(v: real): (r: real)
    ensures v - 0.005 < r <= v + 0.005
    ensures (r * 100.0).Floor as real == r * 100.0
  {
    ((v * 100.0 + 0.5).Floor as real) / 100.0
  }

  /** A value already rounded to two decimals is left alone. */
  lemma Round2Idempotent(v: real)
    ensures Round2(Round2(v)) == Round2(v)
  {
    var k := (v * 100.0 + 0.5).Floor;
    assert Round2(v) * 100.0 == k as real;
    assert (k as real + 0.5).Floor == k;
  }

  /** `handleSvgClick`: the current file's pin becomes the clicked point rounded to two
      decimals, with the page's view box; no current file, no change. */
  function Click(s: Locator, ox: real, oy: real, rect: Rect, widthAttr: Option<string>, heightAttr: Option<string>,
                 parseFloat: NumberOf, toNumber: NumberOf): (r: Locator)
    requires s.zoom > 0.0 && rect.width > 0.0 && rect.height > 0.0
    ensures CurrentFile(s).None? ==> r == s
    ensures r == s.(pins := r.pins)
    ensures CurrentFile(s).Some? ==>
              var f := CurrentFile(s).value;
              var p := ClickToSvg(ox, oy, rect, s.zoom, s.viewBox, widthAttr, heightAttr, parseFloat, toNumber);
              r.pins.Keys == s.pins.Keys + {f} &&
              (forall g :: g in s.pins && g != f ==> r.pins[g] == s.pins[g]) &&
              r.pins[f].x == Round2(p.x) && r.pins[f].y == Round2(p.y) &&
              p.x - 0.005 < r.pins[f].x <= p.x + 0.005 && p.y - 0.005 < r.pins[f].y <= p.y + 0.005 &&
              (r.pins[f].viewBox.Some? <==> s.viewBox != "") &&
              (r.pins[f].viewBox.Some? ==> r.pins[f].viewBox.value == s.viewBox)
  {
    match CurrentFile(s)
    case None => s
    case Some(f) =>
      var p := ClickToSvg(ox, oy, rect, s.zoom, s.viewBox, widthAttr, heightAttr, parseFloat, toNumber);
      var vb := if s.viewBox != "" then Some(s.viewBox) else None;
      s.(pins := s.pins[f := PinLocation(Round2(p.x), Round2(p.y), vb)])
  }

  /** `clearPin`: the current file's pin, and only it, is deleted. */
  function ClearPin(s: Locator): (r: Locator)
    ensures CurrentFile(s).None? ==> r == s
    ensures r == s.(pins := r.pins)
    ensures CurrentFile(s).Some? ==>
              r.pins.Keys == s.pins.Keys - {CurrentFile(s).value} &&
              forall g :: g in r.pins ==> r.pins[g] == s.pins[g]
  {
    match CurrentFile(s)
    case None => s
    case Some(f) => s.(pins := s.pins - {f})
  }

  /** Clicking and then clearing leaves the other files' pins as they were and the current
      file without one. */
  lemma ClickThenClear(s: Locator, ox: real, oy: real, rect: Rect, widthAttr: Option<string>, heightAttr: Option<string>,
                       parseFloat: NumberOf, toNumber: NumberOf)
    requires s.zoom > 0.0 && rect.width > 0.0 && rect.height > 0.0 && CurrentFile(s).Some?
    ensures ClearPin(Click(s, ox, oy, rect, widthAttr, heightAttr, parseFloat, toNumber)).pins
              == s.pins - {CurrentFile(s).value}
  {
  }

  /** The marker the page renders: only when the current file has a pin, placed by
      `PinMarker` as written with the page's current view box and the SVG's on-screen
      rectangle `rect`. With a usable view box it is the corrected marker scaled once more
      by the zoom, so it sits under the click only at zoom 1. */
  function MarkerShown(s: Locator, rect: Rect, toNumber: NumberOf): (r: Option<Point>)
    requires s.zoom > 0.0 && FrameNonZero(s.viewBox, toNumber)
    ensures r.Some? <==> CurrentFile(s).Some? && CurrentFile(s).value in s.pins
    ensures r.Some? ==> r.value == MarkerAsWritten(s.pins[CurrentFile(s).value], s.viewBox, rect, toNumber)
    ensures r.Some? && Parse(s.viewBox, toNumber).Some? ==>
              r.value == Displayed(s.zoom, Marker(s.pins[CurrentFile(s).value], s.viewBox, rect, s.zoom, toNumber))
    ensures r.Some? && Parse(s.viewBox, toNumber).None? ==>
              r.value == Point(s.pins[CurrentFile(s).value].x, s.pins[CurrentFile(s).value].y)
  {
    match CurrentFile(s)
    case None => None
    case Some(f) => if f in s.pins then Some(MarkerAsWritten(s.pins[f], s.viewBox, rect, toNumber)) else None
  }

  // ---------------------------------------------------------------------------
  // The controls as one transition relation

  datatype Control = PressNext | PressPrevious | PickFile(i: int) | PressZoomIn | PressZoomOut
                   | PressReset | Slide(v: real) | PressClear

  /** What pressing a control does. The gallery only offers listed files and the range
      input only produces quarter steps between 0.5 and 3. */
  function Press(s: Locator, c: Control): (r: Locator)
    requires c.PickFile? ==> 0 <= c.i < |s.files|
    requires c.Slide? ==> OnGrid(c.v)
    ensures r.files == s.files && r.viewBox == s.viewBox
    ensures !c.PressClear? ==> r.pins == s.pins
    ensures c.PressClear? ==> r == ClearPin(s)
  {
    match c
    case PressNext => GoToNext(s)
    case PressPrevious => GoToPrevious(s)
    case PickFile(i) => GoToFile(s, i)
    case PressZoomIn => s.(zoom := ZoomIn(s.zoom))
    case PressZoomOut => s.(zoom := ZoomOut(s.zoom))
    case PressReset => s.(zoom := 1.0)
    case Slide(v) => s.(zoom := v)
    case PressClear => ClearPin(s)
  }

  /** The page starts valid, and every control, a click, a loaded file list and a loaded SVG
      keep it valid: the index stays on a listed file and the zoom between 0.5 and 3 in
      quarter steps. */
  lemma ControlsKeepValid(s: Locator, c: Control)
    requires Valid(s)
    requires c.PickFile? ==> 0 <= c.i < |s.files|
    requires c.Slide? ==> OnGrid(c.v)
    ensures Valid(Initial)
    ensures Valid(Press(s, c))
  {
    assert (1.0 * 4.0).Floor == 4;
    ZoomInOut(s.zoom);
  }

  /** Clicks and loads leave the index and the zoom alone, so they keep the page valid; the
      first file list keeps the index at 0. */
  lemma EventsKeepValid(s: Locator, files: seq<string>, ox: real, oy: real, rect: Rect,
                        widthAttr: Option<string>, heightAttr: Option<string>,
                        parseFloat: NumberOf, toNumber: NumberOf, viewBoxAttr: Option<string>)
    requires Valid(s) && rect.width > 0.0 && rect.height > 0.0
    ensures Valid(FilesLoaded(Initial, files))
    ensures Valid(Click(s, ox, oy, rect, widthAttr, heightAttr, parseFloat, toNumber))
    ensures Valid(SvgLoaded(s, viewBoxAttr, widthAttr))
  {
    assert (1.0 * 4.0).Floor == 4;
  }
}

=== FILE: populate_cms.dfy ===
/** The parsers of the catalogue population script: the year column read into a start and an
    end year, the category and designer lists extracted from the catalogue, and the rows of the
    markdown catalogue table. The file read and the content client are left out; the table
    parser takes the file's lines. Regular expressions are modelled by their leftmost match. */
module PopulateCms {
  import opened Wrappers
  import Text
  import Seqs

  // ---------------------------------------------------------------------------
  // Matching helpers

  /** The first position in `lo .. hi` where `matches` holds: the leftmost match of a
      regular expression whose match at a position is decided by that position alone. */
  function Leftmost(matches: nat -> bool, lo: nat, hi: nat): (r: Option<nat>)
    requires lo <= hi
    decreases hi - lo
    ensures r.Some? ==> lo <= r.value < hi && matches(r.value)
    ensures r.Some? ==> forall q: nat :: lo <= q < r.value ==> !matches(q)
    ensures r.None? ==> forall q: nat :: lo <= q < hi ==> !matches(q)
  {
    if lo == hi then None
    else if matches(lo) then Some(lo)
    else Leftmost(matches, lo + 1, hi)
  }

  /** The end of the run of `cls` characters that starts at `i`: a greedy `[...]*`. */
  function Skip(s: string, i: nat, cls: char -> bool): (r: nat)
    requires i <= |s|
    ensures i <= r <= |s|
    ensures forall k :: i <= k < r ==> cls(s[k])
    ensures r < |s| ==> !cls(s[r])
    decreases |s| - i
  {
    if i < |s| && cls(s[i]) then Skip(s, i + 1, cls) else i
  }

  /** `n` decimal digits start at `p`. */
  predicate DigitsAt(s: string, p: nat, n: nat) {
    p + n <= |s| && forall i :: p <= i < p + n ==> Text.IsDigit(s[i])
  }

  /** The number of decimal digits in a row from `i`. */
  function DigitRun(s: string, i: nat): (r: nat)
    requires i <= |s|
    ensures DigitsAt(s, i, r)
    ensures i + r < |s| ==> !Text.IsDigit(s[i + r])
  {
    Skip(s, i, Text.IsDigit) - i
  }

  /** The value of the `n` digits at `p`. */
  function ValueAt(s: string, p: nat, n: nat): (r: nat)
    requires DigitsAt(s, p, n)
    ensures r < Pow10(n)
    ensures n <= 4 ==> r < 10000
  {
    DigitsBound(s[p..p + n]);
    assert Pow10(4) == 10 * Pow10(3) == 100 * Pow10(2) == 1000 * Pow10(1) == 10000;
    Text.DigitsValue(s[p..p + n])
  }

  function Pow10(n: nat): (r: nat)
    ensures r >= 1
  {
    if n == 0 then 1 else 10 * Pow10(n - 1)
  }

  /** Helper: `n` digits are worth less than `10^n`. */
  lemma {:induction false} DigitsBound(s: string)
    requires forall i :: 0 <= i < |s| ==> Text.IsDigit(s[i])
    ensures Text.DigitsValue(s) < Pow10(|s|)
  {
    if |s| > 0 {
      DigitsBound(s[..|s| - 1]);
    }
  }

  /** The lower-case word `w` sits at `p`, in any case (the `i` flag). */
  predicate WordAt(s: string, p: nat, w: string) {
    p + |w| <= |s| && Text.Lower(s[p..p + |w|]) == w
  }

  /** A JavaScript line terminator, which `.` does not match. */
  predicate IsLineTerminator(c: char) {
    c == '\n' || c == '\r' || c == '\U{2028}' || c == '\U{2029}'
  }

  /** `.*$` matches the rest of the string from `i`. */
  predicate RestOfLine(s: string, i: nat) {
    forall k :: i <= k < |s| ==> !IsLineTerminator(s[k])
  }

  // ---------------------------------------------------------------------------
  // Years

  /** The years of an item; either may be absent. */
  datatype Years = Years(yearStart: Option<int>, yearEnd: Option<int>)

  const NoYears := Years(None, None)

  /** The year strings `parseYear` reads as no year at all. */
  predicate Vague(s: string) {
    s == "" || s == "-" || Text.Trim(s) == "" ||
    var l := Text.Lower(s);
    Text.Contains(l, "various") || Text.Contains(l, "vintage") || Text.Contains(l, "antique") ||
    Text.Contains(l, "traditional") || Text.Contains(l, "contemporary")
  }

  /** Where the end of a range starts: after the four start digits, `\s*-\s*`. */
  function AfterDash(s: string, p: nat): (r: Option<nat>)
    requires DigitsAt(s, p, 4)
    ensures r.Some? ==> r.value <= |s|
  {
    var q := Skip(s, p + 4, Text.IsSpace);
    if q < |s| && s[q] == '-' then Some(Skip(s, q + 1, Text.IsSpace)) else None
  }

  /** `/(\d{4})\s*-\s*(\d{2,4}|present)/i` matches at `p`. */
  predicate RangeAt(s: string, p: nat) {
    DigitsAt(s, p, 4) && AfterDash(s, p).Some? &&
    var t := AfterDash(s, p).value;
    DigitRun(s, t) >= 2 || WordAt(s, t, "present")
  }

  /** The end of the range matched at `p`: its digits (at most four), or `None` for `present`. */
  function RangeEnd(s: string, p: nat): (r: Option<nat>)
    requires RangeAt(s, p)
    ensures r.Some? ==> r.value < 10000
  {
    var t := AfterDash(s, p).value;
    var n := DigitRun(s, t);
    if n >= 2 then
      var m := if n < 4 then n else 4;
      assert DigitsAt(s, t, m);
      Some(ValueAt(s, t, m))
    else None
  }

  /** The class `[-\s]`. */
  predicate DashOrSpace(c: char) {
    c == '-' || Text.IsSpace(c)
  }

  /** `/pre[-\s]+(\d{4})/i` matches at `p`. */
  predicate PreAt(s: string, p: nat) {
    WordAt(s, p, "pre") &&
    var q := Skip(s, p + 3, DashOrSpace);
    q > p + 3 && DigitsAt(s, q, 4)
  }

  /** The year after `pre` matched at `p`. */
  function PreYear(s: string, p: nat): (r: nat)
    requires PreAt(s, p)
    ensures r < 10000
    ensures exists q :: DigitsAt(s, q, 4) && r == ValueAt(s, q, 4)
  {
    ValueAt(s, Skip(s, p + 3, DashOrSpace), 4)
  }

  /** The years of the range matched at `p`: its start, and its end unless it is `present`; a
      two-digit end is read in the start's century when the start is 1900 or later. */
  function RangeYears(s: string, p: nat): (r: Years)
    requires RangeAt(s, p)
    ensures r.yearStart == Some(ValueAt(s, p, 4))
    ensures r.yearEnd.None? <==> RangeEnd(s, p).None?
    ensures r.yearEnd.Some? ==> r.yearEnd.value < 10000
    ensures r.yearEnd.Some? && RangeEnd(s, p).value < 100 && ValueAt(s, p, 4) >= 1900 ==>
              r.yearEnd.value / 100 == ValueAt(s, p, 4) / 100 && r.yearEnd.value % 100 == RangeEnd(s, p).value
    ensures r.yearEnd.Some? && !(RangeEnd(s, p).value < 100 && ValueAt(s, p, 4) >= 1900) ==>
              r.yearEnd == RangeEnd(s, p)
  {
    var start := ValueAt(s, p, 4);
    var end := RangeEnd(s, p);
    if end.None? then Years(Some(start), None)
    else if end.value < 100 && start >= 1900 then Years(Some(start), Some(start / 100 * 100 + end.value))
    else Years(Some(start), Some(end.value))
  }

  /** The years of a string that is not vague: from its first range, else from its first `pre`
      year (one year earlier, as an end year), else from its first four digits (as a start year). */
  function SpecificYears(s: string): (r: Years)
    ensures r == NoYears <==> forall p :: !DigitsAt(s, p, 4)
    ensures (exists p :: RangeAt(s, p)) ==> exists p :: RangeAt(s, p) && r == RangeYears(s, p)
    ensures r.yearStart.Some? ==> exists p :: DigitsAt(s, p, 4) && r.yearStart.value == ValueAt(s, p, 4)
    ensures r.yearStart.None? && r.yearEnd.Some? ==>
              (forall p :: !RangeAt(s, p)) && exists p :: PreAt(s, p) && r.yearEnd.value == PreYear(s, p) - 1
    ensures r.yearStart.Some? && r.yearEnd.Some? ==> exists p :: RangeAt(s, p) && r == RangeYears(s, p)
  {
    var range := (p: nat) => RangeAt(s, p);
    var pre := (p: nat) => PreAt(s, p);
    var single := (p: nat) => DigitsAt(s, p, 4);
    match Leftmost(range, 0, |s|)
    case Some(p) =>
      assert DigitsAt(s, p, 4);
      RangeYears(s, p)
    case None =>
      assert forall p :: !RangeAt(s, p) by {
        forall p: nat | RangeAt(s, p) ensures false { var hit := range(p); }
      }
      match Leftmost(pre, 0, |s|)
      case Some(p) =>
        var year := PreYear(s, p);
        Years(None, Some(year - 1))
      case None =>
        match Leftmost(single, 0, |s|)
        case Some(p) => Years(Some(ValueAt(s, p, 4)), None)
        case None =>
          assert forall p :: !DigitsAt(s, p, 4) by {
            forall p: nat | DigitsAt(s, p, 4) ensures false { var hit := single(p); }
          }
          NoYears
  }

  /** `parseYear(yearStr)`: no years for a vague string, else its specific years. */
  function ParseYear(s: string): (r: Years)
    ensures Vague(s) ==> r == NoYears
    ensures !Vague(s) ==> (r == NoYears <==> forall p :: !DigitsAt(s, p, 4))
    ensures r.yearStart.Some? ==> exists p :: DigitsAt(s, p, 4) && r.yearStart.value == ValueAt(s, p, 4)
    ensures r.yearStart.Some? && r.yearEnd.Some? ==>
              r.yearEnd.value < 10000 && (r.yearStart.value >= 1900 ==> r.yearEnd.value >= 100)
    ensures r.yearStart.None? && r.yearEnd.Some? ==>
              (forall p :: !RangeAt(s, p)) && exists p :: PreAt(s, p) && r.yearEnd.value == PreYear(s, p) - 1
  {
    if Vague(s) then NoYears else SpecificYears(s)
  }

  /** The first range wins; with no range anywhere the first `pre` year gives an end year only,
      one year earlier; with neither, the first four digits give a start year only. */
  lemma ParseYearFirstMatch(s: string)
    ensures !Vague(s) ==> forall p: nat :: FirstAt((q: nat) => RangeAt(s, q), p) ==> ParseYear(s) == RangeYears(s, p)
    ensures !Vague(s) && (forall p: nat :: !RangeAt(s, p)) ==>
              forall p: nat :: FirstAt((q: nat) => PreAt(s, q), p) ==> ParseYear(s) == Years(None, Some(PreYear(s, p) - 1))
    ensures !Vague(s) && (forall p: nat :: !RangeAt(s, p)) && (forall p: nat :: !PreAt(s, p)) ==>
              forall p: nat :: FirstAt((q: nat) => DigitsAt(s, q, 4), p) ==>
                ParseYear(s) == Years(Some(ValueAt(s, p, 4)), None)
  {
    var range := (q: nat) => RangeAt(s, q);
    var pre := (q: nat) => PreAt(s, q);
    var single := (q: nat) => DigitsAt(s, q, 4);
    forall p: nat | FirstAt(range, p) ensures Leftmost(range, 0, |s|) == Some(p) {
      FirstIsLeftmost(range, p, |s|);
    }
    forall p: nat | FirstAt(pre, p) ensures Leftmost(pre, 0, |s|) == Some(p) {
      FirstIsLeftmost(pre, p, |s|);
    }
    forall p: nat | FirstAt(single, p) ensures Leftmost(single, 0, |s|) == Some(p) {
      FirstIsLeftmost(single, p, |s|);
    }
    if !Vague(s) && (forall p: nat :: !RangeAt(s, p)) {
      assert Leftmost(range, 0, |s|).None?;
      if forall p: nat :: !PreAt(s, p) {
        assert Leftmost(pre, 0, |s|).None?;
      }
    }
  }

  /** `p` is the first position where `matches` holds. */
  ghost predicate FirstAt(matches: nat -> bool, p: nat) {
    matches(p) && forall q: nat :: q < p ==> !matches(q)
  }

  /** Helper: the first match, when it lies before `hi`, is the one `Leftmost` finds. */
  lemma FirstIsLeftmost(matches: nat -> bool, p: nat, hi: nat)
    requires FirstAt(matches, p) && p < hi
    ensures Leftmost(matches, 0, hi) == Some(p)
  {
  }

  // ---------------------------------------------------------------------------
  // Categories and designers

  /** A name as the script keeps it: not empty, no surrounding space, none of `seps`. */
  predicate CleanName(c: string, seps: set<char>) {
    c != "" && Text.Trimmed(c) && forall i :: 0 <= i < |c| ==> c[i] !in seps
  }

  /** One piece trimmed, or `None` when nothing is left (`.map(p => p.trim()).filter(p => p)`). */
  function TrimmedPiece(x: string): (r: Option<string>)
    ensures r.Some? <==> Text.Trim(x) != ""
    ensures r.Some? ==> r.value == Text.Trim(x) && Text.Trimmed(r.value)
  {
    Text.TrimIsTrimmed(x);
    if Text.Trim(x) == "" then None else Some(Text.Trim(x))
  }

  /** The trimmed non-empty pieces of `s` between separators, in order. */
  function Pieces(s: string, seps: set<char>): (r: seq<string>)
    ensures forall x :: x in r ==> CleanName(x, seps)
  {
    PiecesSpec(s, seps);
    Seqs.FilterMap(TrimmedPiece, Text.Split(s, seps))
  }

  /** The pieces are exactly the non-empty trimmed parts of `s` between separators. */
  lemma PiecesSpec(s: string, seps: set<char>)
    ensures var r := Seqs.FilterMap(TrimmedPiece, Text.Split(s, seps));
            (forall x :: x in r ==> CleanName(x, seps)) &&
            (forall x :: x in r <==> x != "" && exists j :: 0 <= j < |Text.Split(s, seps)| && Text.Trim(Text.Split(s, seps)[j]) == x)
  {
    Text.SplitPiecesAvoidSeparators(s, seps);
    PartsClean(Text.Split(s, seps), seps);
    PartsKept(Text.Split(s, seps));
  }

  /** Helper: the trimmed parts of separator-free strings are clean names found among them. */
  lemma PartsClean(parts: seq<string>, seps: set<char>)
    requires forall k, i :: 0 <= k < |parts| && 0 <= i < |parts[k]| ==> parts[k][i] !in seps
    ensures forall x :: x in Seqs.FilterMap(TrimmedPiece, parts) ==>
              CleanName(x, seps) && exists j :: 0 <= j < |parts| && Text.Trim(parts[j]) == x
  {
    var r := Seqs.FilterMap(TrimmedPiece, parts);
    Seqs.FilterMapMembers(TrimmedPiece, parts);
    forall x | x in r ensures CleanName(x, seps) && exists j :: 0 <= j < |parts| && Text.Trim(parts[j]) == x {
      var k :| 0 <= k < |r| && r[k] == x;
      var j :| 0 <= j < |parts| && TrimmedPiece(parts[j]) == Some(r[k]);
      Text.TrimAvoids(parts[j], seps);
    }
  }

  /** Helper: every non-empty trimmed part is kept. */
  lemma PartsKept(parts: seq<string>)
    ensures forall x :: x != "" && (exists j :: 0 <= j < |parts| && Text.Trim(parts[j]) == x) ==>
              x in Seqs.FilterMap(TrimmedPiece, parts)
  {
    Seqs.FilterMapMembers(TrimmedPiece, parts);
    forall x | x != "" && exists j :: 0 <= j < |parts| && Text.Trim(parts[j]) == x
      ensures x in Seqs.FilterMap(TrimmedPiece, parts)
    {
      var j :| 0 <= j < |parts| && Text.Trim(parts[j]) == x;
      assert TrimmedPiece(parts[j]).Some?;
    }
  }

  /** A row of the catalogue table. */
  datatype CatalogueItem = CatalogueItem(number: int, name: string, category: string, designerMaker: string,
                                         year: string, notes: string)

  /** The category names one item contributes. */
  function ItemCategories(item: CatalogueItem): (r: seq<string>)
    ensures forall c :: c in r ==> CleanName(c, {'/'})
  {
    Pieces(item.category, {'/'})
  }

  /** The category names of the whole catalogue, with repetitions. */
  function CategoryNames(items: seq<CatalogueItem>): (r: seq<string>)
    ensures forall c :: c in r ==> CleanName(c, {'/'})
    ensures forall c :: c in r <==> exists i :: 0 <= i < |items| && c in ItemCategories(items[i])
  {
    Seqs.FlatMap(ItemCategories, items)
  }

  /** `extractCategories`: sorted, each once, and exactly the non-empty trimmed `/`-separated
      parts of the items' categories. */
  function ExtractCategories(items: seq<CatalogueItem>): (r: seq<string>)
    ensures Text.StrictlySorted(r)
    ensures forall i, j :: 0 <= i < j < |r| ==> r[i] != r[j]
    ensures forall c :: c in r ==> CleanName(c, {'/'})
    ensures forall c :: c in r <==> exists i :: 0 <= i < |items| && c in ItemCategories(items[i])
  {
    var r := Text.SortedUnique(CategoryNames(items));
    Text.StrictlySortedDistinct(r);
    r
  }

  /** `/\s+for\s+.*$/i` matches at `p`. */
  predicate ForAt(s: string, p: nat) {
    p < |s| && Text.IsSpace(s[p]) &&
    var q := Skip(s, p, Text.IsSpace);
    WordAt(s, q, "for") &&
    var t := Skip(s, q + 3, Text.IsSpace);
    t > q + 3 && RestOfLine(s, t)
  }

  /** `/\s+\(.*\)$/` matches at `p`. */
  predicate ParenAt(s: string, p: nat) {
    p < |s| && Text.IsSpace(s[p]) &&
    var q := Skip(s, p, Text.IsSpace);
    q + 1 < |s| && s[q] == '(' && s[|s| - 1] == ')' && forall k :: q < k < |s| - 1 ==> !IsLineTerminator(s[k])
  }

  /** `.replace(pattern, '')` for a pattern anchored at the end: the string up to the leftmost
      match. */
  function CutAt(s: string, matches: nat -> bool): (r: string)
    ensures Text.StartsWith(s, r)
    ensures r != s <==> exists p: nat :: p < |s| && matches(p)
    ensures r != s ==> matches(|r|) && forall q: nat :: q < |r| ==> !matches(q)
  {
    match Leftmost(matches, 0, |s|)
    case Some(p) => s[..p]
    case None => s
  }

  /** `designer.replace(/\s+for\s+.*$/i, '')`: drops ` for <brand>` at the leftmost place it
      matches, or nothing when it matches nowhere. */
  function StripFor(s: string): (r: string)
    ensures Text.StartsWith(s, r)
    ensures r == s ==> forall q: nat :: !ForAt(s, q)
    ensures r != s ==> ForAt(s, |r|) && forall q: nat :: q < |r| ==> !ForAt(s, q)
  {
    var matches := (p: nat) => ForAt(s, p);
    var r := CutAt(s, matches);
    assert forall q: nat :: (r == s || q < |r|) ==> !ForAt(s, q) by {
      forall q: nat | (r == s || q < |r|) && ForAt(s, q) ensures false { var hit := matches(q); }
    }
    r
  }

  /** On a single line nothing of the form ` for …` is left once it is stripped. */
  lemma StripForRemovesAll(s: string)
    requires RestOfLine(s, 0)
    ensures forall q: nat :: !ForAt(StripFor(s), q)
  {
    var r := StripFor(s);
    if r != s {
      assert r == s[..|r|];
      forall q: nat | ForAt(r, q) ensures false {
        ForInPrefix(s, |r|, q);
      }
    }
  }

  /** Helper: a ` for …` match inside a prefix of a single line is a match in the line. */
  lemma ForInPrefix(s: string, n: nat, q: nat)
    requires n <= |s| && RestOfLine(s, 0) && ForAt(s[..n], q)
    ensures ForAt(s, q)
  {
    var r := s[..n];
    var a := Skip(r, q, Text.IsSpace);
    SkipInPrefix(s, n, q, Text.IsSpace);
    assert r[a..a + 3] == s[a..a + 3];
    SkipInPrefix(s, n, a + 3, Text.IsSpace);
  }

  /** Helper: a run that ends inside a prefix ends at the same place in the whole string, and
      one that reaches the end of the prefix reaches at least as far in the whole. */
  lemma SkipInPrefix(s: string, n: nat, i: nat, cls: char -> bool)
    requires i <= n <= |s|
    ensures Skip(s[..n], i, cls) <= Skip(s, i, cls)
    ensures Skip(s[..n], i, cls) < n ==> Skip(s[..n], i, cls) == Skip(s, i, cls)
  {
    var a := Skip(s[..n], i, cls);
    var b := Skip(s, i, cls);
    assert forall k :: i <= k < a ==> s[..n][k] == s[k];
    if a < n {
      assert s[..n][a] == s[a];
    }
  }

  /** `designer.replace(/\s+\(.*\)$/, '')`: drops a trailing ` (…)` from the leftmost place
      the pattern matches, or nothing when it matches nowhere. */
  function StripParenthetical(s: string): (r: string)
    ensures Text.StartsWith(s, r)
    ensures r != s ==> |s| > 0 && s[|s| - 1] == ')'
    ensures r != s <==> exists p: nat :: p < |s| && ParenAt(s, p)
    ensures r != s ==> ParenAt(s, |r|) && forall q: nat :: q < |r| ==> !ParenAt(s, q)
  {
    var matches := (p: nat) => ParenAt(s, p);
    var r := CutAt(s, matches);
    assert (exists p: nat :: p < |s| && ParenAt(s, p)) ==> exists p: nat :: p < |s| && matches(p) by {
      if p: nat :| p < |s| && ParenAt(s, p) {
        var hit := matches(p);
      }
    }
    assert forall q: nat :: q < |r| ==> !ParenAt(s, q) by {
      forall q: nat | q < |r| && ParenAt(s, q) ensures false { var hit := matches(q); }
    }
    r
  }

  /** The cleaned form of one designer part: ` for …` and then a trailing ` (…)` removed, and
      the rest trimmed. It is trimmed and uses only characters of the part. */
  function CleanDesigner(d: string): (r: string)
    ensures Text.Trimmed(r)
  {
    Text.TrimIsTrimmed(StripParenthetical(StripFor(d)));
    Text.Trim(StripParenthetical(StripFor(d)))
  }

  /** A character absent from a designer part is absent from its cleaned form. */
  lemma CleanDesignerAvoids(d: string, seps: set<char>)
    requires forall i :: 0 <= i < |d| ==> d[i] !in seps
    ensures forall i :: 0 <= i < |CleanDesigner(d)| ==> CleanDesigner(d)[i] !in seps
  {
    var s := StripParenthetical(StripFor(d));
    assert Text.StartsWith(d, s);
    assert forall i :: 0 <= i < |s| ==> s[i] == d[i];
    Text.TrimAvoids(s, seps);
  }

  /** The item names a designer: `designerMaker && designerMaker.trim() && designerMaker !== '-'`. */
  predicate NamesDesigner(d: string) {
    d != "" && Text.Trim(d) != "" && d != "-"
  }

  /** The parts of a designer entry: split on `&` and `/`, trimmed, empty parts and `-` dropped. */
  function DesignerParts(d: string): (r: seq<string>)
    ensures forall x :: x in r <==> x in Pieces(d, {'&', '/'}) && x != "-"
  {
    Seqs.Filter((x: string) => x != "-", Pieces(d, {'&', '/'}))
  }

  /** Helper: one part's cleaned form, or `None` when nothing is left. */
  function CleanedPart(x: string): Option<string> {
    var c := CleanDesigner(x);
    if c != "" then Some(c) else None
  }

  /** Helper: the non-empty cleaned forms of some parts, in order. */
  function Cleaned(parts: seq<string>): (r: seq<string>)
    ensures forall d :: d in r <==> d != "" && exists x :: x in parts && CleanDesigner(x) == d
  {
    CleanedMembers(parts);
    Seqs.FilterMap(CleanedPart, parts)
  }

  /** Helper: the cleaned parts are the non-empty cleaned forms, both ways. */
  lemma CleanedMembers(parts: seq<string>)
    ensures forall d :: d in Seqs.FilterMap(CleanedPart, parts) <==>
              d != "" && exists x :: x in parts && CleanDesigner(x) == d
  {
    var r := Seqs.FilterMap(CleanedPart, parts);
    Seqs.FilterMapMembers(CleanedPart, parts);
    forall d | d in r ensures d != "" && exists x :: x in parts && CleanDesigner(x) == d {
      var k :| 0 <= k < |r| && r[k] == d;
      var j :| 0 <= j < |parts| && CleanedPart(parts[j]) == Some(r[k]);
      assert parts[j] in parts;
    }
    forall d | d != "" && exists x :: x in parts && CleanDesigner(x) == d ensures d in r {
      var x :| x in parts && CleanDesigner(x) == d;
      var j :| 0 <= j < |parts| && parts[j] == x;
      assert CleanedPart(parts[j]) == Some(d);
    }
  }

  /** The designers one item contributes: none unless it names one, else the non-empty cleaned
      forms of its parts, each a trimmed name free of `&` and `/`. */
  function ItemDesigners(item: CatalogueItem): (r: seq<string>)
    ensures forall d :: d in r ==> CleanName(d, {'&', '/'})
    ensures !NamesDesigner(item.designerMaker) ==> r == []
  {
    if NamesDesigner(item.designerMaker) then
      var r := Cleaned(DesignerParts(item.designerMaker));
      CleanedNames(item.designerMaker);
      r
    else []
  }

  /** An item contributes exactly the non-empty cleaned forms of its parts, when it names a
      designer. */
  lemma ItemDesignersSpec(item: CatalogueItem)
    ensures forall d :: d in ItemDesigners(item) <==>
              (NamesDesigner(item.designerMaker) && d != "" &&
               exists x :: x in DesignerParts(item.designerMaker) && CleanDesigner(x) == d)
  {
  }

  /** Helper: cleaned parts are clean names. */
  lemma CleanedNames(d: string)
    ensures forall c :: c in Cleaned(DesignerParts(d)) ==> CleanName(c, {'&', '/'})
  {
    forall c | c in Cleaned(DesignerParts(d)) ensures CleanName(c, {'&', '/'}) {
      var x :| x in DesignerParts(d) && CleanDesigner(x) == c;
      assert CleanName(x, {'&', '/'});
      CleanDesignerAvoids(x, {'&', '/'});
    }
  }

  /** The cleaned designer names of the whole catalogue, with repetitions. */
  function DesignerNames(items: seq<CatalogueItem>): (r: seq<string>)
    ensures forall d :: d in r ==> CleanName(d, {'&', '/'})
    ensures forall d :: d in r <==> exists i :: 0 <= i < |items| && d in ItemDesigners(items[i])
  {
    Seqs.FlatMap(ItemDesigners, items)
  }

  /** `extractDesigners`: sorted, each once, and exactly the designers the items contribute. */
  function ExtractDesigners(items: seq<CatalogueItem>): (r: seq<string>)
    ensures Text.StrictlySorted(r)
    ensures forall i, j :: 0 <= i < j < |r| ==> r[i] != r[j]
    ensures forall d :: d in r ==> CleanName(d, {'&', '/'})
    ensures forall d :: d in r <==> exists i :: 0 <= i < |items| && d in ItemDesigners(items[i])
  {
    var r := Text.SortedUnique(DesignerNames(items));
    Text.StrictlySortedDistinct(r);
    r
  }

  // ---------------------------------------------------------------------------
  // The catalogue table

  /** `parseInt(s, 10)`: leading space skipped, an optional sign, then the longest run of
      digits; `None` (NaN) when there is no digit. */
  function ParseInt(s: string): Option<int> {
    var t := Text.TrimStart(s);
    var negative := |t| > 0 && t[0] == '-';
    var body := if |t| > 0 && (t[0] == '-' || t[0] == '+') then t[1..] else t;
    var n := DigitRun(body, 0);
    if n == 0 then None
    else
      var v: int := Text.DigitsValue(body[..n]);
      Some(if negative then -v else v)
  }

  /** A string of digits alone reads as their decimal value. */
  lemma ParseIntOfDigits(s: string)
    requires forall i :: 0 <= i < |s| ==> Text.IsDigit(s[i])
    requires |s| > 0
    ensures ParseInt(s) == Some(Text.DigitsValue(s))
  {
    AllDigitsRead(s);
  }

  /** A string starting with neither space, sign nor digit is not a number. */
  lemma ParseIntRejects(s: string)
    requires |s| > 0 && !Text.IsDigit(s[0]) && !Text.IsSpace(s[0]) && s[0] != '-' && s[0] != '+'
    ensures ParseInt(s).None?
  {
    NoDigitRead(s);
  }

  /** Helper: in a string of digits alone nothing is skipped and every digit is read. */
  lemma AllDigitsRead(s: string)
    requires forall i :: 0 <= i < |s| ==> Text.IsDigit(s[i])
    requires |s| > 0
    ensures Text.TrimStart(s) == s && DigitRun(s, 0) == |s| && s[..|s|] == s
  {
    assert !Text.IsSpace(s[0]);
    assert Text.SkipSpaces(s, 0) == 0;
    SkipToEnd(s, 0, Text.IsDigit);
  }

  /** Helper: a run over a suffix whose characters all belong to the class reaches the end. */
  lemma {:induction false} SkipToEnd(s: string, i: nat, cls: char -> bool)
    requires i <= |s| && forall k :: i <= k < |s| ==> cls(s[k])
    ensures Skip(s, i, cls) == |s|
    decreases |s| - i
  {
    if i < |s| {
      SkipToEnd(s, i + 1, cls);
    }
  }

  /** Helper: a string starting with neither space, sign nor digit reads no digit. */
  lemma NoDigitRead(s: string)
    requires |s| > 0 && !Text.IsDigit(s[0]) && !Text.IsSpace(s[0]) && s[0] != '-' && s[0] != '+'
    ensures Text.TrimStart(s) == s && DigitRun(s, 0) == 0
  {
  }

  /** The cells of a table line: split on `|`, trimmed, the empty ones dropped. */
  function Cells(line: string): (r: seq<string>)
    ensures forall c :: c in r ==> CleanName(c, {'|'})
  {
    Pieces(line, {'|'})
  }

  /** A line the table parser looks at: trimmed, it starts with `|` but not with `|---`. */
  predicate TableLine(l: string) {
    Text.StartsWith(l, "|") && !Text.StartsWith(l, "|---")
  }

  /** The item a table line holds: a table line with at least six cells of which the first
      reads as an integer; the six cells give the number and the five text fields. */
  function RowOf(line: string): (r: Option<CatalogueItem>)
    ensures r.Some? <==> var l := Text.Trim(line);
                         TableLine(l) && |Cells(l)| >= 6 && ParseInt(Cells(l)[0]).Some?
    ensures r.Some? ==> CleanName(r.value.name, {'|'}) && CleanName(r.value.notes, {'|'})
  {
    var l := Text.Trim(line);
    if TableLine(l) then ItemOfCells(Cells(l)) else None
  }

  /** The item six or more cells describe, when the first reads as an integer. */
  function ItemOfCells(cells: seq<string>): (r: Option<CatalogueItem>)
    ensures r.Some? <==> |cells| >= 6 && ParseInt(cells[0]).Some?
    ensures r.Some? ==> r.value == CatalogueItem(ParseInt(cells[0]).value, cells[1], cells[2], cells[3], cells[4], cells[5])
  {
    if |cells| < 6 then None
    else
      match ParseInt(cells[0])
      case None => None
      case Some(n) => Some(CatalogueItem(n, cells[1], cells[2], cells[3], cells[4], cells[5]))
  }

  /** The header line: its trimmed form starts with `| #`. */
  predicate IsHeader(line: string) {
    Text.StartsWith(Text.Trim(line), "| #")
  }

  /** The first header line, if any. */
  function FirstHeader(lines: seq<string>): (r: Option<nat>)
    ensures r.None? <==> forall j :: 0 <= j < |lines| ==> !IsHeader(lines[j])
    ensures r.Some? ==> r.value < |lines| && IsHeader(lines[r.value]) &&
                        forall j :: 0 <= j < r.value ==> !IsHeader(lines[j])
  {
    var matches := (j: nat) => j < |lines| && IsHeader(lines[j]);
    var r := Leftmost(matches, 0, |lines|);
    assert forall j :: 0 <= j < |lines| && (r.None? || j < r.value) ==> !IsHeader(lines[j]) by {
      forall j: nat | j < |lines| && (r.None? || j < r.value) && IsHeader(lines[j]) ensures false { var hit := matches(j); }
    }
    r
  }

  /** The line two past the first header, where the rows begin (the header and the separator
      are skipped). */
  function FirstRow(lines: seq<string>): nat
    requires FirstHeader(lines).Some?
  {
    FirstHeader(lines).value + 2
  }

  /** `parseMarkdownTable` on the file's lines: an error when no line is a header, else the rows
      of the lines from two past the first header (the header and the separator are skipped),
      in order. */
  function ParseTable(lines: seq<string>): (r: Result<seq<CatalogueItem>, string>)
    ensures r.Err? <==> forall j :: 0 <= j < |lines| ==> !IsHeader(lines[j])
  {
    match FirstHeader(lines)
    case None => Err("Table not found in markdown file")
    case Some(h) =>
      if h + 2 <= |lines| then Ok(Seqs.FilterMap(RowOf, lines[h + 2..])) else Ok([])
  }

  /** Every item read comes from a line at least two past the first header. */
  lemma TableRowsFromLines(lines: seq<string>)
    ensures var r := ParseTable(lines);
            r.Ok? ==> forall k :: 0 <= k < |r.value| ==>
                        exists j :: FirstHeader(lines).value + 2 <= j < |lines| && RowOf(lines[j]) == Some(r.value[k])
  {
    var h := FirstHeader(lines);
    if h.Some? && h.value + 2 <= |lines| {
      var n := h.value + 2;
      var rows := Seqs.FilterMap(RowOf, lines[n..]);
      assert ParseTable(lines) == Ok(rows);
      Seqs.FilterMapSuffix(RowOf, lines, n);
      forall k | 0 <= k < |rows| ensures exists j :: n <= j < |lines| && RowOf(lines[j]) == Some(rows[k]) {
        var j :| n <= j < |lines| && RowOf(lines[j]) == Some(rows[k]);
      }
    }
  }

  /** Every line at least two past the first header that holds an item gives that item. */
  lemma TableLinesRead(lines: seq<string>)
    ensures var r := ParseTable(lines);
            r.Ok? ==> forall j :: FirstHeader(lines).value + 2 <= j < |lines| && RowOf(lines[j]).Some? ==>
                        RowOf(lines[j]).value in r.value
  {
    var h := FirstHeader(lines);
    if h.Some? && h.value + 2 <= |lines| {
      Seqs.FilterMapSuffix(RowOf, lines, h.value + 2);
    }
  }

  /** The items read are those of the lines from two past the first header on, one per line
      that holds an item, in the order of the lines: nothing is reordered, merged or lost. */
  lemma TableRowsInOrder(lines: seq<string>)
    ensures var r := ParseTable(lines);
            r.Ok? ==> exists idx :: Seqs.Picks(RowOf, lines, FirstRow(lines), r.value, idx)
  {
    if FirstHeader(lines).Some? {
      var n := FirstRow(lines);
      if n <= |lines| {
        Seqs.FilterMapPicks(RowOf, lines, n);
        assert ParseTable(lines) == Ok(Seqs.FilterMap(RowOf, lines[n..]));
      } else {
        assert Seqs.Picks(RowOf, lines, n, [], []);
      }
    }
  }

  /** The markdown line `| n | name | category | designer | year | notes |` of an item. */
  function FormatRow(item: CatalogueItem): string
    requires item.number >= 0
  {
    Text.Join(RowPieces(item), "|")
  }

  /** The pieces of a formatted row between its bars: an empty one at each end, and each field
      with a space on either side. */
  function RowPieces(item: CatalogueItem): seq<string>
    requires item.number >= 0
  {
    ["", Padded(Text.NatToString(item.number)), Padded(item.name), Padded(item.category),
     Padded(item.designerMaker), Padded(item.year), Padded(item.notes), ""]
  }

  function Padded(s: string): string {
    " " + s + " "
  }

  /** The six fields of an item as cell texts. */
  function Fields(item: CatalogueItem): seq<string>
    requires item.number >= 0
  {
    [Text.NatToString(item.number), item.name, item.category, item.designerMaker, item.year, item.notes]
  }

  /** Writing an item as a table row and reading the row gives the item back, when each text
      field is a non-empty trimmed cell without `|`. */
  lemma RowRoundTrip(item: CatalogueItem)
    requires item.number >= 0
    requires CleanName(item.name, {'|'}) && CleanName(item.category, {'|'}) && CleanName(item.designerMaker, {'|'})
    requires CleanName(item.year, {'|'}) && CleanName(item.notes, {'|'})
    ensures RowOf(FormatRow(item)) == Some(item)
  {
    CellsOfRow(item);
    ReadRow(FormatRow(item));
    FieldsDescribeItem(item);
  }

  /** Helper: the fields of an item describe that item. */
  lemma FieldsDescribeItem(item: CatalogueItem)
    requires item.number >= 0
    ensures ItemOfCells(Fields(item)) == Some(item)
  {
    NumberCell(item.number);
  }

  /** Helper: a trimmed table line holds the item its cells describe. */
  lemma ReadRow(line: string)
    requires Text.Trim(line) == line && TableLine(line)
    ensures RowOf(line) == ItemOfCells(Cells(line))
  {
  }

  /** Helper: the printed number reads back as the number. */
  lemma NumberCell(n: nat)
    ensures ParseInt(Text.NatToString(n)) == Some(n)
  {
    Text.NatToStringRoundTrip(n);
    ParseIntOfDigits(Text.NatToString(n));
  }

  /** Helper: a formatted row is a trimmed table line whose cells are the item's fields. */
  lemma CellsOfRow(item: CatalogueItem)
    requires item.number >= 0
    requires CleanName(item.name, {'|'}) && CleanName(item.category, {'|'}) && CleanName(item.designerMaker, {'|'})
    requires CleanName(item.year, {'|'}) && CleanName(item.notes, {'|'})
    ensures Text.Trim(FormatRow(item)) == FormatRow(item) && TableLine(FormatRow(item))
    ensures Cells(FormatRow(item)) == Fields(item)
  {
    var row := FormatRow(item);
    var pieces := RowPieces(item);
    var fields := Fields(item);
    DigitsCell(item.number);
    assert forall k :: 0 <= k < 6 ==> CleanName(fields[k], {'|'}) && pieces[k + 1] == Padded(fields[k]);
    CellsOfPieces(pieces, fields);
    PiecesAvoidBar(pieces, fields);
    Text.JoinSplit(pieces, '|');
    RowShape(pieces, row);
  }

  /** Helper: the printed number is a clean cell. */
  lemma DigitsCell(n: nat)
    ensures CleanName(Text.NatToString(n), {'|'})
  {
    var d := Text.NatToString(n);
    assert !Text.IsSpace(d[0]) && !Text.IsSpace(d[|d| - 1]);
  }

  /** Helper: padding clean cells adds no bar. */
  lemma PiecesAvoidBar(pieces: seq<string>, fields: seq<string>)
    requires |pieces| == 8 && |fields| == 6 && pieces[0] == "" && pieces[7] == ""
    requires forall k :: 0 <= k < 6 ==> CleanName(fields[k], {'|'}) && pieces[k + 1] == Padded(fields[k])
    ensures forall k, i :: 0 <= k < |pieces| && 0 <= i < |pieces[k]| ==> pieces[k][i] != '|'
  {
    forall k, i | 0 <= k < |pieces| && 0 <= i < |pieces[k]| ensures pieces[k][i] != '|' {
      if 1 <= k <= 6 {
        var f := fields[k - 1];
        assert pieces[k] == [' '] + f + [' '];
        if 1 <= i <= |f| {
          assert pieces[k][i] == f[i - 1];
        }
      }
    }
  }

  /** Helper: a formatted row starts and ends with `|`, so trimming leaves it alone and it is
      not a separator line. */
  lemma RowShape(pieces: seq<string>, row: string)
    requires |pieces| == 8 && pieces[0] == "" && |pieces[1]| > 0 && pieces[1][0] == ' ' && pieces[7] == ""
    requires row == Text.Join(pieces, "|")
    ensures Text.Trim(row) == row
    ensures TableLine(row)
  {
    RowEnds(pieces, row);
    assert Text.Trimmed(row);
    Text.TrimmedIsFixed(row);
    assert row[..1] == "|";
    assert row[..4] != "|---" by {
      assert row[..4][1] == ' ';
    }
  }

  /** Helper: the characters at the ends of a formatted row. */
  lemma RowEnds(pieces: seq<string>, row: string)
    requires |pieces| == 8 && pieces[0] == "" && |pieces[1]| > 0 && pieces[1][0] == ' ' && pieces[7] == ""
    requires row == Text.Join(pieces, "|")
    ensures |row| >= 4 && row[0] == '|' && row[1] == ' ' && row[|row| - 1] == '|'
  {
    var tail := Text.Join(pieces[1..], "|");
    assert row == "" + "|" + tail;
    assert tail == pieces[1] + "|" + Text.Join(pieces[2..], "|");
    JoinEndsWithSeparator(pieces[1..], "|");
    JoinEndsWithSeparator(pieces[2..], "|");
  }

  /** Helper: a join whose last piece is empty ends with the separator. */
  lemma {:induction false} JoinEndsWithSeparator(xs: seq<string>, sep: string)
    requires |xs| >= 2 && xs[|xs| - 1] == "" && |sep| > 0
    ensures |Text.Join(xs, sep)| > 0 && Text.Join(xs, sep)[|Text.Join(xs, sep)| - 1] == sep[|sep| - 1]
  {
    if |xs| > 2 {
      JoinEndsWithSeparator(xs[1..], sep);
    } else {
      assert Text.Join(xs[1..], sep) == "";
    }
  }

  /** Helper: the cells of the eight pieces of a formatted row are its six fields. */
  lemma CellsOfPieces(pieces: seq<string>, fields: seq<string>)
    requires |pieces| == 8 && |fields| == 6 && pieces[0] == "" && pieces[7] == ""
    requires forall k :: 0 <= k < 6 ==> CleanName(fields[k], {'|'}) && pieces[k + 1] == Padded(fields[k])
    ensures Seqs.FilterMap(TrimmedPiece, pieces) == fields
  {
    var middle := pieces[1..7];
    forall k | 0 <= k < 6 ensures TrimmedPiece(middle[k]) == Some(fields[k]) {
      PaddedCell(fields[k]);
    }
    Seqs.FilterMapAllDefined(TrimmedPiece, middle, fields);
    EmptyPiece();
    Framed(pieces);
  }

  /** Helper: eight pieces, empty at both ends, give the cells of the six between. */
  lemma Framed(pieces: seq<string>)
    requires |pieces| == 8 && pieces[0] == "" && pieces[7] == ""
    requires TrimmedPiece("") == None
    ensures Seqs.FilterMap(TrimmedPiece, pieces) == Seqs.FilterMap(TrimmedPiece, pieces[1..7])
  {
    assert pieces == [pieces[0]] + pieces[1..7] + [pieces[7]];
    Seqs.FilterMapFramed(TrimmedPiece, "", pieces[1..7], "");
  }

  /** Helper: an empty piece gives no cell. */
  lemma EmptyPiece()
    ensures TrimmedPiece("") == None
  {
    assert Text.Trim("") == "";
  }

  /** Helper: a padded clean cell trims back to itself. */
  lemma PaddedCell(f: string)
    requires CleanName(f, {'|'})
    ensures TrimmedPiece(Padded(f)) == Some(f)
  {
    Text.TrimPadded(f);
  }

  /** The header line itself is never read as an item: its first cell starts with `#`. */
  lemma HeaderIsNotARow(line: string)
    requires IsHeader(line)
    ensures RowOf(line) == None
  {
    var l := Text.Trim(line);
    HeaderPieces(l);
    var pieces := Text.Split(l, {'|'});
    HashCell(pieces[1]);
    EmptyPiece();
    Seqs.FilterMapSkipThenHit(TrimmedPiece, pieces);
    var cells := Cells(l);
    assert cells[0] == Text.Trim(pieces[1]);
  }

  /** Helper: a line starting `| #` splits into an empty piece, then one starting ` #`. */
  lemma HeaderPieces(l: string)
    requires Text.StartsWith(l, "| #")
    ensures var pieces := Text.Split(l, {'|'});
            |pieces| >= 2 && pieces[0] == "" && |pieces[1]| >= 2 && pieces[1][0] == ' ' && pieces[1][1] == '#'
  {
    var rest := l[3..];
    assert l[1..] == " #" + rest;
    Text.SplitAfterPlain(" #", rest, {'|'});
  }

  /** Helper: a cell written ` #…` trims to a cell starting with `#`, which reads as no integer. */
  lemma HashCell(first: string)
    requires |first| >= 2 && first[0] == ' ' && first[1] == '#'
    ensures Text.Trim(first) != "" && Text.Trim(first)[0] == '#'
    ensures ParseInt(Text.Trim(first)).None?
  {
    Text.TrimDropsSpace(first);
    Text.TrimKeepsFirst(first[1..]);
    NotANumber(Text.Trim(first));
  }

  /** Helper: a cell starting with `#` reads as no integer. */
  lemma NotANumber(c: string)
    requires |c| > 0 && c[0] == '#'
    ensures ParseInt(c).None?
  {
    assert !Text.IsDigit(c[0]) && !Text.IsSpace(c[0]);
    ParseIntRejects(c);
  }
}

=== FILE: preview_config.dfy ===
/** The 606 preview page's configuration editor (src/app/preview/606/page.tsx): the default
    configuration and the validation that turns edited JSON text into a configuration or
    an error message. The first violation, in column order and then piece order, is the
    one reported. */
module PreviewConfig {
  import opened Wrappers
  import opened Json
  import opened PreviewLayout
  import Text

  /** `DEFAULT_CONFIG`: a narrow bay with one shelf and a wide bay with two pieces. */
  const DefaultConfig: Config := Config([
    Bay(NarrowBay, [Piece("shelf-30.svg", 5.0)]),
    Bay(WideBay, [Piece("shelf-30.svg", 3.0), Piece("shelf-22.svg", 8.0)])])

  /** Why a configuration was rejected. `Syntax` carries the parser's message; `NullValue`
      is the `TypeError` raised by reading a property of `null`. */
  datatype ConfigError =
    | Syntax(message: string)
    | NullValue
    | NoColumns
    | BadType(column: nat)
    | NoFurniture(column: nat)
    | BadFilename(column: nat, piece: nat)
    | BadHeight(column: nat, piece: nat)

  /** The `TypeError` message is the JavaScript engine's; the model fixes one. */
  const NullValueMessage: string := "Cannot read properties of null"

  /** `err.message || 'Invalid JSON'` for each kind of error. */
  function Message(e: ConfigError): (r: string)
    ensures r != ""
  {
    match e
    case Syntax(m) => if m == "" then "Invalid JSON" else m
    case NullValue => NullValueMessage
    case NoColumns => "Config must have a \"columns\" array"
    case BadType(i) => "Column " + Text.IntToString(i) + " must have type \"narrow\" or \"wide\""
    case NoFurniture(i) => "Column " + Text.IntToString(i) + " must have a \"furniture\" array"
    case BadFilename(i, j) =>
      "Column " + Text.IntToString(i) + ", furniture " + Text.IntToString(j) + " must have a \"filename\" string"
    case BadHeight(i, j) =>
      "Column " + Text.IntToString(i) + ", furniture " + Text.IntToString(j) + " must have a \"height\" number >= 0"
  }

  // ---------------------------------------------------------------------------
  // The checks

  /** One piece: a non-empty `filename` string, then a `height` number that is not negative. */
  function CheckPiece(piece: Json, column: nat, index: nat): (r: Result<Piece, ConfigError>)
    ensures r.Ok? ==> r.value.filename != "" && r.value.height >= 0.0
    ensures r.Err? ==> r.error in {NullValue, BadFilename(column, index), BadHeight(column, index)}
  {
    var name := Get(piece, "filename");
    var height := Get(piece, "height");
    if name.Throws? then Err(NullValue)
    else if !(name.Found? && name.v.JStr? && name.v.s != "") then Err(BadFilename(column, index))
    else if !(height.Found? && height.v.JNum?) || height.v.n < 0.0 then Err(BadHeight(column, index))
    else Ok(Piece(name.v.s, height.v.n))
  }

  /** The pieces of column `column` from index `i` on: all of them, or the first error. */
  function CheckPieces(ps: seq<Json>, column: nat, i: nat): (r: Result<seq<Piece>, ConfigError>)
    requires i <= |ps|
    ensures r.Ok? ==> |r.value| == |ps| - i && forall k :: i <= k < |ps| ==> CheckPiece(ps[k], column, k) == Ok(r.value[k - i])
    ensures r.Err? ==> exists k :: i <= k < |ps| && CheckPiece(ps[k], column, k) == Err(r.error)
                                   && forall m :: i <= m < k ==> CheckPiece(ps[m], column, m).Ok?
    decreases |ps| - i
  {
    if i == |ps| then Ok([])
    else match CheckPiece(ps[i], column, i)
      case Err(e) => Err(e)
      case Ok(p) =>
        match CheckPieces(ps, column, i + 1)
        case Err(e) => Err(e)
        case Ok(rest) => Ok([p] + rest)
  }

  /** One column: its `type` must be `"narrow"` or `"wide"`, then its `furniture` an array
      of valid pieces. */
  function CheckColumn(col: Json, column: nat): (r: Result<Bay, ConfigError>)
    ensures r.Ok? ==> ValidBay(r.value)
  {
    if Get(col, "type").Throws? then Err(NullValue)
    else
      var kind := if Get(col, "type") == Found(JStr("narrow")) then Some(NarrowBay)
                  else if Get(col, "type") == Found(JStr("wide")) then Some(WideBay)
                  else None;
      var furniture := Get(col, "furniture");
      if kind.None? then Err(BadType(column))
      else if !(furniture.Found? && furniture.v.JArr?) then Err(NoFurniture(column))
      else
        var ps := furniture.v.elems;
        match CheckPieces(ps, column, 0)
        case Err(e) => Err(e)
        case Ok(pieces) =>
          assert forall j :: 0 <= j < |pieces| ==> CheckPiece(ps[j], column, j) == Ok(pieces[j]);
          Ok(Bay(kind.value, pieces))
  }

  /** The columns from index `i` on: all of them, or the first error. */
  function CheckColumns(cols: seq<Json>, i: nat): (r: Result<seq<Bay>, ConfigError>)
    requires i <= |cols|
    ensures r.Ok? ==> |r.value| == |cols| - i && forall k :: i <= k < |cols| ==> CheckColumn(cols[k], k) == Ok(r.value[k - i])
    ensures r.Err? ==> exists k :: i <= k < |cols| && CheckColumn(cols[k], k) == Err(r.error)
                                   && forall m :: i <= m < k ==> CheckColumn(cols[m], m).Ok?
    decreases |cols| - i
  {
    if i == |cols| then Ok([])
    else match CheckColumn(cols[i], i)
      case Err(e) => Err(e)
      case Ok(b) =>
        match CheckColumns(cols, i + 1)
        case Err(e) => Err(e)
        case Ok(rest) => Ok([b] + rest)
  }

  /** Every piece of the bay names a file and hangs at a non-negative height. */
  predicate ValidBay(b: Bay) {
    forall j :: 0 <= j < |b.furniture| ==> b.furniture[j].filename != "" && b.furniture[j].height >= 0.0
  }

  /** Every bay is valid. */
  predicate ValidConfig(c: Config) {
    forall i :: 0 <= i < |c.columns| ==> ValidBay(c.columns[i])
  }

  /** The structural validation of a parsed value. */
  function Validate(j: Json): (r: Result<Config, ConfigError>)
    ensures r.Ok? ==> ValidConfig(r.value)
    ensures Get(j, "columns").Throws? ==> r == Err(NullValue)
    ensures !Get(j, "columns").Throws? && !(Get(j, "columns").Found? && Get(j, "columns").v.JArr?) ==> r == Err(NoColumns)
    ensures Get(j, "columns").Found? && Get(j, "columns").v.JArr? ==>
              var cols := Get(j, "columns").v.elems;
              && (r.Ok? <==> forall k :: 0 <= k < |cols| ==> CheckColumn(cols[k], k).Ok?)
              && (r.Ok? ==> |r.value.columns| == |cols| &&
                            forall k :: 0 <= k < |cols| ==> CheckColumn(cols[k], k) == Ok(r.value.columns[k]))
              && (r.Err? ==> exists k :: 0 <= k < |cols| && CheckColumn(cols[k], k) == Err(r.error) &&
                                         forall m :: 0 <= m < k ==> CheckColumn(cols[m], m).Ok?)
  {
    var columns := Get(j, "columns");
    if columns.Throws? then Err(NullValue)
    else if !(columns.Found? && columns.v.JArr?) then Err(NoColumns)
    else
      var cols := columns.v.elems;
      match CheckColumns(cols, 0)
      case Err(e) => Err(e)
      case Ok(bays) =>
        assert forall i :: 0 <= i < |bays| ==> CheckColumn(cols[i], i) == Ok(bays[i]);
        Ok(Config(bays))
  }

  // ---------------------------------------------------------------------------
  // The editor state

  /** The configuration shown and the error under the editor. */
  datatype Editor = Editor(config: Config, error: string)

  /** The effect that runs on every edit of the JSON text. */
  function OnEdit(e: Editor, text: string, parse: Parser): (r: Editor)
    ensures Text.IsBlank(text) ==> r == Editor(DefaultConfig, "")
    ensures !Text.IsBlank(text) && parse(text).Ok? && Validate(parse(text).value).Ok? ==>
              r == Editor(Validate(parse(text).value).value, "")
    ensures r.error != "" ==> r.config == e.config
    ensures !Text.IsBlank(text) && (parse(text).Err? || Validate(parse(text).value).Err?) ==>
              r.config == e.config && r.error != ""
    ensures !Text.IsBlank(text) && parse(text).Ok? && Validate(parse(text).value).Err? ==>
              r.error == Message(Validate(parse(text).value).error)
  {
    Text.TrimSpec(text);
    if Text.Trim(text) == "" then Editor(DefaultConfig, "")
    else match parse(text)
      case Err(m) => e.(error := Message(Syntax(m)))
      case Ok(parsed) =>
        match Validate(parsed)
        case Err(err) => e.(error := Message(err))
        case Ok(c) => Editor(c, "")
  }

  // ---------------------------------------------------------------------------
  // Encoding a configuration, and the round trip

  function TypeName(t: BayType): string {
    match t
    case NarrowBay => "narrow"
    case WideBay => "wide"
  }

  function EncodePiece(p: Piece): Json {
    JObj(map["filename" := JStr(p.filename), "height" := JNum(p.height)])
  }

  function EncodePieces(ps: seq<Piece>): (r: seq<Json>)
    ensures |r| == |ps| && forall j :: 0 <= j < |ps| ==> r[j] == EncodePiece(ps[j])
  {
    seq(|ps|, j requires 0 <= j < |ps| => EncodePiece(ps[j]))
  }

  function EncodeBay(b: Bay): Json {
    JObj(map["type" := JStr(TypeName(b.kind)), "furniture" := JArr(EncodePieces(b.furniture))])
  }

  function EncodeBays(bs: seq<Bay>): (r: seq<Json>)
    ensures |r| == |bs| && forall i :: 0 <= i < |bs| ==> r[i] == EncodeBay(bs[i])
  {
    seq(|bs|, i requires 0 <= i < |bs| => EncodeBay(bs[i]))
  }

  /** The JSON the editor is initialised with (before pretty-printing). */
  function EncodeConfig(c: Config): Json {
    JObj(map["columns" := JArr(EncodeBays(c.columns))])
  }

  /** Helper: an encoded piece checks exactly when it is valid, and the error says which
      field is wrong. */
  lemma CheckPieceEncoded(p: Piece, column: nat, i: nat)
    ensures CheckPiece(EncodePiece(p), column, i) ==
              if p.filename == "" then Err(BadFilename(column, i))
              else if p.height < 0.0 then Err(BadHeight(column, i))
              else Ok(p)
  {
    var j := EncodePiece(p);
    assert Get(j, "filename") == Found(JStr(p.filename));
    assert Get(j, "height") == Found(JNum(p.height));
  }

  /** Helper: valid pieces check one by one into themselves. */
  lemma {:induction false} CheckValidPieces(ps: seq<Piece>, column: nat, i: nat)
    requires i <= |ps|
    requires forall k :: i <= k < |ps| ==> ps[k].filename != "" && ps[k].height >= 0.0
    ensures CheckPieces(EncodePieces(ps), column, i) == Ok(ps[i..])
    decreases |ps| - i
  {
    if i < |ps| {
      CheckValidPieces(ps, column, i + 1);
      CheckPieceEncoded(ps[i], column, i);
      assert EncodePieces(ps)[i] == EncodePiece(ps[i]);
      assert ps[i..] == [ps[i]] + ps[i + 1..];
    } else {
      assert ps[i..] == [];
    }
  }

  /** Helper: the pieces of a bay check one by one exactly when they are valid. */
  lemma CheckPiecesEncoded(ps: seq<Piece>, column: nat, i: nat)
    requires i <= |ps|
    ensures var js := EncodePieces(ps);
            (forall k :: i <= k < |ps| ==> ps[k].filename != "" && ps[k].height >= 0.0) <==>
            CheckPieces(js, column, i) == Ok(ps[i..])
  {
    var js := EncodePieces(ps);
    if CheckPieces(js, column, i) == Ok(ps[i..]) {
      forall k | i <= k < |ps| ensures ps[k].filename != "" && ps[k].height >= 0.0 {
        assert CheckPiece(js[k], column, k) == Ok(ps[i..][k - i]);
        assert ps[i..][k - i] == ps[k];
      }
    }
    if forall k :: i <= k < |ps| ==> ps[k].filename != "" && ps[k].height >= 0.0 {
      CheckValidPieces(ps, column, i);
    }
  }

  /** Helper: a bay checks exactly when its pieces are valid. */
  lemma CheckBayEncoded(b: Bay, column: nat)
    ensures ValidBay(b) <==> CheckColumn(EncodeBay(b), column) == Ok(b)
  {
    var j := EncodeBay(b);
    if ValidBay(b) {
      CheckValidPieces(b.furniture, column, 0);
      assert b.furniture[0..] == b.furniture;
      assert Get(j, "type") == Found(JStr(TypeName(b.kind)));
      var ps := EncodePieces(b.furniture);
      assert Get(j, "furniture") == Found(JArr(ps));
      if b.kind == NarrowBay {
        assert Get(j, "type") == Found(JStr("narrow"));
      } else {
        assert Get(j, "type") == Found(JStr("wide")) != Found(JStr("narrow"));
      }
    }
  }

  /** Helper: valid bays check one by one into themselves. */
  lemma {:induction false} CheckValidColumns(c: Config, i: nat)
    requires i <= |c.columns|
    requires forall k :: i <= k < |c.columns| ==> ValidBay(c.columns[k])
    ensures CheckColumns(EncodeBays(c.columns), i) == Ok(c.columns[i..])
    decreases |c.columns| - i
  {
    if i < |c.columns| {
      CheckValidColumns(c, i + 1);
      CheckBayEncoded(c.columns[i], i);
      assert EncodeBays(c.columns)[i] == EncodeBay(c.columns[i]);
      assert c.columns[i..] == [c.columns[i]] + c.columns[i + 1..];
    } else {
      assert c.columns[i..] == [];
    }
  }

  /** Helper: the columns check one by one exactly when they are valid. */
  lemma CheckColumnsEncoded(c: Config, i: nat)
    requires i <= |c.columns|
    ensures var js := EncodeBays(c.columns);
            (forall k :: i <= k < |c.columns| ==> ValidBay(c.columns[k])) <==>
            CheckColumns(js, i) == Ok(c.columns[i..])
  {
    var js := EncodeBays(c.columns);
    if CheckColumns(js, i) == Ok(c.columns[i..]) {
      forall k | i <= k < |c.columns| ensures ValidBay(c.columns[k]) {
        assert CheckColumn(js[k], k) == Ok(c.columns[i..][k - i]);
        assert c.columns[i..][k - i] == c.columns[k];
      }
    }
    if forall k :: i <= k < |c.columns| ==> ValidBay(c.columns[k]) {
      CheckValidColumns(c, i);
    }
  }

  /** Encoding a configuration and validating it gives it back exactly when it is valid;
      an invalid configuration is rejected. */
  lemma ValidateEncode(c: Config)
    ensures ValidConfig(c) <==> Validate(EncodeConfig(c)) == Ok(c)
  {
    CheckColumnsEncoded(c, 0);
    assert c.columns[0..] == c.columns;
  }

  /** `DEFAULT_CONFIG` passes its own validation. */
  lemma DefaultIsValid()
    ensures Validate(EncodeConfig(DefaultConfig)) == Ok(DefaultConfig)
  {
    ValidateEncode(DefaultConfig);
  }

  /** The editor starts on the printed default configuration: when the text codec
      round-trips the default's JSON, the preview shows the default and no error. */
  lemma InitialTextShowsDefault(e: Editor, parse: Parser, stringify: Printer)
    requires RoundTripsOn(parse, stringify, EncodeConfig(DefaultConfig))
    ensures OnEdit(e, stringify(EncodeConfig(DefaultConfig)), parse) == Editor(DefaultConfig, "")
  {
    DefaultIsValid();
  }
}

=== FILE: preview_layout.dfy ===
/** Layout of the 606 preview (src/components/ui/SixZeroSixPreview.tsx): bay widths in cm,
    rail ("e-track") positions as prefix sums, the dashed hole lines, and where each
    furniture piece's image goes so that its pin sits on the rail to the right of its bay.
    Drawing is modelled as the list of commands the canvas would receive. */
module PreviewLayout {
  import opened Wrappers
  import opened ViewBox
  import Text

  datatype BayType = NarrowBay | WideBay

  /** A piece of furniture hung on a bay's right-hand rail, `height` rail holes from the bottom. */
  datatype Piece = Piece(filename: string, height: real)

  datatype Bay = Bay(kind: BayType, furniture: seq<Piece>)

  /** The preview configuration: bays from left to right. */
  datatype Config = Config(columns: seq<Bay>)

  /** A recorded pin: where the piece hangs on the rail, in the SVG's own coordinates, and
      the view box it was recorded against. */
  datatype Pin = Pin(x: real, y: real, viewBox: Option<string>)

  const EtrackPinSpacingCm: real := 4.0
  const NarrowBayWidthCm: real := 66.7
  const WideBayWidthCm: real := 91.2
  const CmToPx: real := 2.0
  const MinHeightCm: real := 50.0
  const DefaultViewBox: string := "0 0 100 100"

  function BayWidth(t: BayType): real {
    match t
    case NarrowBay => NarrowBayWidthCm
    case WideBay => WideBayWidthCm
  }

  // ---------------------------------------------------------------------------
  // totalWidth, trackPositions

  /** `totalWidth`: the bays' widths summed, in cm. */
  function TotalWidth(cols: seq<Bay>): real {
    if |cols| == 0 then 0.0 else TotalWidth(cols[..|cols| - 1]) + BayWidth(cols[|cols| - 1].kind)
  }

  /** `trackPositions`: the rails' x positions in cm, one left of the first bay and one to
      the right of every bay. */
  function TrackPositions(cols: seq<Bay>): (r: seq<real>)
    ensures |r| == |cols| + 1
    ensures r[0] == 0.0
    ensures forall i :: 0 <= i < |cols| ==> r[i + 1] - r[i] == BayWidth(cols[i].kind)
    ensures r[|cols|] == TotalWidth(cols)
  {
    if |cols| == 0 then [0.0]
    else
      var prev := TrackPositions(cols[..|cols| - 1]);
      assert forall i :: 0 <= i < |cols| - 1 ==> cols[..|cols| - 1][i] == cols[i];
      prev + [prev[|cols| - 1] + BayWidth(cols[|cols| - 1].kind)]
  }

  /** Rails are strictly increasing from left to right. */
  lemma {:induction false} TracksIncrease(cols: seq<Bay>)
    ensures forall i, j :: 0 <= i < j <= |cols| ==> TrackPositions(cols)[i] < TrackPositions(cols)[j]
  {
    var t := TrackPositions(cols);
    forall i, j | 0 <= i < j <= |cols| ensures t[i] < t[j] {
      var k := i;
      while k < j
        invariant i <= k <= j && t[i] <= t[k]
        invariant k > i ==> t[i] < t[k]
      {
        assert t[k + 1] - t[k] == BayWidth(cols[k].kind);
        k := k + 1;
      }
    }
  }

  // ---------------------------------------------------------------------------
  // maxHeight

  function Max(a: real, b: real): real { if a >= b then a else b }

  /** The tallest piece of one bay in cm, at least `floor`. */
  function PiecesMax(ps: seq<Piece>, floor: real): (r: real)
    ensures r >= floor
    ensures forall j :: 0 <= j < |ps| ==> r >= ps[j].height * EtrackPinSpacingCm
    ensures r == floor || exists j :: 0 <= j < |ps| && r == ps[j].height * EtrackPinSpacingCm
  {
    if |ps| == 0 then floor
    else
      var rest := PiecesMax(ps[1..], floor);
      assert forall j :: 1 <= j < |ps| ==> ps[j] == ps[1..][j - 1];
      Max(ps[0].height * EtrackPinSpacingCm, rest)
  }

  /** `maxHeight`: the highest hanging point of any piece in cm (`height * 4`), and never
      less than 50. */
  function MaxHeight(cols: seq<Bay>): (r: real)
    ensures r >= MinHeightCm
    ensures forall i, j :: 0 <= i < |cols| && 0 <= j < |cols[i].furniture| ==>
              r >= cols[i].furniture[j].height * EtrackPinSpacingCm
    ensures r == MinHeightCm || exists i, j :: 0 <= i < |cols| && 0 <= j < |cols[i].furniture|
                                             && r == cols[i].furniture[j].height * EtrackPinSpacingCm
  {
    if |cols| == 0 then MinHeightCm
    else
      var rest := MaxHeight(cols[1..]);
      assert forall i :: 1 <= i < |cols| ==> cols[i] == cols[1..][i - 1];
      var r := PiecesMax(cols[0].furniture, rest);
      assert r == rest && rest != MinHeightCm ==>
               exists i, j :: 0 <= i < |cols| && 0 <= j < |cols[i].furniture|
                              && r == cols[i].furniture[j].height * EtrackPinSpacingCm by {
        if r == rest && rest != MinHeightCm {
          var i, j :| 0 <= i < |cols[1..]| && 0 <= j < |cols[1..][i].furniture|
                      && rest == cols[1..][i].furniture[j].height * EtrackPinSpacingCm;
          assert cols[i + 1].furniture[j] == cols[1..][i].furniture[j];
        }
      }
      r
  }

  // ---------------------------------------------------------------------------
  // The drawing area and hole lines

  /** `Math.ceil` on reals. */
  function Ceil(x: real): (r: int)
    ensures x <= r as real < x + 1.0
  {
    -((-x).Floor)
  }

  /** `numHoles`: enough rail holes to reach the tallest piece, plus one. */
  function NumHoles(maxHeight: real): int {
    Ceil(maxHeight / EtrackPinSpacingCm) + 1
  }

  /** The y positions in px of the dashed hole lines: one every rail-hole pitch, from the
      top of the drawing area, for `i = 0 .. numHoles`. */
  function HoleLines(maxHeight: real): (r: seq<real>)
    requires maxHeight >= 0.0
    ensures |r| == NumHoles(maxHeight) + 1
    ensures forall i :: 0 <= i < |r| ==> r[i] == i as real * EtrackPinSpacingCm * CmToPx
    ensures r[|r| - 1] >= (maxHeight + EtrackPinSpacingCm) * CmToPx
  {
    var n := NumHoles(maxHeight);
    seq(n + 1, i requires 0 <= i <= n => i as real * EtrackPinSpacingCm * CmToPx)
  }

  // ---------------------------------------------------------------------------
  // Per-piece placement

  /** What the canvas receives for one piece: the grey strip with its file name at the foot
      of the bay, the image at a position and size, or nothing visible (an image whose size
      came out as `NaN` or zero, which `drawImage` ignores). */
  datatype PieceDraw =
    | Placeholder(file: string, left: real, top: real, width: real, height: real)
    | Image(file: string, x: real, y: real, width: real, height: real)
    | Invisible(file: string)

  /** `pinLocation.viewBox || '0 0 100 100'`. */
  function ViewBoxText(pin: Pin): string {
    if pin.viewBox.Some? && pin.viewBox.value != "" then pin.viewBox.value else DefaultViewBox
  }

  /** The image's frame for placement: the parsed view box when the text has four parts;
      the 100 x 100 default otherwise; `None` when a part of a four-part box is `NaN` or the
      size is zero. */
  function PlacementFrame(pin: Pin, toNumber: NumberOf): (r: Option<Frame>)
    ensures r.Some? ==> r.value.width != 0.0 && r.value.height != 0.0
    ensures |Parts(ViewBoxText(pin), toNumber)| != 4 ==> r == Some(Frame(0.0, 0.0, 100.0, 100.0))
    ensures |Parts(ViewBoxText(pin), toNumber)| == 4 && r.Some? ==> Some(r.value) == Parse(ViewBoxText(pin), toNumber)
  {
    var text := ViewBoxText(pin);
    if |Parts(text, toNumber)| != 4 then Some(Frame(0.0, 0.0, 100.0, 100.0))
    else match Parse(text, toNumber)
      case None => None
      case Some(f) => if f.width == 0.0 || f.height == 0.0 then None else Some(f)
  }

  /** A point on the canvas, in px. */
  datatype Point = Point(x: real, y: real)

  /** The canvas point where SVG point `(sx, sy)` of a drawn image ends up: the image maps
      its view box linearly onto the rectangle it is drawn in. */
  function ImagePoint(d: PieceDraw, f: Frame, sx: real, sy: real): Point
    requires d.Image? && f.width != 0.0 && f.height != 0.0
  {
    Point(d.x + (sx - f.minX) / f.width * d.width, d.y + (sy - f.minY) / f.height * d.height)
  }

  /** Where a piece hangs: its bay's right-hand rail, `height` rail holes up from the bottom
      of the drawing area. */
  function HangPoint(columnRight: real, canvasHeight: real, p: Piece): Point {
    Point(columnRight, canvasHeight - p.height * EtrackPinSpacingCm * CmToPx)
  }

  /** One piece, with its image loaded (`loaded`) and its pin recorded (`pins`): the image is
      drawn at its view-box size in px, positioned so that its pin point sits on the hang
      point; a missing image or pin gives the placeholder strip instead. */
  function DrawPiece(p: Piece, columnLeft: real, columnWidthCm: real, canvasHeight: real,
                     loaded: string -> bool, pins: map<string, Pin>, toNumber: NumberOf): (r: PieceDraw)
    ensures !loaded(p.filename) || p.filename !in pins ==>
              r == Placeholder(p.filename, columnLeft, canvasHeight - 20.0, columnWidthCm * CmToPx, 20.0)
    ensures loaded(p.filename) && p.filename in pins ==> !r.Placeholder?
    ensures r.Image? ==> r.file == p.filename && p.filename in pins && PlacementFrame(pins[p.filename], toNumber).Some?
    ensures r.Image? ==> var f := PlacementFrame(pins[p.filename], toNumber).value;
                         && r.width == f.width * CmToPx && r.height == f.height * CmToPx
                         && ImagePoint(r, f, pins[p.filename].x, pins[p.filename].y)
                            == HangPoint(columnLeft + columnWidthCm * CmToPx, canvasHeight, p)
  {
    if !loaded(p.filename) || p.filename !in pins then
      Placeholder(p.filename, columnLeft, canvasHeight - 20.0, columnWidthCm * CmToPx, 20.0)
    else
      var pin := pins[p.filename];
      match PlacementFrame(pin, toNumber)
      case None => Invisible(p.filename)
      case Some(f) =>
        var columnRight := columnLeft + columnWidthCm * CmToPx;
        var widthPx := f.width * CmToPx;
        var heightPx := f.height * CmToPx;
        var pinXInSvgPixels := (pin.x - f.minX) / f.width * widthPx;
        var pinYInSvgPixels := (pin.y - f.minY) / f.height * heightPx;
        var pinY := canvasHeight - p.height * EtrackPinSpacingCm * CmToPx;
        var r := Image(p.filename, columnRight - pinXInSvgPixels, pinY - pinYInSvgPixels, widthPx, heightPx);
        assert ImagePoint(r, f, pin.x, pin.y).x == columnRight;
        assert ImagePoint(r, f, pin.x, pin.y).y == pinY;
        r
  }

  /** Helper: an anchor moved back by the scaled pin offset and then forward by the scaled
      offset from the frame origin ends up moved back by the scaled origin. */
  lemma OffsetIgnoringOrigin(anchor: real, s: real, origin: real, size: real, k: real)
    requires size != 0.0
    ensures (anchor - s / size * (size * k)) + (s - origin) / size * (size * k) == anchor - origin * k
  {
    ScaleCancels(s, size, k);
    ScaleCancels(s - origin, size, k);
    assert (s - origin) * k == s * k - origin * k;
  }

  /** Helper: scaling by a size and dividing by it again cancels. */
  lemma ScaleCancels(a: real, size: real, k: real)
    requires size != 0.0
    ensures a / size * (size * k) == a * k
    ensures a / size * size == a
  {
    calc {
      a / size * (size * k);
      (a / size * size) * k;
      a * k;
    }
  }

  /** The image size as written: `vb[2]`, `vb[3]` of a four-part box (the origin parts are
      not checked), 100 x 100 otherwise; `None` when a size is `NaN` or zero, which leaves
      the drawn position `NaN`. */
  function SizeAsWritten(pin: Pin, toNumber: NumberOf): (r: Option<(real, real)>)
    ensures r.Some? ==> r.value.0 != 0.0 && r.value.1 != 0.0
    ensures PlacementFrame(pin, toNumber).Some? ==>
              r == Some((PlacementFrame(pin, toNumber).value.width, PlacementFrame(pin, toNumber).value.height))
  {
    var vb := Parts(ViewBoxText(pin), toNumber);
    var w := if |vb| == 4 then vb[2] else Some(100.0);
    var h := if |vb| == 4 then vb[3] else Some(100.0);
    if w.None? || h.None? || w.value == 0.0 || h.value == 0.0 then None else Some((w.value, h.value))
  }

  /** The placement exactly as written, which measures the pin from the image's left and
      top edges as if the view box started at the origin: `(pin.x / svgWidth) * svgWidthPx`.
      Whenever the view box is fully numeric, the pin lands off the hang point by the view
      box origin, scaled to px. */
  function DrawPieceAsWritten(p: Piece, columnLeft: real, columnWidthCm: real, canvasHeight: real,
                              loaded: string -> bool, pins: map<string, Pin>, toNumber: NumberOf): (r: PieceDraw)
    ensures !loaded(p.filename) || p.filename !in pins ==>
              r == Placeholder(p.filename, columnLeft, canvasHeight - 20.0, columnWidthCm * CmToPx, 20.0)
    ensures loaded(p.filename) && p.filename in pins ==>
              (r.Image? <==> SizeAsWritten(pins[p.filename], toNumber).Some?)
    ensures r.Image? && PlacementFrame(pins[p.filename], toNumber).Some? ==>
              var f := PlacementFrame(pins[p.filename], toNumber).value;
              ImagePoint(r, f, pins[p.filename].x, pins[p.filename].y)
              == Point(columnLeft + columnWidthCm * CmToPx - f.minX * CmToPx,
                  canvasHeight - p.height * EtrackPinSpacingCm * CmToPx - f.minY * CmToPx)
  {
    if !loaded(p.filename) || p.filename !in pins then
      Placeholder(p.filename, columnLeft, canvasHeight - 20.0, columnWidthCm * CmToPx, 20.0)
    else
      var pin := pins[p.filename];
      match SizeAsWritten(pin, toNumber)
      case None => Invisible(p.filename)
      case Some((svgWidth, svgHeight)) =>
        var columnRight := columnLeft + columnWidthCm * CmToPx;
        var widthPx := svgWidth * CmToPx;
        var heightPx := svgHeight * CmToPx;
        var pinXInSvgPixels := pin.x / svgWidth * widthPx;
        var pinYInSvgPixels := pin.y / svgHeight * heightPx;
        var pinY := canvasHeight - p.height * EtrackPinSpacingCm * CmToPx;
        var r := Image(p.filename, columnRight - pinXInSvgPixels, pinY - pinYInSvgPixels, widthPx, heightPx);
        assert PlacementFrame(pin, toNumber).Some? ==>
                 svgWidth == PlacementFrame(pin, toNumber).value.width &&
                 svgHeight == PlacementFrame(pin, toNumber).value.height;
        AsWrittenLands(r, PlacementFrame(pin, toNumber), pin, columnRight, pinY, svgWidth, svgHeight);
        r
  }

  /** Helper: an image placed as written, measuring the pin from the image's corner, puts the
      pin off the anchor by the frame origin in px. */
  lemma AsWrittenLands(r: PieceDraw, frame: Option<Frame>, pin: Pin, anchorX: real, anchorY: real,
                       svgWidth: real, svgHeight: real)
    requires svgWidth != 0.0 && svgHeight != 0.0
    requires r.Image? && r.width == svgWidth * CmToPx && r.height == svgHeight * CmToPx
    requires r.x == anchorX - pin.x / svgWidth * (svgWidth * CmToPx)
    requires r.y == anchorY - pin.y / svgHeight * (svgHeight * CmToPx)
    requires frame.Some? ==> svgWidth == frame.value.width && svgHeight == frame.value.height
    ensures frame.Some? ==> ImagePoint(r, frame.value, pin.x, pin.y)
                            == Point(anchorX - frame.value.minX * CmToPx, anchorY - frame.value.minY * CmToPx)
  {
    if frame.Some? {
      var f := frame.value;
      OffsetIgnoringOrigin(anchorX, pin.x, f.minX, svgWidth, CmToPx);
      OffsetIgnoringOrigin(anchorY, pin.y, f.minY, svgHeight, CmToPx);
    }
  }

  /** A view box whose origin is not `0 0` moves the as-written image off the rail: with
      the box `10 0 100 100` the pin lands 20 px left of the bay's right edge. */
  lemma AsWrittenMissesRail(toNumber: NumberOf)
    requires toNumber("10") == Some(10.0) && toNumber("0") == Some(0.0) && toNumber("100") == Some(100.0)
    ensures var pins := map["shelf.svg" := Pin(60.0, 50.0, Some("10 0 100 100"))];
            var p := Piece("shelf.svg", 5.0);
            var d := DrawPieceAsWritten(p, 0.0, 66.7, 200.0, _ => true, pins, toNumber);
            && d.Image?
            && PlacementFrame(pins["shelf.svg"], toNumber) == Some(Frame(10.0, 0.0, 100.0, 100.0))
            && ImagePoint(d, Frame(10.0, 0.0, 100.0, 100.0), 60.0, 50.0).x
               == HangPoint(66.7 * CmToPx, 200.0, p).x - 20.0
  {
    var pins := map["shelf.svg" := Pin(60.0, 50.0, Some("10 0 100 100"))];
    ShiftedFrame(toNumber);
    assert pins["shelf.svg"] == Pin(60.0, 50.0, Some("10 0 100 100"));
    var f := Frame(10.0, 0.0, 100.0, 100.0);
    assert SizeAsWritten(pins["shelf.svg"], toNumber) == Some((100.0, 100.0));
  }

  /** Helper: the box `10 0 100 100` is a frame with its origin at `(10, 0)`. */
  lemma ShiftedFrame(toNumber: NumberOf)
    requires toNumber("10") == Some(10.0) && toNumber("0") == Some(0.0) && toNumber("100") == Some(100.0)
    ensures PlacementFrame(Pin(60.0, 50.0, Some("10 0 100 100")), toNumber) == Some(Frame(10.0, 0.0, 100.0, 100.0))
  {
    ViewBox.FourWords("10", "0", "100", "100");
    assert "10" + (" " + ("0" + (" " + ("100" + (" " + "100"))))) == "10 0 100 100";
    FourPartFrame(Pin(60.0, 50.0, Some("10 0 100 100")), toNumber, ["10", "0", "100", "100"],
                  Frame(10.0, 0.0, 100.0, 100.0));
  }

  /** Helper: a view box of four numerals with a non-zero size is placed at its own frame. */
  lemma FourPartFrame(pin: Pin, toNumber: NumberOf, words: seq<string>, f: Frame)
    requires Text.Split(ViewBoxText(pin), {' '}) == words && |words| == 4
    requires toNumber(words[0]) == Some(f.minX) && toNumber(words[1]) == Some(f.minY)
    requires toNumber(words[2]) == Some(f.width) && toNumber(words[3]) == Some(f.height)
    requires f.width != 0.0 && f.height != 0.0
    ensures PlacementFrame(pin, toNumber) == Some(f)
  {
    var vb := Parts(ViewBoxText(pin), toNumber);
    assert vb == [Some(f.minX), Some(f.minY), Some(f.width), Some(f.height)];
  }

  // ---------------------------------------------------------------------------
  // The whole preview

  /** The preview's draw commands. */
  datatype Preview = Preview(
    width: real,                    // drawing area width in px
    height: real,                   // drawing area height in px
    rails: seq<real>,               // rail x positions in px
    holeLines: seq<real>,           // hole line y positions in px
    pieces: seq<seq<PieceDraw>>)    // per bay, per piece, in configuration order

  /** Left edge of bay `i` in px: `columnIndex === 0 ? 0 : trackPositions[i] * CM_TO_PX`. */
  function ColumnLeft(tracks: seq<real>, i: nat): real
    requires i < |tracks|
  {
    if i == 0 then 0.0 else tracks[i] * CmToPx
  }

  /** How a piece's image is positioned: `AsWritten` is the component's own placement, which
      measures the pin from the image's corner; `FromOrigin` measures it from the view box
      origin, as the pin locator records pins. */
  datatype Placement = AsWritten | FromOrigin

  /** One piece's command under the chosen placement. */
  function DrawPieceBy(mode: Placement, p: Piece, columnLeft: real, columnWidthCm: real, canvasHeight: real,
                       loaded: string -> bool, pins: map<string, Pin>, toNumber: NumberOf): PieceDraw
  {
    match mode
    case AsWritten => DrawPieceAsWritten(p, columnLeft, columnWidthCm, canvasHeight, loaded, pins, toNumber)
    case FromOrigin => DrawPiece(p, columnLeft, columnWidthCm, canvasHeight, loaded, pins, toNumber)
  }

  /** The draw commands of one bay, one per piece in configuration order. */
  function BayDraws(mode: Placement, bay: Bay, left: real, canvasHeight: real, loaded: string -> bool,
                    pins: map<string, Pin>, toNumber: NumberOf): (r: seq<PieceDraw>)
    ensures |r| == |bay.furniture|
    ensures forall j :: 0 <= j < |r| ==>
              r[j] == DrawPieceBy(mode, bay.furniture[j], left, BayWidth(bay.kind), canvasHeight, loaded, pins, toNumber)
  {
    seq(|bay.furniture|, j requires 0 <= j < |bay.furniture| =>
      DrawPieceBy(mode, bay.furniture[j], left, BayWidth(bay.kind), canvasHeight, loaded, pins, toNumber))
  }

  /** The rail positions in px. */
  function Rails(tracks: seq<real>): (r: seq<real>)
    ensures |r| == |tracks|
    ensures forall i :: 0 <= i < |r| ==> r[i] == tracks[i] * CmToPx
  {
    seq(|tracks|, i requires 0 <= i < |tracks| => tracks[i] * CmToPx)
  }

  /** The preview of a configuration: the drawing area is the bays' total width by the
      tallest hanging point plus 50 cm; every piece yields exactly one command, drawn in its
      own bay. `Layout(AsWritten, …)` is what the component draws. */
  function Layout(mode: Placement, cfg: Config, loaded: string -> bool, pins: map<string, Pin>,
                  toNumber: NumberOf): (r: Preview)
    ensures r.width == TotalWidth(cfg.columns) * CmToPx
    ensures r.height == (MaxHeight(cfg.columns) + MinHeightCm) * CmToPx
    ensures r.rails == Rails(TrackPositions(cfg.columns)) && |r.rails| == |cfg.columns| + 1
    ensures r.holeLines == HoleLines(MaxHeight(cfg.columns))
    ensures |r.pieces| == |cfg.columns|
    ensures forall i :: 0 <= i < |cfg.columns| ==>
              r.pieces[i] == BayDraws(mode, cfg.columns[i], ColumnLeft(TrackPositions(cfg.columns), i), r.height,
                                      loaded, pins, toNumber)
  {
    var cols := cfg.columns;
    var tracks := TrackPositions(cols);
    var maxHeight := MaxHeight(cols);
    var height := (maxHeight + MinHeightCm) * CmToPx;
    Preview(
      TotalWidth(cols) * CmToPx,
      height,
      Rails(tracks),
      HoleLines(maxHeight),
      AllBayDraws(mode, cols, tracks, height, loaded, pins, toNumber))
  }

  /** The draw commands of every bay, each bay starting at its left rail. */
  function AllBayDraws(mode: Placement, cols: seq<Bay>, tracks: seq<real>, canvasHeight: real,
                       loaded: string -> bool, pins: map<string, Pin>, toNumber: NumberOf): (r: seq<seq<PieceDraw>>)
    requires |tracks| == |cols| + 1
    ensures |r| == |cols|
    ensures forall i :: 0 <= i < |cols| ==>
              r[i] == BayDraws(mode, cols[i], ColumnLeft(tracks, i), canvasHeight, loaded, pins, toNumber)
  {
    seq(|cols|, i requires 0 <= i < |cols| =>
      BayDraws(mode, cols[i], ColumnLeft(tracks, i), canvasHeight, loaded, pins, toNumber))
  }

  /** Bay `i` spans exactly from its left rail to its right rail. */
  lemma ColumnSpansRails(cols: seq<Bay>, i: nat)
    requires i < |cols|
    ensures ColumnLeft(TrackPositions(cols), i) == TrackPositions(cols)[i] * CmToPx
    ensures ColumnLeft(TrackPositions(cols), i) + BayWidth(cols[i].kind) * CmToPx == TrackPositions(cols)[i + 1] * CmToPx
  {
  }

  /** A draw command of piece `p` in the bay from `left` to `right` of a drawing area
      `canvasHeight` px high hangs right: a drawn image has a recorded pin and a usable view
      box, and puts the pin on the right-hand rail, `height * 4 * 2` px above the bottom; a
      piece with a missing image or pin is the placeholder strip at the foot of the bay. */
  predicate HangsRight(d: PieceDraw, p: Piece, left: real, right: real, canvasHeight: real,
                       loaded: string -> bool, pins: map<string, Pin>, toNumber: NumberOf)
  {
    && (d.Image? ==> p.filename in pins && PlacementFrame(pins[p.filename], toNumber).Some? &&
                     ImagePoint(d, PlacementFrame(pins[p.filename], toNumber).value, pins[p.filename].x, pins[p.filename].y)
                     == Point(right, canvasHeight - p.height * EtrackPinSpacingCm * CmToPx))
    && (!loaded(p.filename) || p.filename !in pins ==>
          d == Placeholder(p.filename, left, canvasHeight - 20.0, right - left, 20.0))
  }

  /** With the pin measured from the view box origin, every command of the preview hangs
      right in its own bay, between rails `i` and `i + 1`. */
  lemma PiecesHangOnRails(cfg: Config, loaded: string -> bool, pins: map<string, Pin>, toNumber: NumberOf, i: nat, j: nat)
    requires i < |cfg.columns| && j < |cfg.columns[i].furniture|
    ensures var r := Layout(FromOrigin, cfg, loaded, pins, toNumber);
            HangsRight(r.pieces[i][j], cfg.columns[i].furniture[j], r.rails[i], r.rails[i + 1], r.height, loaded, pins, toNumber)
  {
    var r := Layout(FromOrigin, cfg, loaded, pins, toNumber);
    var cols := cfg.columns;
    var tracks := TrackPositions(cols);
    ColumnSpansRails(cols, i);
    var left := ColumnLeft(tracks, i);
    var p := cols[i].furniture[j];
    var d := DrawPiece(p, left, BayWidth(cols[i].kind), r.height, loaded, pins, toNumber);
    assert r.pieces[i] == BayDraws(FromOrigin, cols[i], left, r.height, loaded, pins, toNumber);
    assert r.pieces[i][j] == d;
    assert r.rails[i] == left;
    DrawnBetween(p, left, BayWidth(cols[i].kind), r.rails[i + 1], r.height, loaded, pins, toNumber);
  }

  /** Helper: a piece drawn in a bay from `left` to `right` hangs right. */
  lemma DrawnBetween(p: Piece, left: real, widthCm: real, right: real, canvasHeight: real,
                     loaded: string -> bool, pins: map<string, Pin>, toNumber: NumberOf)
    requires left + widthCm * CmToPx == right
    ensures HangsRight(DrawPiece(p, left, widthCm, canvasHeight, loaded, pins, toNumber), p, left, right, canvasHeight,
                       loaded, pins, toNumber)
  {
  }
  /** The preview as written puts every drawn pin off its hang point by the view box origin
      in px: on the bay's right rail at its hanging height exactly when the view box starts
      at `0 0`. Placeholders are the same as with the corrected placement. */
  lemma AsWrittenPiecesOffByOrigin(cfg: Config, loaded: string -> bool, pins: map<string, Pin>, toNumber: NumberOf,
                                   i: nat, j: nat)
    requires i < |cfg.columns| && j < |cfg.columns[i].furniture|
    ensures var r := Layout(AsWritten, cfg, loaded, pins, toNumber);
            AsWrittenHangs(r.pieces[i][j], cfg.columns[i].furniture[j], r.rails[i], r.rails[i + 1], r.height,
                           loaded, pins, toNumber)
  {
    var r := Layout(AsWritten, cfg, loaded, pins, toNumber);
    var cols := cfg.columns;
    ColumnSpansRails(cols, i);
    var left := ColumnLeft(TrackPositions(cols), i);
    var p := cols[i].furniture[j];
    assert r.pieces[i] == BayDraws(AsWritten, cols[i], left, r.height, loaded, pins, toNumber);
    assert r.pieces[i][j] == DrawPieceAsWritten(p, left, BayWidth(cols[i].kind), r.height, loaded, pins, toNumber);
    assert r.rails[i] == left;
    AsWrittenDrawnBetween(p, left, BayWidth(cols[i].kind), r.rails[i + 1], r.height, loaded, pins, toNumber);
  }

  /** A command of piece `p` in the bay from `left` to `right`, as the component places it: a
      piece with a missing image or pin is the placeholder strip at the foot of the bay, and a
      drawn image with a usable view box puts its pin off the hang point by the view box
      origin in px, so on the hang point exactly when that origin is `0 0`. */
  predicate AsWrittenHangs(d: PieceDraw, p: Piece, left: real, right: real, canvasHeight: real,
                           loaded: string -> bool, pins: map<string, Pin>, toNumber: NumberOf)
  {
    && (!loaded(p.filename) || p.filename !in pins ==>
          d == Placeholder(p.filename, left, canvasHeight - 20.0, right - left, 20.0))
    && (d.Image? && p.filename in pins && PlacementFrame(pins[p.filename], toNumber).Some? ==>
          var f := PlacementFrame(pins[p.filename], toNumber).value;
          var at := ImagePoint(d, f, pins[p.filename].x, pins[p.filename].y);
          && at == Point(right - f.minX * CmToPx, canvasHeight - p.height * EtrackPinSpacingCm * CmToPx - f.minY * CmToPx)
          && (at == HangPoint(right, canvasHeight, p) <==> f.minX == 0.0 && f.minY == 0.0))
  }

  /** Helper: a piece placed as written in a bay from `left` to `right` meets `AsWrittenHangs`. */
  lemma AsWrittenDrawnBetween(p: Piece, left: real, widthCm: real, right: real, canvasHeight: real,
                              loaded: string -> bool, pins: map<string, Pin>, toNumber: NumberOf)
    requires left + widthCm * CmToPx == right
    ensures AsWrittenHangs(DrawPieceAsWritten(p, left, widthCm, canvasHeight, loaded, pins, toNumber), p, left, right,
                           canvasHeight, loaded, pins, toNumber)
  {
  }
}

=== FILE: proxy.dfy ===
/** The admin route guard: which requests pass and which are sent to the login page. */
module Proxy {
  import opened Wrappers
  import Text

  const LoginPath: string := "/admin/login"
  const AdminPrefix: string := "/admin"
  const AuthCookie: string := "admin-auth"
  const Authenticated: string := "authenticated"

  /** Let the request through, or redirect to `location` with the query parameter
      `redirect` set to the path that was asked for. */
  datatype Decision = Pass | Redirect(location: string, redirectTo: string)

  /** `proxy(request)`: `cookie` is the value of the `admin-auth` cookie, if any. */
  function Guard(pathname: string, cookie: Option<string>): (r: Decision)
    ensures pathname == LoginPath ==> r == Pass
    ensures !Text.StartsWith(pathname, AdminPrefix) ==> r == Pass
    ensures cookie == Some(Authenticated) ==> r == Pass
    ensures r.Redirect? <==> pathname != LoginPath && Text.StartsWith(pathname, AdminPrefix) && cookie != Some(Authenticated)
    ensures r.Redirect? ==> r == Redirect(LoginPath, pathname)
  {
    if pathname == LoginPath then Pass
    else if Text.StartsWith(pathname, AdminPrefix) && cookie != Some(Authenticated) then Redirect(LoginPath, pathname)
    else Pass
  }

  /** A redirect never leads to another: the login page passes whatever the cookie, and the
      path asked for is remembered. */
  lemma RedirectNeverChains(pathname: string, cookie: Option<string>, next: Option<string>)
    ensures var d := Guard(pathname, cookie);
            d.Redirect? ==> Guard(d.location, next) == Pass && d.redirectTo == pathname
  {
  }

  /** Signing in opens every admin page that was redirected. */
  lemma SignedInPasses(pathname: string, cookie: Option<string>)
    ensures Guard(pathname, cookie).Redirect? ==> Guard(pathname, Some(Authenticated)) == Pass
  {
  }
}

=== FILE: sanity.dfy ===
/** The pure helpers of the content library: slugs made from names, the homepage card
    subtitle and alt text, the image URL guard, and the homepage pipeline that turns fetched
    items into cards. The content client and the image URL builder are parameters. */
module Sanity {
  import opened Wrappers
  import Text
  import Seqs

  // ---------------------------------------------------------------------------
  // Slugs

  /** A character the slug regular expression `[a-z0-9]` keeps. */
  predicate SlugChar(c: char) {
    'a' <= c <= 'z' || '0' <= c <= '9'
  }

  /** Lower-case letters, digits and single dashes, with no dash at either end. */
  predicate WellFormedSlug(s: string) {
    (forall i :: 0 <= i < |s| ==> SlugChar(s[i]) || s[i] == '-')
    && (forall i :: 0 <= i < |s| - 1 ==> !(s[i] == '-' && s[i + 1] == '-'))
    && (|s| > 0 ==> s[0] != '-' && s[|s| - 1] != '-')
  }

  /** The letters and digits of `s`, in order. */
  function Kept(s: string): (r: string)
    ensures forall i :: 0 <= i < |r| ==> SlugChar(r[i])
  {
    if |s| == 0 then []
    else if SlugChar(s[0]) then [s[0]] + Kept(s[1..])
    else Kept(s[1..])
  }

  /** Drops the leading characters the slug does not keep. */
  function SkipRun(s: string): (r: string)
    ensures |r| <= |s|
    ensures |r| > 0 ==> SlugChar(r[0])
    ensures Kept(r) == Kept(s)
  {
    if |s| > 0 && !SlugChar(s[0]) then SkipRun(s[1..]) else s
  }

  /** `.replace(/[^a-z0-9]+/g, '-')`: each maximal run of other characters becomes one dash. */
  function Collapse(s: string): (r: string)
    ensures forall i :: 0 <= i < |r| ==> SlugChar(r[i]) || r[i] == '-'
    ensures forall i :: 0 <= i < |r| - 1 ==> !(r[i] == '-' && r[i + 1] == '-')
    ensures |r| > 0 <==> |s| > 0
    ensures |s| > 0 && SlugChar(s[0]) ==> r[0] == s[0]
    ensures |s| > 0 && !SlugChar(s[0]) ==> r[0] == '-'
    ensures Kept(r) == Kept(s)
    decreases |s|
  {
    if |s| == 0 then ""
    else if SlugChar(s[0]) then [s[0]] + Collapse(s[1..])
    else
      var rest := Collapse(SkipRun(s[1..]));
      assert Kept("-" + rest) == Kept(rest);
      "-" + rest
  }

  /** Two words of slug characters separated by any non-empty run of other characters come
      out joined by exactly one dash: the run is replaced, not dropped. */
  lemma CollapseSeparates(a: string, w: string, b: string)
    requires forall i :: 0 <= i < |a| ==> SlugChar(a[i])
    requires |w| > 0 && forall i :: 0 <= i < |w| ==> !SlugChar(w[i])
    requires forall i :: 0 <= i < |b| ==> SlugChar(b[i])
    ensures Collapse(a + w + b) == a + "-" + b
  {
    CollapseWord(a, w + b);
    CollapseRun(w, b);
    assert a + w + b == a + (w + b);
    assert a + "-" + b == a + ("-" + b);
  }

  /** Helper: a leading word of slug characters passes through unchanged. */
  lemma {:induction false} CollapseWord(a: string, t: string)
    requires forall i :: 0 <= i < |a| ==> SlugChar(a[i])
    ensures Collapse(a + t) == a + Collapse(t)
    decreases |a|
  {
    if |a| == 0 {
      assert a + t == t;
    } else {
      CollapseWord(a[1..], t);
      var u := a + t;
      assert u[0] == a[0] && u[1..] == a[1..] + t;
      ConsAppend(a, Collapse(t));
    }
  }

  /** Helper: appending to a non-empty string is appending to its tail. */
  lemma ConsAppend(a: string, x: string)
    requires |a| > 0
    ensures a + x == [a[0]] + (a[1..] + x)
  {
    assert a == [a[0]] + a[1..];
  }

  /** Helper: a leading run of other characters becomes one dash before a word. */
  lemma CollapseRun(w: string, b: string)
    requires |w| > 0 && forall i :: 0 <= i < |w| ==> !SlugChar(w[i])
    requires forall i :: 0 <= i < |b| ==> SlugChar(b[i])
    ensures Collapse(w + b) == "-" + b
  {
    var t := w + b;
    assert t[0] == w[0] && t[1..] == w[1..] + b;
    SkipRunOver(w[1..], b);
    CollapseWellFormed(b);
  }

  /** Helper: a run of other characters is skipped up to the next slug character. */
  lemma {:induction false} SkipRunOver(w: string, b: string)
    requires forall i :: 0 <= i < |w| ==> !SlugChar(w[i])
    requires |b| > 0 ==> SlugChar(b[0])
    ensures SkipRun(w + b) == b
    decreases |w|
  {
    if |w| > 0 {
      SkipRunOver(w[1..], b);
      assert (w + b)[1..] == w[1..] + b;
    } else {
      assert w + b == b;
    }
  }

  /** `.replace(/(^-|-$)/g, '')`: one dash at the start and one at the end are removed. */
  function StripDashes(s: string): (r: string)
    requires forall i :: 0 <= i < |s| - 1 ==> !(s[i] == '-' && s[i + 1] == '-')
    ensures forall i :: 0 <= i < |r| - 1 ==> !(r[i] == '-' && r[i + 1] == '-')
    ensures |r| > 0 ==> r[0] != '-' && r[|r| - 1] != '-'
    ensures Kept(r) == Kept(s)
    ensures (forall i :: 0 <= i < |s| ==> SlugChar(s[i]) || s[i] == '-') ==>
              forall i :: 0 <= i < |r| ==> SlugChar(r[i]) || r[i] == '-'
  {
    var t := if |s| > 0 && s[0] == '-' then s[1..] else s;
    assert Kept(t) == Kept(s);
    var r := if |t| > 0 && t[|t| - 1] == '-' then t[..|t| - 1] else t;
    assert Kept(r) == Kept(t) by {
      if r != t {
        KeptOfDash(r);
        assert t == r + "-";
      }
    }
    r
  }

  /** Helper: a trailing dash adds nothing to the kept characters. */
  lemma {:induction false} KeptOfDash(s: string)
    ensures Kept(s + "-") == Kept(s)
  {
    if |s| > 0 {
      KeptOfDash(s[1..]);
      assert (s + "-")[1..] == s[1..] + "-";
    }
  }

  /** `generateSlug(name)` (and `generateSlugFromName`, which returns it): a well-formed slug
      holding exactly the lower-cased letters and digits of the name, in order. */
  function Slug(name: string): (r: string)
    ensures WellFormedSlug(r)
    ensures Kept(r) == Kept(Text.Lower(name))
  {
    StripDashes(Collapse(Text.Lower(name)))
  }

  /** Helper: a well-formed slug is left unchanged by each step of `Slug`. */
  lemma {:induction false} CollapseWellFormed(s: string)
    requires forall i :: 0 <= i < |s| ==> SlugChar(s[i]) || s[i] == '-'
    requires forall i :: 0 <= i < |s| - 1 ==> !(s[i] == '-' && s[i + 1] == '-')
    ensures Collapse(s) == s
  {
    if |s| > 0 {
      CollapseWellFormed(s[1..]);
      if !SlugChar(s[0]) {
        assert SkipRun(s[1..]) == s[1..];
      }
      assert s == [s[0]] + s[1..];
    }
  }

  /** Slugging a slug changes nothing, so `generateSlug` is idempotent. */
  lemma SlugIdempotent(name: string)
    ensures Slug(Slug(name)) == Slug(name)
  {
    SlugFixed(Slug(name));
  }

  /** Helper: a well-formed slug is its own slug. */
  lemma SlugFixed(s: string)
    requires WellFormedSlug(s)
    ensures Slug(s) == s
  {
    assert Text.Lower(s) == s;
    CollapseWellFormed(s);
  }

  // ---------------------------------------------------------------------------
  // Cards

  /** The fields of a fetched item the homepage reads. Optional references are `None` when
      absent; a present one carries its name. */
  datatype HomepageItem = HomepageItem(
    id: string,
    name: string,
    slug: Option<string>,
    category: Option<string>,
    designer: Option<string>,
    yearStart: Option<int>,
    imageAssetId: Option<string>)

  /** A homepage card. */
  datatype Card = Card(title: string, subtitle: string, image: string, imageAlt: string, href: string)

  /** A truthy optional string. */
  predicate Has(s: Option<string>) {
    s.Some? && s.value != ""
  }

  /** A truthy optional number. */
  predicate HasYear(y: Option<int>) {
    y.Some? && y.value != 0
  }

  /** `formatSubtitle`: the category name and the start year, whichever are present, joined
      by `" · "`. */
  function Subtitle(item: HomepageItem): (r: string)
    ensures Has(item.category) && HasYear(item.yearStart) ==>
              r == item.category.value + " · " + Text.IntToString(item.yearStart.value)
    ensures Has(item.category) && !HasYear(item.yearStart) ==> r == item.category.value
    ensures !Has(item.category) && HasYear(item.yearStart) ==> r == Text.IntToString(item.yearStart.value)
    ensures !Has(item.category) && !HasYear(item.yearStart) ==> r == ""
  {
    var parts := (if Has(item.category) then [item.category.value] else [])
                 + (if HasYear(item.yearStart) then [Text.IntToString(item.yearStart.value)] else []);
    JoinTwo(parts, " · ");
    Text.Join(parts, " · ")
  }

  /** Helper: joining a list of one, two or three strings. */
  lemma JoinTwo(parts: seq<string>, sep: string)
    ensures |parts| == 1 ==> Text.Join(parts, sep) == parts[0]
    ensures |parts| == 2 ==> Text.Join(parts, sep) == parts[0] + sep + parts[1]
    ensures |parts| == 3 ==> Text.Join(parts, sep) == parts[0] + sep + parts[1] + sep + parts[2]
  {
    if |parts| == 2 {
      assert Text.Join(parts[1..], sep) == parts[1];
    } else if |parts| == 3 {
      assert Text.Join(parts[2..], sep) == parts[2];
      assert parts[1..][1..] == parts[2..];
      assert Text.Join(parts[1..], sep) == parts[1] + sep + parts[2];
    }
  }

  /** `generateImageAlt`: the name, then `by <designer>` and `- <category>` when present,
      separated by spaces. */
  function ImageAlt(item: HomepageItem): (r: string)
    ensures Text.StartsWith(r, item.name)
    ensures Has(item.designer) && Has(item.category) ==>
              r == item.name + " by " + item.designer.value + " - " + item.category.value
    ensures Has(item.designer) && !Has(item.category) ==> r == item.name + " by " + item.designer.value
    ensures !Has(item.designer) && Has(item.category) ==> r == item.name + " - " + item.category.value
    ensures !Has(item.designer) && !Has(item.category) ==> r == item.name
  {
    var parts := [item.name]
                 + (if Has(item.designer) then ["by " + item.designer.value] else [])
                 + (if Has(item.category) then ["- " + item.category.value] else []);
    JoinTwo(parts, " ");
    var r := Text.Join(parts, " ");
    assert r[..|item.name|] == item.name;
    r
  }

  /** What the image URL builder makes of an asset id (800 by 800, cropped). */
  type UrlBuilder = string -> string

  /** `buildImageUrl`: the empty string without an asset id, else the builder's URL. */
  function ImageUrl(assetId: Option<string>, build: UrlBuilder): (r: string)
    ensures !Has(assetId) ==> r == ""
    ensures Has(assetId) ==> r == build(assetId.value)
  {
    if Has(assetId) then build(assetId.value) else ""
  }

  /** The card of one named item. */
  function ToCard(item: HomepageItem, build: UrlBuilder): (r: Card)
    ensures r.title == item.name
    ensures r.href == "/items/" + (if Has(item.slug) then item.slug.value else Slug(item.name))
    ensures r.image == ImageUrl(item.imageAssetId, build)
  {
    var slug := if Has(item.slug) then item.slug.value else Slug(item.name);
    Card(item.name, Subtitle(item), ImageUrl(item.imageAssetId, build), ImageAlt(item), "/items/" + slug)
  }

  /** An item the homepage shows: it has a name and its card has an image. */
  predicate Shown(item: HomepageItem, build: UrlBuilder) {
    item.name != "" && ImageUrl(item.imageAssetId, build) != ""
  }

  /** The card of an item the homepage shows, `None` for one it drops. */
  function CardIfShown(item: HomepageItem, build: UrlBuilder): Option<Card> {
    if Shown(item, build) then Some(ToCard(item, build)) else None
  }

  /** `ToCard` for one builder, as a function of the item. */
  function Carding(build: UrlBuilder): HomepageItem -> Card {
    item => ToCard(item, build)
  }

  /** `Shown` for one builder, as a predicate on items. */
  function Showable(build: UrlBuilder): HomepageItem -> bool {
    item => Shown(item, build)
  }

  /** `CardIfShown` for one builder, as a function of the item. */
  function Showing(build: UrlBuilder): HomepageItem -> Option<Card> {
    item => CardIfShown(item, build)
  }

  /** The transformation in `getHomepageItems`: nameless items dropped, the rest made into
      cards, cards without an image dropped. The cards are exactly those of the shown items. */
  function HomepageCards(items: seq<HomepageItem>, build: UrlBuilder): (r: seq<Card>)
    ensures |r| <= |items|
    ensures forall k :: 0 <= k < |r| ==> r[k].title != "" && r[k].image != ""
    ensures forall k :: 0 <= k < |r| ==> exists i :: 0 <= i < |items| && Shown(items[i], build) && r[k] == ToCard(items[i], build)
    ensures forall i :: 0 <= i < |items| && Shown(items[i], build) ==> ToCard(items[i], build) in r
  {
    var r := Seqs.FilterMap(Showing(build), items);
    ShownCards(items, build, r);
    r
  }

  /** Helper: the cards of the shown items, read off the filtered list. */
  lemma ShownCards(items: seq<HomepageItem>, build: UrlBuilder, r: seq<Card>)
    requires r == Seqs.FilterMap(Showing(build), items)
    ensures forall k :: 0 <= k < |r| ==> r[k].title != "" && r[k].image != ""
    ensures forall k :: 0 <= k < |r| ==> exists i :: 0 <= i < |items| && Shown(items[i], build) && r[k] == ToCard(items[i], build)
    ensures forall i :: 0 <= i < |items| && Shown(items[i], build) ==> ToCard(items[i], build) in r
  {
    var f := Showing(build);
    Seqs.FilterMapMembers(f, items);
    forall k | 0 <= k < |r|
      ensures exists i :: 0 <= i < |items| && Shown(items[i], build) && r[k] == ToCard(items[i], build)
    {
      var j :| 0 <= j < |items| && f(items[j]) == Some(r[k]);
      assert CardIfShown(items[j], build) == Some(r[k]);
    }
    forall i | 0 <= i < |items| && Shown(items[i], build) ensures ToCard(items[i], build) in r {
      assert f(items[i]) == Some(ToCard(items[i], build));
    }
  }

  /** The cards are exactly the cards of the shown items, in their order and as often as
      they occur. */
  lemma HomepageCardsOfShown(items: seq<HomepageItem>, build: UrlBuilder)
    ensures HomepageCards(items, build) == Seqs.Map(Carding(build), Seqs.Filter(Showable(build), items))
  {
    Seqs.FilterMapIsMapOfFilter(Showing(build), Carding(build), Showable(build), items);
  }

  /** The cards keep the order of the fetched items: they are a subsequence of the cards of
      all items. */
  lemma HomepageKeepsOrder(items: seq<HomepageItem>, build: UrlBuilder)
    ensures Seqs.IsSubsequence(HomepageCards(items, build), Seqs.Map(Carding(build), items))
  {
    Seqs.FilterMapIsSubsequence(Showing(build), Carding(build), items);
    assert HomepageCards(items, build) == Seqs.FilterMap(Showing(build), items);
  }

  /** A card made without a stored slug links to a well-formed slug of the item's name. */
  lemma FallbackHrefIsSlug(item: HomepageItem, build: UrlBuilder)
    requires !Has(item.slug)
    ensures var c := ToCard(item, build);
            Text.StartsWith(c.href, "/items/") && WellFormedSlug(c.href[|"/items/"|..])
  {
    var c := ToCard(item, build);
    assert c.href[|"/items/"|..] == Slug(item.name);
  }
}

=== FILE: seqs.dfy ===
/** Generic sequence operations: JavaScript's `Array.prototype.filter`, `flat()` and the
    order-preserving subsequence relation used to state what a filter keeps. */
module Seqs {
  import opened Wrappers

  /** `a` is obtained from `b` by deleting elements, without reordering the rest. */
  predicate IsSubsequence<T(==)>(a: seq<T>, b: seq<T>)
    decreases |b|
  {
    if |a| == 0 then true
    else if |b| == 0 then false
    else if a[0] == b[0] then IsSubsequence(a[1..], b[1..])
    else IsSubsequence(a, b[1..])
  }

  /** `xs.filter(p)`: the elements satisfying `p`, in their original order. */
  function Filter<T>(p: T -> bool, xs: seq<T>): (r: seq<T>)
    ensures |r| <= |xs|
    ensures forall i :: 0 <= i < |r| ==> r[i] in xs && p(r[i])
    ensures forall i :: 0 <= i < |xs| && p(xs[i]) ==> xs[i] in r
  {
    if |xs| == 0 then []
    else if p(xs[0]) then [xs[0]] + Filter(p, xs[1..])
    else Filter(p, xs[1..])
  }

  /** A filter never reorders: its result is a subsequence of its input. */
  lemma {:induction false} FilterIsSubsequence<T>(p: T -> bool, xs: seq<T>)
    ensures IsSubsequence(Filter(p, xs), xs)
  {
    if |xs| > 0 {
      FilterIsSubsequence(p, xs[1..]);
      var r := Filter(p, xs);
      if p(xs[0]) {
        assert r[0] == xs[0] && r[1..] == Filter(p, xs[1..]);
      } else {
        // every kept element satisfies p, so none of them can be matched against xs[0]
        assert |r| > 0 ==> r[0] in xs && p(r[0]);
      }
    }
  }

  /** A filter keeps every occurrence of each element it accepts and no occurrence of the
      others: with `FilterIsSubsequence`, this fixes the result completely. */
  lemma {:induction false} FilterMultiset<T>(p: T -> bool, xs: seq<T>)
    ensures forall x :: multiset(Filter(p, xs))[x] == if p(x) then multiset(xs)[x] else 0
  {
    if |xs| > 0 {
      FilterMultiset(p, xs[1..]);
      assert xs == [xs[0]] + xs[1..];
    }
  }

  /** `xs.map(f).filter(Boolean)` for a partial `f`: the defined results, in order. */
  function FilterMap<A, B>(f: A -> Option<B>, xs: seq<A>): (r: seq<B>)
    ensures |r| <= |xs|
  {
    if |xs| == 0 then []
    else
      var rest := FilterMap(f, xs[1..]);
      match f(xs[0])
      case Some(y) => [y] + rest
      case None => rest
  }

  /** Helper: when the first element gives nothing and the second gives a value, that value
      comes first. */
  lemma FilterMapSkipThenHit<A, B>(f: A -> Option<B>, xs: seq<A>)
    requires |xs| >= 2 && f(xs[0]).None? && f(xs[1]).Some?
    ensures |FilterMap(f, xs)| > 0 && FilterMap(f, xs)[0] == f(xs[1]).value
  {
    assert xs[1..][0] == xs[1];
  }

  /** Every result comes from some element, and every defined element's result is kept. */
  lemma {:induction false} FilterMapMembers<A, B>(f: A -> Option<B>, xs: seq<A>)
    ensures forall k :: 0 <= k < |FilterMap(f, xs)| ==> exists j :: 0 <= j < |xs| && f(xs[j]) == Some(FilterMap(f, xs)[k])
    ensures forall j :: 0 <= j < |xs| && f(xs[j]).Some? ==> f(xs[j]).value in FilterMap(f, xs)
  {
    if |xs| > 0 {
      FilterMapMembers(f, xs[1..]);
      var r := FilterMap(f, xs);
      var rest := FilterMap(f, xs[1..]);
      assert forall j :: 1 <= j < |xs| ==> xs[j] == xs[1..][j - 1];
      forall k | 0 <= k < |r| ensures exists j :: 0 <= j < |xs| && f(xs[j]) == Some(r[k]) {
        if f(xs[0]).Some? {
          if k == 0 {
            assert f(xs[0]) == Some(r[0]);
          } else {
            assert r[k] == rest[k - 1];
            var i :| 0 <= i < |xs[1..]| && f(xs[1..][i]) == Some(rest[k - 1]);
            assert xs[i + 1] == xs[1..][i];
            assert f(xs[i + 1]) == Some(r[k]);
          }
        } else {
          assert r[k] == rest[k];
          var i :| 0 <= i < |xs[1..]| && f(xs[1..][i]) == Some(rest[k]);
          assert xs[i + 1] == xs[1..][i];
          assert f(xs[i + 1]) == Some(r[k]);
        }
      }
    } else {
      assert FilterMap(f, xs) == [];
    }
  }

  /** Mapping and filtering distributes over concatenation. */
  lemma {:induction false} FilterMapAppend<A, B>(f: A -> Option<B>, xs: seq<A>, ys: seq<A>)
    ensures FilterMap(f, xs + ys) == FilterMap(f, xs) + FilterMap(f, ys)
  {
    if |xs| == 0 {
      assert xs + ys == ys;
    } else {
      var zs := xs + ys;
      assert zs[0] == xs[0];
      assert zs[1..] == xs[1..] + ys;
      FilterMapAppend(f, xs[1..], ys);
      var rest := FilterMap(f, xs[1..]);
      assert FilterMap(f, zs) == (if f(xs[0]).Some? then [f(xs[0]).value] else []) + FilterMap(f, zs[1..]);
      assert FilterMap(f, xs) == (if f(xs[0]).Some? then [f(xs[0]).value] else []) + rest;
    }
  }

  /** When `f` is defined everywhere on `xs`, nothing is dropped. */
  lemma {:induction false} FilterMapAllDefined<A, B>(f: A -> Option<B>, xs: seq<A>, ys: seq<B>)
    requires |xs| == |ys| && forall k :: 0 <= k < |xs| ==> f(xs[k]) == Some(ys[k])
    ensures FilterMap(f, xs) == ys
  {
    if |xs| > 0 {
      FilterMapAllDefined(f, xs[1..], ys[1..]);
      assert ys == [ys[0]] + ys[1..];
    }
  }

  /** Elements `f` drops at either end leave the result of the middle. */
  lemma FilterMapFramed<A, B>(f: A -> Option<B>, a: A, middle: seq<A>, b: A)
    requires f(a).None? && f(b).None?
    ensures FilterMap(f, [a] + middle + [b]) == FilterMap(f, middle)
  {
    FilterMapAppend(f, [a] + middle, [b]);
    FilterMapAppend(f, [a], middle);
    assert FilterMap(f, [b]) == [] by {
      assert [b][1..] == [];
    }
    assert FilterMap(f, [a]) == [] by {
      assert [a][1..] == [];
    }
  }

  /** What mapping and filtering a suffix keeps, in terms of the indices of the whole. */
  lemma FilterMapSuffix<A, B>(f: A -> Option<B>, xs: seq<A>, n: nat)
    requires n <= |xs|
    ensures forall k :: 0 <= k < |FilterMap(f, xs[n..])| ==>
              exists j :: n <= j < |xs| && f(xs[j]) == Some(FilterMap(f, xs[n..])[k])
    ensures forall j :: n <= j < |xs| && f(xs[j]).Some? ==> f(xs[j]).value in FilterMap(f, xs[n..])
  {
    var tail := xs[n..];
    var r := FilterMap(f, tail);
    FilterMapMembers(f, tail);
    forall k | 0 <= k < |r| ensures exists j :: n <= j < |xs| && f(xs[j]) == Some(r[k]) {
      var i :| 0 <= i < |tail| && f(tail[i]) == Some(r[k]);
      assert xs[n + i] == tail[i];
    }
    forall j | n <= j < |xs| && f(xs[j]).Some? ensures f(xs[j]).value in r {
      assert tail[j - n] == xs[j];
    }
  }

  /** `idx` lists, in increasing order, the positions from `n` on whose elements `f` gives a
      value: the `k`-th of them gives `r[k]`, and no such position is missing. */
  ghost predicate Picks<A, B>(f: A -> Option<B>, xs: seq<A>, n: nat, r: seq<B>, idx: seq<nat>) {
    PickedValues(f, xs, n, r, idx) && Increasing(idx) && PickedAll(f, xs, n, idx)
  }

  /** The `k`-th position, from `n` on, gives `r[k]`. */
  ghost predicate PickedValues<A, B>(f: A -> Option<B>, xs: seq<A>, n: nat, r: seq<B>, idx: seq<nat>) {
    |idx| == |r| && forall k :: 0 <= k < |idx| ==> n <= idx[k] < |xs| && f(xs[idx[k]]) == Some(r[k])
  }

  /** Strictly increasing. */
  predicate Increasing(idx: seq<nat>) {
    forall k, l :: 0 <= k < l < |idx| ==> idx[k] < idx[l]
  }

  /** Every position from `n` on whose element `f` defines is listed. */
  predicate PickedAll<A, B>(f: A -> Option<B>, xs: seq<A>, n: nat, idx: seq<nat>) {
    forall j :: n <= j < |xs| && f(xs[j]).Some? ==> j in idx
  }

  /** Mapping and filtering a suffix keeps one value per defined element, in order. */
  lemma {:induction false} FilterMapPicks<A, B>(f: A -> Option<B>, xs: seq<A>, n: nat)
    requires n <= |xs|
    ensures exists idx :: Picks(f, xs, n, FilterMap(f, xs[n..]), idx)
    decreases |xs| - n
  {
    if n == |xs| {
      assert Picks(f, xs, n, FilterMap(f, xs[n..]), []);
    } else {
      FilterMapPicks(f, xs, n + 1);
      var rest := FilterMap(f, xs[n + 1..]);
      var idx :| Picks(f, xs, n + 1, rest, idx);
      assert xs[n..][0] == xs[n] && xs[n..][1..] == xs[n + 1..];
      match f(xs[n])
      case Some(y) =>
        assert FilterMap(f, xs[n..]) == [y] + rest;
        PicksKeep(f, xs, n, y, rest, idx);
        assert Picks(f, xs, n, FilterMap(f, xs[n..]), [n] + idx);
      case None =>
        assert FilterMap(f, xs[n..]) == rest;
        PicksSkip(f, xs, n, rest, idx);
        assert Picks(f, xs, n, FilterMap(f, xs[n..]), idx);
    }
  }

  /** Helper: a defined element in front adds its position and its value. */
  lemma PicksKeep<A, B>(f: A -> Option<B>, xs: seq<A>, n: nat, y: B, rest: seq<B>, idx: seq<nat>)
    requires n < |xs| && f(xs[n]) == Some(y) && Picks(f, xs, n + 1, rest, idx)
    ensures Picks(f, xs, n, [y] + rest, [n] + idx)
  {
    PickedValuesKeep(f, xs, n, y, rest, idx);
    IncreasingKeep(n, idx);
    PickedAllKeep(f, xs, n, idx);
  }

  /** Helper: the values part of `PicksKeep`. */
  lemma PickedValuesKeep<A, B>(f: A -> Option<B>, xs: seq<A>, n: nat, y: B, rest: seq<B>, idx: seq<nat>)
    requires n < |xs| && f(xs[n]) == Some(y) && PickedValues(f, xs, n + 1, rest, idx)
    ensures PickedValues(f, xs, n, [y] + rest, [n] + idx)
  {
    var r, ids := [y] + rest, [n] + idx;
    forall k | 0 <= k < |ids| ensures n <= ids[k] < |xs| && f(xs[ids[k]]) == Some(r[k]) {
      if k > 0 {
        assert ids[k] == idx[k - 1] && r[k] == rest[k - 1];
      }
    }
  }

  /** Helper: a position below all listed ones keeps the list increasing. */
  lemma IncreasingKeep(n: nat, idx: seq<nat>)
    requires Increasing(idx) && forall k :: 0 <= k < |idx| ==> n < idx[k]
    ensures Increasing([n] + idx)
  {
    var ids := [n] + idx;
    forall k, l | 0 <= k < l < |ids| ensures ids[k] < ids[l] {
      assert ids[l] == idx[l - 1];
      if k > 0 {
        assert ids[k] == idx[k - 1];
      }
    }
  }

  /** Helper: listing position `n` in front covers the positions from `n` on. */
  lemma PickedAllKeep<A, B>(f: A -> Option<B>, xs: seq<A>, n: nat, idx: seq<nat>)
    requires PickedAll(f, xs, n + 1, idx)
    ensures PickedAll(f, xs, n, [n] + idx)
  {
    forall j | n <= j < |xs| && f(xs[j]).Some? ensures j in [n] + idx {
      if j > n {
        assert j in idx;
      }
    }
  }

  /** Helper: an undefined element in front adds nothing. */
  lemma PicksSkip<A, B>(f: A -> Option<B>, xs: seq<A>, n: nat, r: seq<B>, idx: seq<nat>)
    requires n < |xs| && f(xs[n]).None? && Picks(f, xs, n + 1, r, idx)
    ensures Picks(f, xs, n, r, idx)
  {
  }

  /** `xs.map(g)`. */
  function Map<A, B>(g: A -> B, xs: seq<A>): (r: seq<B>)
    ensures |r| == |xs| && forall i :: 0 <= i < |xs| ==> r[i] == g(xs[i])
  {
    seq(|xs|, i requires 0 <= i < |xs| => g(xs[i]))
  }

  /** Filtering through `f` keeps the order of the mapped list, when every value `f` gives is
      the one `g` gives. */
  lemma {:induction false} FilterMapIsSubsequence<A, B>(f: A -> Option<B>, g: A -> B, xs: seq<A>)
    requires forall x :: f(x).Some? ==> f(x).value == g(x)
    ensures IsSubsequence(FilterMap(f, xs), Map(g, xs))
  {
    if |xs| > 0 {
      FilterMapIsSubsequence(f, g, xs[1..]);
      var m := Map(g, xs);
      assert m[1..] == Map(g, xs[1..]);
      var r := FilterMap(f, xs);
      if f(xs[0]).Some? {
        assert r[1..] == FilterMap(f, xs[1..]);
      } else {
        SubsequenceOfTail(r, m);
      }
    }
  }

  /** When `f` gives `g`'s value exactly on the elements satisfying `p`, filtering through `f`
      is mapping `g` over the elements `p` keeps: same values, same order, same counts. */
  lemma {:induction false} FilterMapIsMapOfFilter<A, B>(f: A -> Option<B>, g: A -> B, p: A -> bool, xs: seq<A>)
    requires forall x :: f(x) == if p(x) then Some(g(x)) else None
    ensures FilterMap(f, xs) == Map(g, Filter(p, xs))
  {
    if |xs| > 0 {
      FilterMapIsMapOfFilter(f, g, p, xs[1..]);
      if p(xs[0]) {
        MapCons(g, xs[0], Filter(p, xs[1..]));
      }
    }
  }

  /** Helper: mapping over a list with one more element in front. */
  lemma MapCons<A, B>(g: A -> B, x: A, xs: seq<A>)
    ensures Map(g, [x] + xs) == [g(x)] + Map(g, xs)
  {
  }

  /** `xs.flatMap(f)`: the lists `f` gives for each element, concatenated in order. */
  function FlatMap<A, B(!new)>(f: A -> seq<B>, xs: seq<A>): (r: seq<B>)
    ensures forall y :: y in r <==> exists i :: 0 <= i < |xs| && y in f(xs[i])
  {
    if |xs| == 0 then []
    else
      assert forall i :: 1 <= i < |xs| ==> xs[i] == xs[1..][i - 1];
      f(xs[0]) + FlatMap(f, xs[1..])
  }

  /** `xss.flat()`: the concatenation of the inner sequences, in order. */
  function Flatten<T>(xss: seq<seq<T>>): seq<T>
  {
    if |xss| == 0 then [] else xss[0] + Flatten(xss[1..])
  }

  /** Flattening distributes over concatenation of the outer sequence. */
  lemma {:induction false} FlattenAppend<T>(xss: seq<seq<T>>, yss: seq<seq<T>>)
    ensures Flatten(xss + yss) == Flatten(xss) + Flatten(yss)
  {
    if |xss| == 0 {
      assert xss + yss == yss;
    } else {
      assert (xss + yss)[1..] == xss[1..] + yss;
      FlattenAppend(xss[1..], yss);
    }
  }

  /** A subsequence of a list's tail is a subsequence of the list. */
  lemma {:induction false} SubsequenceOfTail<T>(a: seq<T>, b: seq<T>)
    requires |b| > 0 && IsSubsequence(a, b[1..])
    ensures IsSubsequence(a, b)
    decreases |b|, 0
  {
    if |a| > 0 && a[0] == b[0] {
      SubsequenceDropHead(a, b[1..]);
    }
  }

  /** Dropping the first element of a subsequence leaves a subsequence. */
  lemma {:induction false} SubsequenceDropHead<T>(a: seq<T>, c: seq<T>)
    requires |a| > 0 && IsSubsequence(a, c)
    ensures IsSubsequence(a[1..], c)
    decreases |c|, 1
  {
    assert |c| > 0;
    if a[0] == c[0] {
      SubsequenceOfTail(a[1..], c);
    } else {
      SubsequenceDropHead(a, c[1..]);
      SubsequenceOfTail(a[1..], c);
    }
  }
}

=== FILE: shelf_canvas.dfy ===
/** The interaction state machine of the "My 606" canvas (src/components/ui/ShelfCanvas.tsx):
    the shelf list, the item being dragged, and the handlers for mouse down / move / up,
    drop from the picker and double-click removal, plus the mount-time load and the save
    effect. Cursor coordinates are already relative to the canvas; the canvas size is a
    parameter of every handler that needs it. */
module ShelfCanvas {
  import opened Wrappers
  import opened Json
  import opened ShelfStorage
  import opened ShelfGeometry
  import Seqs

  datatype Point = Point(x: real, y: real)

  /** Component state: the shelf, the selected (dragged) item as it was when grabbed, the
      grab offset inside its box, and whether a drag is in progress. */
  datatype Canvas = Canvas(shelf: ShelfState, dragged: Option<ShelfItem>, offset: Point, isDragging: bool)

  /** The state before mounting: an empty shelf with no version. */
  const Initial: Canvas := Canvas(ShelfState([], None), None, Point(0.0, 0.0), false)

  /** No two placed entries share an item id. */
  predicate UniqueIds(items: seq<ShelfItem>) {
    forall i, j :: 0 <= i < j < |items| ==> items[i].itemId != items[j].itemId
  }

  /** The entry moved to a resolved slot position; its id and rotation are kept. */
  function Place(p: ShelfItem, hit: ShelfHit): (r: ShelfItem)
    ensures r.itemId == p.itemId && r.rotation == p.rotation
    ensures AtHit(r, hit)
  {
    p.(column := hit.column, shelfIndex := hit.shelfIndex as int, x := hit.relativeX, y := hit.relativeY)
  }

  /** The entry sits at the slot position a hit resolved to. */
  predicate AtHit(p: ShelfItem, hit: ShelfHit) {
    p.column == hit.column && p.shelfIndex == hit.shelfIndex && p.x == hit.relativeX && p.y == hit.relativeY
  }

  // ---------------------------------------------------------------------------
  // Mount and the save effect

  /** The mount effect: a loaded state replaces the empty one; nothing loaded leaves it. The
      stored JSON is read through the typed decoder; a value it rejects counts as nothing. */
  function Mount(c: Canvas, saved: Option<Json>): (r: Canvas)
    ensures saved.Some? && Decode(saved.value).Some? ==> r == c.(shelf := Decode(saved.value).value)
    ensures saved.None? ==> r == c
    ensures saved.Some? && Decode(saved.value).None? ==> r == c
  {
    match saved
    case None => c
    case Some(j) =>
      match Decode(j)
      case None => c
      case Some(s) => c.(shelf := s)
  }

  /** The save effect that runs after every shelf change: it writes the state when it has
      items or when something is already stored, so an empty first render never overwrites
      nothing with an empty shelf. */
  function SaveEffect(st: Storage, s: ShelfState, parse: Parser, stringify: Printer): (r: Storage)
    ensures |s.items| > 0 || Load(st, parse).Some? ==> r == Save(st, s, stringify)
    ensures |s.items| == 0 && Load(st, parse).None? ==> r == st
  {
    if |s.items| > 0 || Load(st, parse).Some? then Save(st, s, stringify) else st
  }

  /** Session persistence: after the save effect has stored a non-empty shelf, mounting a
      fresh canvas on the same store restores exactly that shelf, whenever the text codec
      round-trips that shelf's JSON. */
  lemma SaveEffectThenMount(st: Storage, s: ShelfState, parse: Parser, stringify: Printer)
    requires RoundTripsOn(parse, stringify, Encode(s))
    requires st.hasWindow && st.readable && st.writable
    requires |s.items| > 0 && stringify(Encode(s)) != ""
    ensures Mount(Initial, Load(SaveEffect(st, s, parse, stringify), parse)).shelf == s
  {
    SaveThenLoad(st, s, parse, stringify);
  }

  // ---------------------------------------------------------------------------
  // handleMouseDown

  /** Selects the first placed item under the cursor, records where inside its box it was
      grabbed, and starts a drag; a press on empty canvas changes nothing. */
  function MouseDown(c: Canvas, catalogue: seq<CatalogueItem>, px: real, py: real,
                     canvasWidth: real, canvasHeight: real): (r: Canvas)
    ensures r.shelf == c.shelf
    ensures HitIndex(c.shelf.items, catalogue, px, py, canvasWidth, canvasHeight).None? ==> r == c
    ensures HitIndex(c.shelf.items, catalogue, px, py, canvasWidth, canvasHeight).Some? ==>
              var k := HitIndex(c.shelf.items, catalogue, px, py, canvasWidth, canvasHeight).value;
              var box := BoxFor(c.shelf.items[k], catalogue, canvasWidth, canvasHeight).value;
              && r.isDragging && r.dragged == Some(c.shelf.items[k])
              && 0.0 <= r.offset.x <= box.width && 0.0 <= r.offset.y <= box.height
  {
    match HitIndex(c.shelf.items, catalogue, px, py, canvasWidth, canvasHeight)
    case None => c
    case Some(k) =>
      var p := c.shelf.items[k];
      var box := BoxFor(p, catalogue, canvasWidth, canvasHeight).value;
      Canvas(c.shelf, Some(p), Point(px - box.left, py - box.top), true)
  }

  // ---------------------------------------------------------------------------
  // handleMouseMove

  /** Every entry carrying the id is moved to the hit; the others are left alone. */
  function MoveAll(items: seq<ShelfItem>, id: string, hit: ShelfHit): (r: seq<ShelfItem>)
    ensures |r| == |items|
    ensures forall i :: 0 <= i < |items| ==> r[i].itemId == items[i].itemId
    ensures forall i :: 0 <= i < |items| && items[i].itemId == id ==> r[i] == Place(items[i], hit)
    ensures forall i :: 0 <= i < |items| && items[i].itemId != id ==> r[i] == items[i]
  {
    seq(|items|, i requires 0 <= i < |items| => if items[i].itemId == id then Place(items[i], hit) else items[i])
  }

  /** While dragging, moves the dragged item to the slot under the cursor; outside any slot,
      or when no drag is in progress, nothing changes. */
  function MouseMove(c: Canvas, px: real, py: real, canvasWidth: real, canvasHeight: real): (r: Canvas)
    requires canvasWidth > 0.0 && canvasHeight > 0.0
    ensures r.dragged == c.dragged && r.offset == c.offset && r.isDragging == c.isDragging
    ensures r.shelf.version == c.shelf.version && |r.shelf.items| == |c.shelf.items|
    ensures !c.isDragging || c.dragged.None? || ShelfFromPoint(px, py, canvasWidth, canvasHeight).None? ==> r == c
    ensures c.isDragging && c.dragged.Some? && ShelfFromPoint(px, py, canvasWidth, canvasHeight).Some? ==>
              r.shelf.items == MoveAll(c.shelf.items, c.dragged.value.itemId, ShelfFromPoint(px, py, canvasWidth, canvasHeight).value)
  {
    if !c.isDragging || c.dragged.None? then c
    else match ShelfFromPoint(px, py, canvasWidth, canvasHeight)
      case None => c
      case Some(hit) => c.(shelf := c.shelf.(items := MoveAll(c.shelf.items, c.dragged.value.itemId, hit)))
  }

  // ---------------------------------------------------------------------------
  // handleMouseUp / onMouseLeave

  /** Ends a drag and clears the selection; without a drag in progress nothing changes. */
  function MouseUp(c: Canvas): (r: Canvas)
    ensures r.shelf == c.shelf && r.offset == c.offset
    ensures c.isDragging && c.dragged.Some? ==> !r.isDragging && r.dragged.None?
    ensures !(c.isDragging && c.dragged.Some?) ==> r == c
  {
    if c.isDragging && c.dragged.Some? then c.(isDragging := false, dragged := None) else c
  }

  // ---------------------------------------------------------------------------
  // handleDrop

  /** `items.findIndex((item) => item.itemId === id)`. */
  function FindIndex(items: seq<ShelfItem>, id: string): (r: Option<nat>)
    ensures r.Some? ==> r.value < |items| && items[r.value].itemId == id
                        && forall k :: 0 <= k < r.value ==> items[k].itemId != id
    ensures r.None? ==> forall k :: 0 <= k < |items| ==> items[k].itemId != id
  {
    if |items| == 0 then None
    else if items[0].itemId == id then Some(0)
    else match FindIndex(items[1..], id)
      case None => None
      case Some(k) => Some(k + 1)
  }

  /** The list after dropping `id` on a resolved slot: the first entry with the id is moved
      in place, keeping its rotation; otherwise a new entry without rotation is appended. */
  function DropItems(items: seq<ShelfItem>, id: string, hit: ShelfHit): (r: seq<ShelfItem>)
    ensures FindIndex(items, id).Some? ==>
              var k := FindIndex(items, id).value;
              |r| == |items| && r[k] == Place(items[k], hit)
              && forall i :: 0 <= i < |items| && i != k ==> r[i] == items[i]
    ensures FindIndex(items, id).None? ==>
              r == items + [ShelfItem(id, hit.relativeX, hit.relativeY, hit.shelfIndex, hit.column, None)]
  {
    match FindIndex(items, id)
    case Some(k) => items[k := Place(items[k], hit)]
    case None => items + [ShelfItem(id, hit.relativeX, hit.relativeY, hit.shelfIndex, hit.column, None)]
  }

  /** Drops the item whose id the drag carried onto the slot under the cursor. An empty
      payload or a point outside every slot changes nothing. */
  function Drop(c: Canvas, payload: string, px: real, py: real, canvasWidth: real, canvasHeight: real): (r: Canvas)
    requires canvasWidth > 0.0 && canvasHeight > 0.0
    ensures r.dragged == c.dragged && r.offset == c.offset && r.isDragging == c.isDragging
    ensures r.shelf.version == c.shelf.version
    ensures payload == "" || ShelfFromPoint(px, py, canvasWidth, canvasHeight).None? ==> r == c
    ensures payload != "" && ShelfFromPoint(px, py, canvasWidth, canvasHeight).Some? ==>
              r.shelf.items == DropItems(c.shelf.items, payload, ShelfFromPoint(px, py, canvasWidth, canvasHeight).value)
  {
    if payload == "" then c
    else match ShelfFromPoint(px, py, canvasWidth, canvasHeight)
      case None => c
      case Some(hit) => c.(shelf := c.shelf.(items := DropItems(c.shelf.items, payload, hit)))
  }

  // ---------------------------------------------------------------------------
  // handleDoubleClick

  /** Removes every entry carrying the id of the first placed item under the cursor; a
      double-click on empty canvas changes nothing. */
  function DoubleClick(c: Canvas, catalogue: seq<CatalogueItem>, px: real, py: real,
                       canvasWidth: real, canvasHeight: real): (r: Canvas)
    ensures r.dragged == c.dragged && r.offset == c.offset && r.isDragging == c.isDragging
    ensures r.shelf.version == c.shelf.version
    ensures HitIndex(c.shelf.items, catalogue, px, py, canvasWidth, canvasHeight).None? ==> r == c
    ensures HitIndex(c.shelf.items, catalogue, px, py, canvasWidth, canvasHeight).Some? ==>
              var id := c.shelf.items[HitIndex(c.shelf.items, catalogue, px, py, canvasWidth, canvasHeight).value].itemId;
              r.shelf.items == RemoveId(c.shelf.items, id)
  {
    match HitIndex(c.shelf.items, catalogue, px, py, canvasWidth, canvasHeight)
    case None => c
    case Some(k) => c.(shelf := c.shelf.(items := RemoveId(c.shelf.items, c.shelf.items[k].itemId)))
  }

  /** `items.filter((i) => i.itemId !== id)`. */
  function RemoveId(items: seq<ShelfItem>, id: string): (r: seq<ShelfItem>)
    ensures forall i :: 0 <= i < |r| ==> r[i].itemId != id && r[i] in items
    ensures forall i :: 0 <= i < |items| && items[i].itemId != id ==> items[i] in r
    ensures Seqs.IsSubsequence(r, items)
    ensures forall q :: multiset(r)[q] == if q.itemId != id then multiset(items)[q] else 0
  {
    var keep := (p: ShelfItem) => p.itemId != id;
    Seqs.FilterIsSubsequence(keep, items);
    Seqs.FilterMultiset(keep, items);
    Seqs.Filter(keep, items)
  }

  // ---------------------------------------------------------------------------
  // Properties of the handlers

  /** Helper: a subsequence of a list with distinct ids has distinct ids. */
  lemma {:induction false} SubsequenceKeepsUniqueIds(a: seq<ShelfItem>, b: seq<ShelfItem>)
    requires Seqs.IsSubsequence(a, b) && UniqueIds(b)
    ensures UniqueIds(a)
    decreases |b|
  {
    if |a| > 0 && |b| > 0 {
      assert UniqueIds(b[1..]) by {
        forall i, j | 0 <= i < j < |b[1..]| ensures b[1..][i].itemId != b[1..][j].itemId {
          assert b[1..][i] == b[i + 1] && b[1..][j] == b[j + 1];
        }
      }
      if a[0] == b[0] {
        SubsequenceKeepsUniqueIds(a[1..], b[1..]);
        SubsequenceElements(a[1..], b[1..]);
        forall j | 1 <= j < |a| ensures a[0].itemId != a[j].itemId {
          assert a[j] == a[1..][j - 1];
          var m :| 0 <= m < |b[1..]| && b[1..][m] == a[j];
          assert b[m + 1] == a[j];
        }
        forall i, j | 0 <= i < j < |a| ensures a[i].itemId != a[j].itemId {
          if i > 0 {
            assert a[i] == a[1..][i - 1] && a[j] == a[1..][j - 1];
          }
        }
      } else {
        SubsequenceKeepsUniqueIds(a, b[1..]);
      }
    }
  }

  /** Helper: every element of a subsequence is an element of the whole. */
  lemma {:induction false} SubsequenceElements<T>(a: seq<T>, b: seq<T>)
    requires Seqs.IsSubsequence(a, b)
    ensures forall i :: 0 <= i < |a| ==> exists m :: 0 <= m < |b| && b[m] == a[i]
    decreases |b|
  {
    if |a| > 0 && |b| > 0 {
      if a[0] == b[0] {
        SubsequenceElements(a[1..], b[1..]);
        forall i | 1 <= i < |a| ensures exists m :: 0 <= m < |b| && b[m] == a[i] {
          assert a[i] == a[1..][i - 1];
          var m :| 0 <= m < |b[1..]| && b[1..][m] == a[1..][i - 1];
          assert b[m + 1] == a[i];
        }
        assert b[0] == a[0];
      } else {
        SubsequenceElements(a, b[1..]);
        forall i | 0 <= i < |a| ensures exists m :: 0 <= m < |b| && b[m] == a[i] {
          var m :| 0 <= m < |b[1..]| && b[1..][m] == a[i];
          assert b[m + 1] == a[i];
        }
      }
    }
  }

  /** Dropping keeps the ids of the list distinct, and afterwards exactly one entry carries
      the dropped id, placed at the resolved slot position. */
  lemma DropKeepsIdsUnique(items: seq<ShelfItem>, id: string, hit: ShelfHit)
    requires UniqueIds(items)
    ensures UniqueIds(DropItems(items, id, hit))
    ensures exists k :: 0 <= k < |DropItems(items, id, hit)| && DropItems(items, id, hit)[k].itemId == id
                        && AtHit(DropItems(items, id, hit)[k], hit)
  {
    var r := DropItems(items, id, hit);
    match FindIndex(items, id)
    case Some(k) =>
      assert AtHit(r[k], hit);
    case None =>
      assert AtHit(r[|items|], hit);
  }

  /** Dropping the same item on the same point twice has the effect of dropping it once. */
  lemma DropIdempotent(c: Canvas, payload: string, px: real, py: real, canvasWidth: real, canvasHeight: real)
    requires canvasWidth > 0.0 && canvasHeight > 0.0
    ensures var once := Drop(c, payload, px, py, canvasWidth, canvasHeight);
            Drop(once, payload, px, py, canvasWidth, canvasHeight) == once
  {
    var once := Drop(c, payload, px, py, canvasWidth, canvasHeight);
    if payload != "" && ShelfFromPoint(px, py, canvasWidth, canvasHeight).Some? {
      var hit := ShelfFromPoint(px, py, canvasWidth, canvasHeight).value;
      var items := c.shelf.items;
      var k :=  match FindIndex(items, payload) case Some(k) => k case None => |items|;
      assert FindIndex(once.shelf.items, payload) == Some(k) by {
        assert once.shelf.items[k].itemId == payload;
        assert forall i :: 0 <= i < k ==> once.shelf.items[i] == items[i];
      }
      assert DropItems(once.shelf.items, payload, hit) == once.shelf.items;
    }
  }

  /** A drop on a slot puts the dropped item where the cursor is: the first entry with the
      dragged id is drawn with its bottom centre exactly at the drop point, whatever the
      item's size. */
  lemma DropAnchorsAtCursor(c: Canvas, payload: string, px: real, py: real, canvasWidth: real, canvasHeight: real,
                            item: CatalogueItem)
    requires canvasWidth > 0.0 && canvasHeight > 0.0
    requires payload != "" && ShelfFromPoint(px, py, canvasWidth, canvasHeight).Some?
    ensures var items := Drop(c, payload, px, py, canvasWidth, canvasHeight).shelf.items;
            FindIndex(items, payload).Some? &&
            AnchoredAt(items[FindIndex(items, payload).value], item, px, py, canvasWidth, canvasHeight)
  {
    var hit := ShelfFromPoint(px, py, canvasWidth, canvasHeight).value;
    var items := c.shelf.items;
    var after := Drop(c, payload, px, py, canvasWidth, canvasHeight).shelf.items;
    var k := match FindIndex(items, payload) case Some(k) => k case None => |items|;
    assert FindIndex(after, payload) == Some(k) by {
      assert after[k].itemId == payload;
      assert forall i :: 0 <= i < k ==> after[i] == items[i];
    }
    HitAnchorsBox(px, py, canvasWidth, canvasHeight, hit, after[k], item);
  }

  /** Dropping the same item twice at different slots leaves one entry, at the later slot:
      the last drop wins. */
  lemma LastDropWins(c: Canvas, id: string, p1: Point, p2: Point, canvasWidth: real, canvasHeight: real)
    requires canvasWidth > 0.0 && canvasHeight > 0.0
    requires UniqueIds(c.shelf.items) && id != ""
    requires ShelfFromPoint(p1.x, p1.y, canvasWidth, canvasHeight).Some?
    requires ShelfFromPoint(p2.x, p2.y, canvasWidth, canvasHeight).Some?
    ensures var r := Drop(Drop(c, id, p1.x, p1.y, canvasWidth, canvasHeight), id, p2.x, p2.y, canvasWidth, canvasHeight);
            var hit := ShelfFromPoint(p2.x, p2.y, canvasWidth, canvasHeight).value;
            && UniqueIds(r.shelf.items)
            && exists k :: 0 <= k < |r.shelf.items| && r.shelf.items[k].itemId == id && AtHit(r.shelf.items[k], hit)
  {
    var hit1 := ShelfFromPoint(p1.x, p1.y, canvasWidth, canvasHeight).value;
    var hit2 := ShelfFromPoint(p2.x, p2.y, canvasWidth, canvasHeight).value;
    var once := Drop(c, id, p1.x, p1.y, canvasWidth, canvasHeight);
    DropKeepsIdsUnique(c.shelf.items, id, hit1);
    DropKeepsIdsUnique(once.shelf.items, id, hit2);
  }

  /** A drop into the gap between the upper shelves and the drawers leaves the canvas as it
      was. */
  lemma DropInGapIsIgnored(c: Canvas, payload: string, px: real, py: real, canvasWidth: real, canvasHeight: real)
    requires canvasWidth > 0.0 && canvasHeight > 0.0
    requires 0.40 * canvasHeight < py < 0.45 * canvasHeight
    ensures Drop(c, payload, px, py, canvasWidth, canvasHeight) == c
  {
    GapResolvesToNothing(px, py, canvasWidth, canvasHeight);
  }

  /** Moving a dragged item keeps ids distinct and changes only the entries with its id. */
  lemma MoveKeepsIdsUnique(c: Canvas, px: real, py: real, canvasWidth: real, canvasHeight: real)
    requires canvasWidth > 0.0 && canvasHeight > 0.0
    requires UniqueIds(c.shelf.items)
    ensures UniqueIds(MouseMove(c, px, py, canvasWidth, canvasHeight).shelf.items)
  {
  }

  /** Removing by double-click keeps ids distinct, leaves no entry with the removed id, and
      keeps every other entry in order. */
  lemma DoubleClickRemoves(c: Canvas, catalogue: seq<CatalogueItem>, px: real, py: real,
                           canvasWidth: real, canvasHeight: real)
    requires UniqueIds(c.shelf.items)
    requires HitIndex(c.shelf.items, catalogue, px, py, canvasWidth, canvasHeight).Some?
    ensures var k := HitIndex(c.shelf.items, catalogue, px, py, canvasWidth, canvasHeight).value;
            var r := DoubleClick(c, catalogue, px, py, canvasWidth, canvasHeight).shelf.items;
            && UniqueIds(r)
            && |r| == |c.shelf.items| - 1
            && (forall i :: 0 <= i < |r| ==> r[i].itemId != c.shelf.items[k].itemId)
            && Seqs.IsSubsequence(r, c.shelf.items)
  {
    var k := HitIndex(c.shelf.items, catalogue, px, py, canvasWidth, canvasHeight).value;
    var items := c.shelf.items;
    var r := RemoveId(items, items[k].itemId);
    SubsequenceKeepsUniqueIds(r, items);
    RemoveUniqueLength(items, k);
  }

  /** Helper: with distinct ids, removing the id of entry `k` removes exactly one entry. */
  lemma {:induction false} RemoveUniqueLength(items: seq<ShelfItem>, k: nat)
    requires UniqueIds(items) && k < |items|
    ensures |RemoveId(items, items[k].itemId)| == |items| - 1
  {
    var id := items[k].itemId;
    var p := (q: ShelfItem) => q.itemId != id;
    FilterCount(p, items, k);
  }

  /** Helper: a filter dropping exactly the entry at `k` shortens the list by one. */
  lemma {:induction false} FilterCount(p: ShelfItem -> bool, items: seq<ShelfItem>, k: nat)
    requires k < |items| && !p(items[k])
    requires forall i :: 0 <= i < |items| && i != k ==> p(items[i])
    ensures |Seqs.Filter(p, items)| == |items| - 1
  {
    if k == 0 {
      AllKept(p, items[1..]);
    } else {
      FilterCount(p, items[1..], k - 1);
    }
  }

  /** Helper: a filter that keeps every entry keeps the length. */
  lemma {:induction false} AllKept(p: ShelfItem -> bool, items: seq<ShelfItem>)
    requires forall i :: 0 <= i < |items| ==> p(items[i])
    ensures |Seqs.Filter(p, items)| == |items|
  {
    if |items| > 0 {
      AllKept(p, items[1..]);
    }
  }
}

=== FILE: shelf_geometry.dfy ===
/** Geometry of the "My 606" shelf canvas (src/components/ui/ShelfCanvas.tsx): the static
    slot model of the two bays, the point-to-slot hit test, and the one item-box formula
    that drawing, selection and removal share. Canvas coordinates are CSS pixels relative
    to the canvas's top-left corner; slot coordinates are normalised to the canvas size. */
module ShelfGeometry {
  import opened Wrappers
  import opened ShelfStorage
  import Seqs

  /** A shelf or drawer: vertical start and height, both normalised to the canvas height. */
  datatype Slot = Slot(y: real, height: real)

  /** A slot's rectangle, normalised to the canvas size. */
  datatype Bounds = Bounds(x: real, y: real, width: real, height: real)

  /** Result of the point-to-slot hit test: which slot, and where in it (0-1). */
  datatype ShelfHit = ShelfHit(column: Column, shelfIndex: nat, relativeX: real, relativeY: real)

  /** An item's on-canvas rectangle in pixels. */
  datatype Box = Box(left: real, top: real, width: real, height: real)

  /** The catalogue record the canvas joins placed items with: only what the geometry reads. */
  datatype CatalogueItem = CatalogueItem(id: string, displayWidth: Option<real>, displayHeight: Option<real>)

  // ---------------------------------------------------------------------------
  // SHELF_CONFIG

  function Shelves(c: Column): seq<Slot> {
    match c
    case Narrow => [Slot(0.1, 0.15), Slot(0.25, 0.15), Slot(0.75, 0.15)]
    case Wide => [Slot(0.1, 0.15), Slot(0.25, 0.15)]
  }

  function Drawers(c: Column): seq<Slot> {
    match c
    case Narrow => [Slot(0.45, 0.12), Slot(0.57, 0.12)]
    case Wide => [Slot(0.45, 0.12), Slot(0.57, 0.12), Slot(0.69, 0.12)]
  }

  /** Left edge of a bay: the narrow bay at 0, the wide bay at 35% of the canvas. */
  function ColumnX(c: Column): real {
    match c
    case Narrow => 0.0
    case Wide => 0.35
  }

  /** Width of a bay: 35% (narrow) or 65% (wide) of the canvas. */
  function ColumnWidth(c: Column): real {
    match c
    case Narrow => 0.35
    case Wide => 0.65
  }

  const MmToPx: real := 2.0
  const DefaultDimensionMm: real := 100.0

  // ---------------------------------------------------------------------------
  // Slot order: `[...shelves, ...drawers].sort((a, b) => a.y - b.y)`.

  predicate SortedByY(xs: seq<Slot>) {
    forall i, j :: 0 <= i < j < |xs| ==> xs[i].y <= xs[j].y
  }

  /** A bay's slots in canonical index order, top to bottom: the narrow bay has two
      shelves, two drawers and a bottom shelf; the wide bay two shelves and three drawers. */
  function Slots(c: Column): seq<Slot> {
    match c
    case Narrow => [Slot(0.1, 0.15), Slot(0.25, 0.15), Slot(0.45, 0.12), Slot(0.57, 0.12), Slot(0.75, 0.15)]
    case Wide => [Slot(0.1, 0.15), Slot(0.25, 0.15), Slot(0.45, 0.12), Slot(0.57, 0.12), Slot(0.69, 0.12)]
  }

  /** The canonical index order is the configuration's shelves and drawers sorted by their
      top edge: a permutation of them in non-decreasing `y`. The tops are distinct, so this
      is the only such order and the one the stable sort produces. */
  lemma SlotsAreSortedConfig(c: Column)
    ensures SortedByY(Slots(c))
    ensures multiset(Slots(c)) == multiset(Shelves(c) + Drawers(c))
    ensures forall i, j :: 0 <= i < j < |Slots(c)| ==> Slots(c)[i].y != Slots(c)[j].y
  {
    SlotsArePermutation(c);
    SlotsDisjoint(c);
  }

  lemma SlotsArePermutation(c: Column)
    ensures multiset(Slots(c)) == multiset(Shelves(c) + Drawers(c))
  {
    if c == Narrow {
      assert Shelves(c) + Drawers(c) == [Slot(0.1, 0.15), Slot(0.25, 0.15), Slot(0.75, 0.15), Slot(0.45, 0.12), Slot(0.57, 0.12)];
    } else {
      assert Shelves(c) + Drawers(c) == Slots(c);
    }
  }

  /** Slots never overlap: each one ends at or above the start of the next. */
  lemma SlotsDisjoint(c: Column)
    ensures forall i, j :: 0 <= i < j < |Slots(c)| ==> Slots(c)[i].y + Slots(c)[i].height <= Slots(c)[j].y
    ensures forall i :: 0 <= i < |Slots(c)| ==> Slots(c)[i].height > 0.0
  {
  }

  // ---------------------------------------------------------------------------
  // getShelfBounds

  /** `getShelfBounds(column, index)`: the slot's vertical extent with its bay's horizontal
      extent, or `None` for an index outside the bay's slot list. */
  function ShelfBounds(c: Column, index: int): (r: Option<Bounds>)
    ensures r.None? <==> !(0 <= index < |Slots(c)|)
    ensures r.Some? ==> r.value.x == ColumnX(c) && r.value.width == ColumnWidth(c)
    ensures r.Some? ==> r.value.y == Slots(c)[index].y && r.value.height == Slots(c)[index].height
  {
    if 0 <= index < |Slots(c)| then
      var s := Slots(c)[index];
      Some(Bounds(ColumnX(c), s.y, ColumnWidth(c), s.height))
    else None
  }

  // ---------------------------------------------------------------------------
  // getShelfFromPoint

  /** The slot's pixel interval `[y, y + height] * canvasHeight` contains `py`, ends included. */
  predicate SlotContains(s: Slot, py: real, canvasHeight: real) {
    s.y * canvasHeight <= py <= s.y * canvasHeight + s.height * canvasHeight
  }

  /** The loop of `getShelfFromPoint`: the first slot from index `i` on containing `py`. */
  function FirstSlotFrom(slots: seq<Slot>, py: real, canvasHeight: real, i: nat): (r: Option<nat>)
    requires i <= |slots|
    ensures r.Some? ==> i <= r.value < |slots| && SlotContains(slots[r.value], py, canvasHeight)
    ensures r.Some? ==> forall k :: i <= k < r.value ==> !SlotContains(slots[k], py, canvasHeight)
    ensures r.None? ==> forall k :: i <= k < |slots| ==> !SlotContains(slots[k], py, canvasHeight)
    decreases |slots| - i
  {
    if i == |slots| then None
    else if SlotContains(slots[i], py, canvasHeight) then Some(i)
    else FirstSlotFrom(slots, py, canvasHeight, i + 1)
  }

  /** The bay a horizontal position falls in: narrow strictly left of 35% of the width. */
  function ColumnAt(px: real, canvasWidth: real): Column {
    if px < canvasWidth * ColumnWidth(Narrow) then Narrow else Wide
  }

  /** `getShelfFromPoint(x, y, canvasWidth, canvasHeight)`. */
  function ShelfFromPoint(px: real, py: real, canvasWidth: real, canvasHeight: real): (r: Option<ShelfHit>)
    requires canvasWidth > 0.0 && canvasHeight > 0.0
    ensures r.Some? ==> r.value.column == ColumnAt(px, canvasWidth)
    ensures r.Some? ==> r.value.shelfIndex < |Slots(r.value.column)|
                        && SlotContains(Slots(r.value.column)[r.value.shelfIndex], py, canvasHeight)
    ensures r.Some? ==> forall k :: 0 <= k < r.value.shelfIndex ==>
                          !SlotContains(Slots(r.value.column)[k], py, canvasHeight)
    ensures r.None? <==> forall k :: 0 <= k < |Slots(ColumnAt(px, canvasWidth))| ==>
                          !SlotContains(Slots(ColumnAt(px, canvasWidth))[k], py, canvasHeight)
    ensures r.Some? ==> 0.0 <= r.value.relativeY <= 1.0
    ensures r.Some? && 0.0 <= px <= canvasWidth ==> 0.0 <= r.value.relativeX <= 1.0
  {
    var c := ColumnAt(px, canvasWidth);
    var slots := Slots(c);
    match FirstSlotFrom(slots, py, canvasHeight, 0)
    case None => None
    case Some(i) =>
      var rx := RelativeX(px, canvasWidth, c);
      var ry := RelativeY(py, canvasHeight, slots[i]);
      Some(ShelfHit(c, i, rx, ry))
  }

  /** Where `px` lies across bay `c`, as a fraction of the bay's width. */
  function RelativeX(px: real, canvasWidth: real, c: Column): (r: real)
    requires canvasWidth > 0.0
    ensures c == ColumnAt(px, canvasWidth) && 0.0 <= px <= canvasWidth ==> 0.0 <= r <= 1.0
    ensures r * (canvasWidth * ColumnWidth(c)) == px - canvasWidth * ColumnX(c)
  {
    var narrowWidth := canvasWidth * ColumnWidth(Narrow);
    var r := if c == Narrow then px / narrowWidth
             else (px - canvasWidth * ColumnX(Wide)) / (canvasWidth * ColumnWidth(Wide));
    assert c == ColumnAt(px, canvasWidth) && 0.0 <= px <= canvasWidth ==> 0.0 <= r <= 1.0 by {
      if c == ColumnAt(px, canvasWidth) && 0.0 <= px <= canvasWidth {
        if c == Narrow {
          UnitRatio(px, narrowWidth);
        } else {
          UnitRatio(px - canvasWidth * 0.35, canvasWidth * 0.65);
        }
      }
    }
    r
  }

  /** Where `py` lies down a slot, as a fraction of the slot's height. */
  function RelativeY(py: real, canvasHeight: real, slot: Slot): (r: real)
    requires canvasHeight > 0.0 && slot.height > 0.0
    ensures SlotContains(slot, py, canvasHeight) ==> 0.0 <= r <= 1.0
    ensures r * (slot.height * canvasHeight) == py - slot.y * canvasHeight
  {
    var shelfY := slot.y * canvasHeight;
    var shelfHeight := slot.height * canvasHeight;
    UnitRatio(py - shelfY, shelfHeight);
    (py - shelfY) / shelfHeight
  }

  /** The position a hit reports is the cursor's offset from the slot's top-left corner,
      as fractions of the bay's width and of the slot's height. */
  lemma HitPosition(px: real, py: real, canvasWidth: real, canvasHeight: real, hit: ShelfHit)
    requires canvasWidth > 0.0 && canvasHeight > 0.0
    requires ShelfFromPoint(px, py, canvasWidth, canvasHeight) == Some(hit)
    ensures ShelfBounds(hit.column, hit.shelfIndex).Some?
    ensures var b := ShelfBounds(hit.column, hit.shelfIndex).value;
            && hit.relativeX == (px - canvasWidth * b.x) / (canvasWidth * b.width)
            && hit.relativeY == (py - b.y * canvasHeight) / (b.height * canvasHeight)
  {
    var c := ColumnAt(px, canvasWidth);
    var i := FirstSlotFrom(Slots(c), py, canvasHeight, 0).value;
    var s := Slots(c)[i];
    assert hit == ShelfHit(c, i, RelativeX(px, canvasWidth, c), RelativeY(py, canvasHeight, s));
    assert ShelfBounds(c, i).value == Bounds(ColumnX(c), s.y, ColumnWidth(c), s.height);
  }

  /** Helper: the point a fraction of the way along a span of `height · size` starting at
      `y · size` is the point the fraction was measured from. */
  lemma FractionOfSpan(t: real, q: real, y: real, height: real, size: real)
    requires height * size != 0.0 && t == (q - y * size) / (height * size)
    ensures y * size + t * (height * size) == q
  {
  }

  /** Helper: a ratio of a part to a positive whole lies in [0, 1]. */
  lemma UnitRatio(part: real, whole: real)
    requires whole > 0.0
    ensures 0.0 <= part <= whole ==> 0.0 <= part / whole <= 1.0
  {
    if 0.0 <= part <= whole {
      assert part / whole * whole == part;
    }
  }

  /** A resolved slot always has bounds, and the point lies inside them. */
  lemma HitHasBounds(px: real, py: real, canvasWidth: real, canvasHeight: real)
    requires canvasWidth > 0.0 && canvasHeight > 0.0
    requires ShelfFromPoint(px, py, canvasWidth, canvasHeight).Some?
    ensures var hit := ShelfFromPoint(px, py, canvasWidth, canvasHeight).value;
            var b := ShelfBounds(hit.column, hit.shelfIndex);
            b.Some? && b.value.y * canvasHeight <= py <= (b.value.y + b.value.height) * canvasHeight
  {
  }

  /** The midpoint of every slot resolves to exactly that slot, in whichever bay the
      horizontal position selects. */
  lemma MidpointResolves(c: Column, i: nat, px: real, canvasWidth: real, canvasHeight: real)
    requires canvasWidth > 0.0 && canvasHeight > 0.0
    requires ColumnAt(px, canvasWidth) == c && i < |Slots(c)|
    ensures var py := (Slots(c)[i].y + Slots(c)[i].height / 2.0) * canvasHeight;
            var r := ShelfFromPoint(px, py, canvasWidth, canvasHeight);
            r.Some? && r.value.column == c && r.value.shelfIndex == i
  {
    var s := Slots(c)[i];
    var py := (s.y + s.height / 2.0) * canvasHeight;
    SlotsDisjoint(c);
    assert SlotContains(s, py, canvasHeight);
    forall k | 0 <= k < i ensures !SlotContains(Slots(c)[k], py, canvasHeight) {
      assert Slots(c)[k].y + Slots(c)[k].height < s.y + s.height / 2.0;
    }
  }

  /** A boundary shared by two slots (the 25% line between the top shelves) goes to the
      earlier slot. */
  lemma SharedBoundaryGoesToEarlierSlot(px: real, canvasWidth: real, canvasHeight: real)
    requires canvasWidth > 0.0 && canvasHeight > 0.0
    ensures var r := ShelfFromPoint(px, 0.25 * canvasHeight, canvasWidth, canvasHeight);
            r.Some? && r.value.shelfIndex == 0
  {
    var c := ColumnAt(px, canvasWidth);
    assert SlotContains(Slots(c)[0], 0.25 * canvasHeight, canvasHeight);
  }

  /** The gap between the upper shelves and the drawers (40% to 45% of the height) belongs
      to no slot, in either bay. */
  lemma GapResolvesToNothing(px: real, py: real, canvasWidth: real, canvasHeight: real)
    requires canvasWidth > 0.0 && canvasHeight > 0.0
    requires 0.40 * canvasHeight < py < 0.45 * canvasHeight
    ensures ShelfFromPoint(px, py, canvasWidth, canvasHeight).None?
  {
  }

  // ---------------------------------------------------------------------------
  // The item box shared by drawItems, handleMouseDown and handleDoubleClick.

  /** `item.displayWidth || 100`: a missing or zero dimension falls back to 100 mm. */
  function DisplayDim(d: Option<real>): (r: real)
    ensures d.Some? && d.value != 0.0 ==> r == d.value
    ensures d.None? || d.value == 0.0 ==> r == DefaultDimensionMm
  {
    if d.Some? && d.value != 0.0 then d.value else DefaultDimensionMm
  }

  /** The item's rectangle: `displayWidth/Height * MM_TO_PX * canvasWidth / 1000` pixels,
      anchored by its bottom centre at the placed position within the slot. */
  function ItemBox(b: Bounds, p: ShelfItem, item: CatalogueItem, canvasWidth: real, canvasHeight: real): (r: Box)
    ensures r.width == DisplayDim(item.displayWidth) * MmToPx * canvasWidth / 1000.0
    ensures r.height == DisplayDim(item.displayHeight) * MmToPx * canvasWidth / 1000.0
    ensures r.left + r.width / 2.0 == b.x * canvasWidth + p.x * (b.width * canvasWidth)
    ensures r.top + r.height == b.y * canvasHeight + p.y * (b.height * canvasHeight)
  {
    var itemWidth := DisplayDim(item.displayWidth) * MmToPx * canvasWidth / 1000.0;
    var itemHeight := DisplayDim(item.displayHeight) * MmToPx * canvasWidth / 1000.0;
    var shelfX := b.x * canvasWidth;
    var shelfY := b.y * canvasHeight;
    var shelfWidth := b.width * canvasWidth;
    var shelfHeight := b.height * canvasHeight;
    Box(shelfX + p.x * shelfWidth - itemWidth / 2.0, shelfY + p.y * shelfHeight - itemHeight, itemWidth, itemHeight)
  }

  /** The item's box is anchored by its bottom centre at canvas point `(px, py)`. */
  predicate AnchoredAt(p: ShelfItem, item: CatalogueItem, px: real, py: real, canvasWidth: real, canvasHeight: real) {
    && ShelfBounds(p.column, p.shelfIndex).Some?
    && var box := ItemBox(ShelfBounds(p.column, p.shelfIndex).value, p, item, canvasWidth, canvasHeight);
       box.left + box.width / 2.0 == px && box.top + box.height == py
  }

  /** The hit test and the item box are inverse to each other: an item placed at the slot
      position the hit test resolves `(px, py)` to is drawn with its bottom centre exactly at
      `(px, py)`, whatever its size. */
  lemma HitAnchorsBox(px: real, py: real, canvasWidth: real, canvasHeight: real, hit: ShelfHit,
                      p: ShelfItem, item: CatalogueItem)
    requires canvasWidth > 0.0 && canvasHeight > 0.0
    requires ShelfFromPoint(px, py, canvasWidth, canvasHeight) == Some(hit)
    requires p.column == hit.column && p.shelfIndex == hit.shelfIndex && p.x == hit.relativeX && p.y == hit.relativeY
    ensures AnchoredAt(p, item, px, py, canvasWidth, canvasHeight)
  {
    HitPosition(px, py, canvasWidth, canvasHeight, hit);
    var b := ShelfBounds(p.column, p.shelfIndex).value;
    BoxAt(b, p, item, px, py, canvasWidth, canvasHeight);
  }

  /** Helper: an item whose position is the cursor's offset from its slot's corner, as
      fractions of the slot's size, is anchored at the cursor. */
  lemma BoxAt(b: Bounds, p: ShelfItem, item: CatalogueItem, px: real, py: real, canvasWidth: real, canvasHeight: real)
    requires ShelfBounds(p.column, p.shelfIndex) == Some(b)
    requires canvasWidth > 0.0 && canvasHeight > 0.0
    requires p.x == (px - canvasWidth * b.x) / (canvasWidth * b.width)
    requires p.y == (py - b.y * canvasHeight) / (b.height * canvasHeight)
    ensures AnchoredAt(p, item, px, py, canvasWidth, canvasHeight)
  {
    assert canvasWidth * b.width == b.width * canvasWidth && canvasWidth * b.x == b.x * canvasWidth;
    FractionOfSpan(p.x, px, b.x, b.width, canvasWidth);
    FractionOfSpan(p.y, py, b.y, b.height, canvasHeight);
    var box := ItemBox(b, p, item, canvasWidth, canvasHeight);
  }

  /** The hit condition of the two click handlers, edges included. */
  predicate BoxContains(b: Box, px: real, py: real) {
    b.left <= px <= b.left + b.width && b.top <= py <= b.top + b.height
  }

  /** `items.find((i) => i._id === id)`: the first catalogue record with that id. */
  function FindItem(catalogue: seq<CatalogueItem>, id: string): (r: Option<CatalogueItem>)
    ensures r.Some? ==> r.value in catalogue && r.value.id == id
    ensures r.Some? ==> exists k :: 0 <= k < |catalogue| && catalogue[k] == r.value &&
                                     forall j :: 0 <= j < k ==> catalogue[j].id != id
    ensures r.None? ==> forall k :: 0 <= k < |catalogue| ==> catalogue[k].id != id
  {
    if |catalogue| == 0 then None
    else if catalogue[0].id == id then Some(catalogue[0])
    else FindItem(catalogue[1..], id)
  }

  /** The box of a placed item, or `None` when its catalogue record is missing or its slot
      index is out of range; the handlers skip such items. */
  function BoxFor(p: ShelfItem, catalogue: seq<CatalogueItem>, canvasWidth: real, canvasHeight: real): (r: Option<Box>)
    ensures r.Some? <==> FindItem(catalogue, p.itemId).Some? && ShelfBounds(p.column, p.shelfIndex).Some?
  {
    match (FindItem(catalogue, p.itemId), ShelfBounds(p.column, p.shelfIndex))
    case (Some(item), Some(b)) => Some(ItemBox(b, p, item, canvasWidth, canvasHeight))
    case _ => None
  }

  /** The scan of the click handlers: the first placed item, in list order, whose box
      contains the point. */
  function HitIndexFrom(items: seq<ShelfItem>, catalogue: seq<CatalogueItem>, px: real, py: real,
                        canvasWidth: real, canvasHeight: real, i: nat): (r: Option<nat>)
    requires i <= |items|
    ensures r.Some? ==> i <= r.value < |items|
    ensures r.Some? ==> var b := BoxFor(items[r.value], catalogue, canvasWidth, canvasHeight);
                        b.Some? && BoxContains(b.value, px, py)
    ensures r.Some? ==> forall k :: i <= k < r.value ==> !Hits(items[k], catalogue, px, py, canvasWidth, canvasHeight)
    ensures r.None? ==> forall k :: i <= k < |items| ==> !Hits(items[k], catalogue, px, py, canvasWidth, canvasHeight)
    decreases |items| - i
  {
    if i == |items| then None
    else if Hits(items[i], catalogue, px, py, canvasWidth, canvasHeight) then Some(i)
    else HitIndexFrom(items, catalogue, px, py, canvasWidth, canvasHeight, i + 1)
  }

  /** The placed item is drawn and its box contains the point. */
  predicate Hits(p: ShelfItem, catalogue: seq<CatalogueItem>, px: real, py: real, canvasWidth: real, canvasHeight: real) {
    var b := BoxFor(p, catalogue, canvasWidth, canvasHeight);
    b.Some? && BoxContains(b.value, px, py)
  }

  function HitIndex(items: seq<ShelfItem>, catalogue: seq<CatalogueItem>, px: real, py: real,
                    canvasWidth: real, canvasHeight: real): Option<nat>
  {
    HitIndexFrom(items, catalogue, px, py, canvasWidth, canvasHeight, 0)
  }

  // ---------------------------------------------------------------------------
  // drawItems as a list of draw commands.

  datatype ItemLook = Picture(rotation: Option<real>) | Placeholder

  /** One item draw: its box, the picture (rotated when a rotation is set) or a grey
      placeholder when the image has not loaded, and whether the selection outline is drawn. */
  datatype ItemDraw = ItemDraw(itemId: string, box: Box, look: ItemLook, selected: bool)

  /** The placed items `drawItems` draws, in list order: those with a catalogue record and
      a valid slot. */
  function Drawable(items: seq<ShelfItem>, catalogue: seq<CatalogueItem>, canvasWidth: real, canvasHeight: real): seq<ShelfItem> {
    Seqs.Filter((p: ShelfItem) => BoxFor(p, catalogue, canvasWidth, canvasHeight).Some?, items)
  }

  /** One item's draw command. */
  function DrawOne(p: ShelfItem, catalogue: seq<CatalogueItem>, loaded: string -> bool, dragged: Option<string>,
                   canvasWidth: real, canvasHeight: real): ItemDraw
    requires BoxFor(p, catalogue, canvasWidth, canvasHeight).Some?
  {
    var look := if !loaded(p.itemId) then Placeholder
                else if p.rotation == Some(0.0) then Picture(None)
                else Picture(p.rotation);
    ItemDraw(p.itemId, BoxFor(p, catalogue, canvasWidth, canvasHeight).value, look, dragged == Some(p.itemId))
  }

  /** `drawItems`: one command per drawable item, in list order; `loaded` says which item
      images have finished loading and `dragged` is the selected item's id. */
  function DrawItems(items: seq<ShelfItem>, catalogue: seq<CatalogueItem>, loaded: string -> bool,
                     dragged: Option<string>, canvasWidth: real, canvasHeight: real): (r: seq<ItemDraw>)
    ensures |r| == |Drawable(items, catalogue, canvasWidth, canvasHeight)| <= |items|
    ensures forall i :: 0 <= i < |r| ==>
              var p := Drawable(items, catalogue, canvasWidth, canvasHeight)[i];
              p in items && r[i].itemId == p.itemId && BoxFor(p, catalogue, canvasWidth, canvasHeight) == Some(r[i].box)
    ensures forall i :: 0 <= i < |r| ==> (r[i].selected <==> dragged == Some(r[i].itemId))
  {
    var ds := Drawable(items, catalogue, canvasWidth, canvasHeight);
    seq(|ds|, i requires 0 <= i < |ds| => DrawOne(ds[i], catalogue, loaded, dragged, canvasWidth, canvasHeight))
  }

  /** Drawing and clicking agree: a point lies inside some drawn box exactly when the click
      scan finds a placed item under it. */
  lemma ClickHitsWhatIsDrawn(items: seq<ShelfItem>, catalogue: seq<CatalogueItem>, loaded: string -> bool,
                             dragged: Option<string>, px: real, py: real, canvasWidth: real, canvasHeight: real)
    ensures HitIndex(items, catalogue, px, py, canvasWidth, canvasHeight).Some? <==>
            exists i :: 0 <= i < |DrawItems(items, catalogue, loaded, dragged, canvasWidth, canvasHeight)|
                        && BoxContains(DrawItems(items, catalogue, loaded, dragged, canvasWidth, canvasHeight)[i].box, px, py)
  {
    var r := DrawItems(items, catalogue, loaded, dragged, canvasWidth, canvasHeight);
    var ds := Drawable(items, catalogue, canvasWidth, canvasHeight);
    var hit := HitIndex(items, catalogue, px, py, canvasWidth, canvasHeight);
    if hit.Some? {
      var p := items[hit.value];
      assert p in ds;
      var i :| 0 <= i < |ds| && ds[i] == p;
      assert BoxContains(r[i].box, px, py);
    }
    if i :| 0 <= i < |r| && BoxContains(r[i].box, px, py) {
      var k :| 0 <= k < |items| && items[k] == ds[i];
      assert Hits(items[k], catalogue, px, py, canvasWidth, canvasHeight);
    }
  }
}

=== FILE: shelf_storage.dfy ===
/** Persistence of the "My 606" shelf (src/lib/shelf-storage.ts): the placed-item records,
    their JSON form, and save / load / clear over one key of the browser's key/value store. */
module ShelfStorage {
  import opened Wrappers
  import opened Json

  /** The two bay types of the shelf. */
  datatype Column = Narrow | Wide

  /** One catalogue item placed on the shelf: `x`, `y` are normalised (0-1) within the slot. */
  datatype ShelfItem = ShelfItem(
    itemId: string,
    x: real,
    y: real,
    shelfIndex: int,
    column: Column,
    rotation: Option<real>)

  /** The persisted session: items in insertion order (= drawing order) and a schema version. */
  datatype ShelfState = ShelfState(items: seq<ShelfItem>, version: Option<int>)

  const StorageKey: string := "606-shelf-state"

  const DefaultState: ShelfState := ShelfState([], Some(1))

  /** The key/value store as the module sees it. `hasWindow` is false during server
      rendering; `readable` / `writable` are false when the store throws (disabled storage,
      exceeded quota), which the module catches and logs. */
  datatype Storage = Storage(hasWindow: bool, readable: bool, writable: bool, entries: map<string, string>)

  /** Every key other than the shelf's own maps to the same value in both stores. */
  ghost predicate OthersUnchanged(a: map<string, string>, b: map<string, string>) {
    forall k :: k != StorageKey ==> (k in a <==> k in b) && (k in a ==> a[k] == b[k])
  }

  function ColumnName(c: Column): string {
    match c
    case Narrow => "narrow"
    case Wide => "wide"
  }

  function EncodeItem(p: ShelfItem): Json {
    var base := map[
      "itemId" := JStr(p.itemId),
      "x" := JNum(p.x),
      "y" := JNum(p.y),
      "shelfIndex" := JNum(p.shelfIndex as real),
      "column" := JStr(ColumnName(p.column))];
    JObj(if p.rotation.Some? then base["rotation" := JNum(p.rotation.value)] else base)
  }

  function EncodeItems(ps: seq<ShelfItem>): seq<Json> {
    if |ps| == 0 then [] else [EncodeItem(ps[0])] + EncodeItems(ps[1..])
  }

  /** The value `JSON.stringify` is applied to; absent optional fields are omitted. */
  function Encode(s: ShelfState): Json {
    var base := map["items" := JArr(EncodeItems(s.items))];
    JObj(if s.version.Some? then base["version" := JNum(s.version.value as real)] else base)
  }

  /** The shape test of `loadShelfState`: a non-null object whose `items` is an array. */
  predicate HasItemsArray(j: Json) {
    j.JObj? && "items" in j.fields && j.fields["items"].JArr?
  }

  /** `saveShelfState`: writes the serialised state under the shelf key; a no-op without a
      window, and a swallowed error when the store refuses the write. */
  function Save(st: Storage, s: ShelfState, stringify: Printer): (r: Storage)
    ensures OthersUnchanged(st.entries, r.entries)
    ensures r.hasWindow == st.hasWindow && r.readable == st.readable && r.writable == st.writable
    ensures st.hasWindow && st.writable ==> StorageKey in r.entries && r.entries[StorageKey] == stringify(Encode(s))
    ensures !(st.hasWindow && st.writable) ==> r == st
  {
    if !st.hasWindow || !st.writable then st
    else st.(entries := st.entries[StorageKey := stringify(Encode(s))])
  }

  /** `loadShelfState`: the parsed value when the key holds text that parses to an object
      with an `items` array; `None` (JavaScript `null`) otherwise. */
  function Load(st: Storage, parse: Parser): (r: Option<Json>)
    ensures r.Some? <==>
      && st.hasWindow && st.readable
      && StorageKey in st.entries && st.entries[StorageKey] != ""
      && parse(st.entries[StorageKey]).Ok?
      && HasItemsArray(parse(st.entries[StorageKey]).value)
    ensures r.Some? ==> r.value == parse(st.entries[StorageKey]).value
    ensures StorageKey !in st.entries ==> r == None
  {
    if !st.hasWindow || !st.readable then None
    else if StorageKey !in st.entries then None
    else
      var stored := st.entries[StorageKey];
      if stored == "" then None
      else match parse(stored)
        case Err(_) => None
        case Ok(parsed) => if HasItemsArray(parsed) then Some(parsed) else None
  }

  /** `clearShelfState`: removes the shelf key and nothing else. */
  function Clear(st: Storage): (r: Storage)
    ensures OthersUnchanged(st.entries, r.entries)
    ensures st.hasWindow && st.writable ==> StorageKey !in r.entries
    ensures !(st.hasWindow && st.writable) ==> r == st
  {
    if !st.hasWindow || !st.writable then st
    else st.(entries := map k | k in st.entries && k != StorageKey :: st.entries[k])
  }

  /** `getInitialShelfState`: the loaded value, or the default `{items: [], version: 1}`. */
  function Initial(st: Storage, parse: Parser): (r: Json)
    ensures Load(st, parse).Some? ==> r == Load(st, parse).value
    ensures Load(st, parse).None? ==> r == Encode(DefaultState)
    ensures HasItemsArray(r)
  {
    Load(st, parse).GetOr(Encode(DefaultState))
  }

  /** Saving then loading gives back the saved state's JSON, whenever the store accepts
      both calls and the text codec round-trips that JSON. */
  lemma SaveThenLoad(st: Storage, s: ShelfState, parse: Parser, stringify: Printer)
    requires RoundTripsOn(parse, stringify, Encode(s))
    requires st.hasWindow && st.readable && st.writable
    requires stringify(Encode(s)) != ""
    ensures Load(Save(st, s, stringify), parse) == Some(Encode(s))
    ensures Decode(Load(Save(st, s, stringify), parse).value) == Some(s)
  {
    DecodeEncode(s);
  }

  /** After clearing, nothing is loaded. */
  lemma ClearThenLoad(st: Storage, parse: Parser)
    requires st.hasWindow && st.writable
    ensures Load(Clear(st), parse) == None
  {
  }

  // ---------------------------------------------------------------------------
  // Reading the JSON back into typed records. The source trusts the shape after its
  // `items` check; the model's decoder is the typed boundary and rejects malformed entries.

  function DecodeColumn(j: Json): Option<Column> {
    if j == JStr("narrow") then Some(Narrow)
    else if j == JStr("wide") then Some(Wide)
    else None
  }

  function DecodeItem(j: Json): Option<ShelfItem> {
    if !j.JObj? then None
    else
      var f := j.fields;
      if && "itemId" in f && f["itemId"].JStr?
         && "x" in f && f["x"].JNum?
         && "y" in f && f["y"].JNum?
         && "shelfIndex" in f && f["shelfIndex"].JNum? && IsInteger(f["shelfIndex"].n)
         && "column" in f && DecodeColumn(f["column"]).Some?
      then
        var rotation := if "rotation" in f && f["rotation"].JNum? then Some(f["rotation"].n) else None;
        Some(ShelfItem(f["itemId"].s, f["x"].n, f["y"].n, f["shelfIndex"].n.Floor,
                       DecodeColumn(f["column"]).value, rotation))
      else None
  }

  function DecodeItems(js: seq<Json>): Option<seq<ShelfItem>> {
    if |js| == 0 then Some([])
    else match (DecodeItem(js[0]), DecodeItems(js[1..]))
      case (Some(p), Some(ps)) => Some([p] + ps)
      case _ => None
  }

  function Decode(j: Json): Option<ShelfState> {
    if !HasItemsArray(j) then None
    else match DecodeItems(j.fields["items"].elems)
      case None => None
      case Some(items) =>
        var f := j.fields;
        var version := if "version" in f && f["version"].JNum? && IsInteger(f["version"].n)
                       then Some(f["version"].n.Floor) else None;
        Some(ShelfState(items, version))
  }

  lemma DecodeEncodeItem(p: ShelfItem)
    ensures DecodeItem(EncodeItem(p)) == Some(p)
  {
    assert DecodeColumn(JStr(ColumnName(p.column))) == Some(p.column);
  }

  lemma {:induction false} DecodeEncodeItems(ps: seq<ShelfItem>)
    ensures DecodeItems(EncodeItems(ps)) == Some(ps)
  {
    if |ps| > 0 {
      DecodeEncodeItem(ps[0]);
      DecodeEncodeItems(ps[1..]);
      assert EncodeItems(ps)[1..] == EncodeItems(ps[1..]);
      assert [ps[0]] + ps[1..] == ps;
    }
  }

  /** The typed decoder inverts the encoder. */
  lemma DecodeEncode(s: ShelfState)
    ensures Decode(Encode(s)) == Some(s)
  {
    DecodeEncodeItems(s.items);
  }
}

=== FILE: structured_data.dfy ===
/** The JSON-LD builders of the site: an item list, a breadcrumb trail, the organization and
    the person behind the site. Each builds an abstract JSON value; keys whose value would be
    `undefined` are absent, as they are once the value is serialised. */
module StructuredData {
  import opened Wrappers
  import opened Json
  import Text

  /** The site URL when the environment does not set one. */
  const DefaultSiteUrl: string := "https://606plus.jeshua.dev"

  /** `process.env.NEXT_PUBLIC_SITE_URL || DefaultSiteUrl`. */
  function SiteUrl(env: Option<string>): (r: string)
    ensures r != ""
    ensures env.Some? && env.value != "" ==> r == env.value
  {
    if env.Some? && env.value != "" then env.value else DefaultSiteUrl
  }

  const Context: string := "https://schema.org"
  const ListName: string := "Timeless Design Objects"
  const ListDescription: string :=
    "A curated collection of design objects that complement the Vitsoe 606 shelving system. Pleasing to the eye, rewarding to explore."

  /** An item of a list page. */
  datatype ListedItem = ListedItem(title: string, href: string, subtitle: Option<string>)

  /** The `Product` entry of one listed item. */
  function Product(item: ListedItem, siteUrl: string): Json {
    var fields := map["@type" := JStr("Product"), "name" := JStr(item.title), "url" := JStr(siteUrl + item.href)];
    JObj(if item.subtitle.Some? then fields["description" := JStr(item.subtitle.value)] else fields)
  }

  /** The `ListItem` wrapper at a 1-based position. */
  function ListItem(position: nat, extra: map<string, Json>): Json {
    JObj(extra["@type" := JStr("ListItem")]["position" := JNum(position as real)])
  }

  /** `generateItemListSchema`. */
  function ItemListSchema(items: seq<ListedItem>, siteUrl: string): (r: Json)
    ensures Get(r, "numberOfItems") == Found(JNum(|items| as real))
    ensures Get(r, "itemListElement").Found? && Get(r, "itemListElement").v.JArr?
    ensures var elems := Get(r, "itemListElement").v.elems;
            |elems| == |items| &&
            forall i :: 0 <= i < |items| ==>
              Get(elems[i], "position") == Found(JNum((i + 1) as real)) &&
              Get(elems[i], "item").Found? &&
              Get(Get(elems[i], "item").v, "url") == Found(JStr(siteUrl + items[i].href)) &&
              Get(Get(elems[i], "item").v, "name") == Found(JStr(items[i].title)) &&
              (Get(Get(elems[i], "item").v, "description").Found? <==> items[i].subtitle.Some?)
  {
    var elems := seq(|items|, i requires 0 <= i < |items| => ListItem(i + 1, map["item" := Product(items[i], siteUrl)]));
    JObj(map["@context" := JStr(Context), "@type" := JStr("ItemList"), "name" := JStr(ListName),
             "description" := JStr(ListDescription), "numberOfItems" := JNum(|items| as real),
             "itemListElement" := JArr(elems)])
  }

  /** A breadcrumb link: kept when it starts with `http`, else taken relative to the site. */
  function AbsoluteUrl(url: string, siteUrl: string): (r: string)
    ensures Text.StartsWith(url, "http") ==> r == url
    ensures !Text.StartsWith(url, "http") ==> r == siteUrl + url
  {
    if Text.StartsWith(url, "http") then url else siteUrl + url
  }

  /** Making a link absolute twice is making it absolute once, when the site URL itself starts
      with `http`. */
  lemma AbsoluteUrlIdempotent(url: string, siteUrl: string)
    requires Text.StartsWith(siteUrl, "http")
    ensures AbsoluteUrl(AbsoluteUrl(url, siteUrl), siteUrl) == AbsoluteUrl(url, siteUrl)
  {
    if !Text.StartsWith(url, "http") {
      assert (siteUrl + url)[..4] == siteUrl[..4];
    }
  }

  datatype Crumb = Crumb(name: string, url: string)

  /** `generateBreadcrumbSchema`. */
  function BreadcrumbSchema(crumbs: seq<Crumb>, siteUrl: string): (r: Json)
    ensures Get(r, "itemListElement").Found? && Get(r, "itemListElement").v.JArr?
    ensures var elems := Get(r, "itemListElement").v.elems;
            |elems| == |crumbs| &&
            forall i :: 0 <= i < |crumbs| ==>
              Get(elems[i], "position") == Found(JNum((i + 1) as real)) &&
              Get(elems[i], "name") == Found(JStr(crumbs[i].name)) &&
              Get(elems[i], "item") == Found(JStr(AbsoluteUrl(crumbs[i].url, siteUrl)))
  {
    var elems := seq(|crumbs|, i requires 0 <= i < |crumbs| =>
                   ListItem(i + 1, map["name" := JStr(crumbs[i].name), "item" := JStr(AbsoluteUrl(crumbs[i].url, siteUrl))]));
    JObj(map["@context" := JStr(Context), "@type" := JStr("BreadcrumbList"), "itemListElement" := JArr(elems)])
  }

  /** `Organization`: `sameAs` is absent when not given; an array, even an empty one, is
      truthy, so any given list appears. */
  datatype Organization = Organization(name: string, url: string, sameAs: Option<seq<string>>)

  /** `generateOrganizationSchema`. */
  function OrganizationSchema(org: Organization): (r: Json)
    ensures Get(r, "name") == Found(JStr(org.name)) && Get(r, "url") == Found(JStr(org.url))
    ensures Get(r, "sameAs").Found? <==> org.sameAs.Some?
    ensures org.sameAs.Some? ==> Get(r, "sameAs") == Found(JArr(Strings(org.sameAs.value)))
  {
    var fields := map["@context" := JStr(Context), "@type" := JStr("Organization"),
                      "name" := JStr(org.name), "url" := JStr(org.url)];
    match org.sameAs
    case None => JObj(fields)
    case Some(links) =>
      JObj(fields["sameAs" := JArr(Strings(links))])
  }

  /** An array of strings. */
  function Strings(xs: seq<string>): (r: seq<Json>)
    ensures |r| == |xs| && forall i :: 0 <= i < |xs| ==> r[i] == JStr(xs[i])
  {
    seq(|xs|, i requires 0 <= i < |xs| => JStr(xs[i]))
  }

  /** `generatePersonSchema`: `email` appears only when it is a non-empty string. */
  function PersonSchema(name: string, url: string, email: Option<string>): (r: Json)
    ensures Get(r, "name") == Found(JStr(name)) && Get(r, "url") == Found(JStr(url))
    ensures Get(r, "email").Found? <==> email.Some? && email.value != ""
    ensures Get(r, "email").Found? ==> Get(r, "email") == Found(JStr(email.value))
  {
    var fields := map["@context" := JStr(Context), "@type" := JStr("Person"), "name" := JStr(name), "url" := JStr(url)];
    if email.Some? && email.value != "" then JObj(fields["email" := JStr(email.value)]) else JObj(fields)
  }
}

=== FILE: text.dfy ===
/** ASCII string helpers with JavaScript semantics: `trim`, `toLowerCase`, `startsWith`,
    `includes`, `split` on single characters, `join`, `Number.prototype.toString` for
    integers, and `Array.from(new Set(xs)).sort()` on strings. Characters outside ASCII
    are treated as neither spaces nor letters. */
module Text {

  /** The characters JavaScript's `trim()` and the regular-expression class `\s` accept, restricted to ASCII. */
  predicate IsSpace(c: char) {
    c == ' ' || c == '\t' || c == '\n' || c == '\r' || c == '\U{000B}' || c == '\U{000C}'
  }

  predicate IsDigit(c: char) { '0' <= c <= '9' }

  predicate IsUpper(c: char) { 'A' <= c <= 'Z' }

  function LowerChar(c: char): char {
    if IsUpper(c) then (c as int + 32) as char else c
  }

  /** `s.toLowerCase()` on ASCII letters. */
  function Lower(s: string): string {
    seq(|s|, i requires 0 <= i < |s| => LowerChar(s[i]))
  }

  /** Every character is whitespace (this includes the empty string). */
  predicate IsBlank(s: string) {
    forall i :: 0 <= i < |s| ==> IsSpace(s[i])
  }

  /** The first index at or after `i` that holds no whitespace, or `|s|`. */
  function SkipSpaces(s: string, i: nat): (j: nat)
    requires i <= |s|
    ensures i <= j <= |s|
    ensures forall k :: i <= k < j ==> IsSpace(s[k])
    ensures j < |s| ==> !IsSpace(s[j])
    decreases |s| - i
  {
    if i < |s| && IsSpace(s[i]) then SkipSpaces(s, i + 1) else i
  }

  /** The index just past the last character before `j` that is no whitespace, or 0. */
  function SkipSpacesBack(s: string, j: nat): (i: nat)
    requires j <= |s|
    ensures i <= j
    ensures forall k :: i <= k < j ==> IsSpace(s[k])
    ensures i > 0 ==> !IsSpace(s[i - 1])
  {
    if j > 0 && IsSpace(s[j - 1]) then SkipSpacesBack(s, j - 1) else j
  }

  /** Drops leading whitespace. */
  function TrimStart(s: string): string {
    s[SkipSpaces(s, 0)..]
  }

  /** `s.trim()`: the piece from the first to the last character that is no whitespace, or
      nothing when there is none. */
  function Trim(s: string): string {
    var a := SkipSpaces(s, 0);
    var b := SkipSpacesBack(s, |s|);
    if a < b then s[a..b] else ""
  }

  /** Helper: the trimmed string is the piece `s[i..j]` exactly when everything before `i`
      and from `j` on is whitespace and the piece, when not empty, has no whitespace at
      either end. */
  lemma TrimAt(s: string, i: nat, j: nat)
    requires i <= j <= |s|
    requires forall k :: 0 <= k < i ==> IsSpace(s[k])
    requires forall k :: j <= k < |s| ==> IsSpace(s[k])
    requires i < j ==> !IsSpace(s[i]) && !IsSpace(s[j - 1])
    ensures Trim(s) == s[i..j]
  {
    var a := SkipSpaces(s, 0);
    var b := SkipSpacesBack(s, |s|);
    if i < j {
      assert a == i && b == j;
    } else {
      assert a == |s| && b == 0;
    }
  }

  /** `s.trim()` is empty exactly when `s` is all whitespace; otherwise it starts and ends
      with a non-space character; either way it is a contiguous piece of `s`. */
  lemma TrimSpec(s: string)
    ensures Trim(s) == "" <==> IsBlank(s)
    ensures Trim(s) != "" ==> !IsSpace(Trim(s)[0]) && !IsSpace(Trim(s)[|Trim(s)| - 1])
    ensures exists i, j :: 0 <= i <= j <= |s| && Trim(s) == s[i..j]
  {
    TrimBlank(s);
    var a := SkipSpaces(s, 0);
    var b := SkipSpacesBack(s, |s|);
    if a < b {
      assert Trim(s) == s[a..b];
    } else {
      assert Trim(s) == s[0..0];
    }
  }

  /** The trimmed string is empty exactly for blank strings, and otherwise starts and ends
      with a non-space. */
  lemma TrimBlank(s: string)
    ensures Trim(s) == "" <==> IsBlank(s)
    ensures Trim(s) != "" ==> !IsSpace(Trim(s)[0]) && !IsSpace(Trim(s)[|Trim(s)| - 1])
  {
    var a := SkipSpaces(s, 0);
    var b := SkipSpacesBack(s, |s|);
    if !IsBlank(s) {
      var k :| 0 <= k < |s| && !IsSpace(s[k]);
      assert a <= k < b;
    } else {
      assert a == |s|;
    }
  }

  /** Characters absent from a string are absent from its trimmed form. */
  lemma TrimAvoids(s: string, seps: set<char>)
    requires forall i :: 0 <= i < |s| ==> s[i] !in seps
    ensures forall i :: 0 <= i < |Trim(s)| ==> Trim(s)[i] !in seps
  {
  }

  /** Trimming twice changes nothing more. */
  lemma TrimIdempotent(s: string)
    ensures Trim(Trim(s)) == Trim(s)
  {
    TrimIsTrimmed(s);
    TrimmedIsFixed(Trim(s));
  }

  /** No whitespace at either end. */
  predicate Trimmed(s: string) {
    |s| == 0 || (!IsSpace(s[0]) && !IsSpace(s[|s| - 1]))
  }

  /** `trim()` leaves a string alone exactly when it has no whitespace at either end. */
  lemma TrimmedIsFixed(s: string)
    ensures Trimmed(s) <==> Trim(s) == s
  {
    if Trimmed(s) {
      TrimAt(s, 0, |s|);
      assert s[0..|s|] == s;
    } else {
      TrimBlank(s);
    }
  }

  /** The result of `trim()` has no whitespace at either end. */
  lemma TrimIsTrimmed(s: string)
    ensures Trimmed(Trim(s))
  {
    TrimBlank(s);
  }

  /** Helper: a leading space makes no difference to the trimmed string. */
  lemma TrimDropsSpace(s: string)
    requires |s| > 0 && IsSpace(s[0])
    ensures Trim(s) == Trim(s[1..])
  {
    var a := SkipSpaces(s, 0);
    var b := SkipSpacesBack(s, |s|);
    var t := s[1..];
    if a < b {
      TrimAt(t, a - 1, b - 1);
      assert t[a - 1..b - 1] == s[a..b];
    } else {
      TrimBlank(s);
      TrimAt(t, 0, 0);
    }
  }

  /** A string that starts with a non-space keeps its first character through `trim()`. */
  lemma TrimKeepsFirst(s: string)
    requires |s| > 0 && !IsSpace(s[0])
    ensures Trim(s) != "" && Trim(s)[0] == s[0]
  {
    var b := SkipSpacesBack(s, |s|);
    assert SkipSpaces(s, 0) == 0;
    assert b > 0;
  }

  /** A trimmed non-empty string with one space on each side trims back to itself. */
  lemma TrimPadded(s: string)
    requires s != "" && Trimmed(s)
    ensures Trim(" " + s + " ") == s
  {
    var p := " " + s + " ";
    TrimAt(p, 1, |s| + 1);
    assert p[1..|s| + 1] == s;
  }

  /** `s.startsWith(p)`. */
  predicate StartsWith(s: string, p: string) {
    |p| <= |s| && s[..|p|] == p
  }

  /** `s.includes(w)`: `w` occurs at some position of `s`. */
  predicate Contains(s: string, w: string)
    decreases |s|
  {
    StartsWith(s, w) || (|s| > 0 && Contains(s[1..], w))
  }

  /** `w` sits at offset `k` of `s`. */
  predicate OccursAt(s: string, w: string, k: int) {
    0 <= k && k + |w| <= |s| && s[k..k + |w|] == w
  }

  /** `Contains` holds exactly when `w` sits at some offset of `s`. */
  lemma {:induction false} ContainsAt(s: string, w: string)
    ensures Contains(s, w) <==> exists k :: OccursAt(s, w, k)
    decreases |s|
  {
    if |s| > 0 {
      ContainsAt(s[1..], w);
      if Contains(s[1..], w) {
        var k :| OccursAt(s[1..], w, k);
        assert OccursAt(s, w, k + 1);
      }
      if StartsWith(s, w) {
        assert OccursAt(s, w, 0);
      } else {
        forall k | OccursAt(s, w, k)
          ensures Contains(s[1..], w)
        {
          assert k != 0;
          assert OccursAt(s[1..], w, k - 1);
        }
      }
    } else {
      assert StartsWith(s, w) <==> |w| == 0;
      if |w| == 0 { assert OccursAt(s, w, 0); }
    }
  }

  /** `s.split(c)` for a separator set of single characters (the regular expression `[...]`):
      the maximal pieces between separator characters, always at least one. */
  function Split(s: string, seps: set<char>): (r: seq<string>)
    ensures |r| >= 1
  {
    if |s| == 0 then [""]
    else
      var rest := Split(s[1..], seps);
      if s[0] in seps then [""] + rest
      else [[s[0]] + rest[0]] + rest[1..]
  }

  /** No piece of a split contains a separator. */
  lemma {:induction false} SplitPiecesAvoidSeparators(s: string, seps: set<char>)
    ensures forall k, i :: 0 <= k < |Split(s, seps)| && 0 <= i < |Split(s, seps)[k]| ==> Split(s, seps)[k][i] !in seps
  {
    if |s| > 0 {
      SplitPiecesAvoidSeparators(s[1..], seps);
    }
  }

  /** `xs.join(sep)`. */
  function Join(xs: seq<string>, sep: string): string {
    if |xs| == 0 then ""
    else if |xs| == 1 then xs[0]
    else xs[0] + sep + Join(xs[1..], sep)
  }

  /** Splitting on one character and joining with it gives back the original string. */
  lemma {:induction false} SplitJoin(s: string, c: char)
    ensures Join(Split(s, {c}), [c]) == s
  {
    if |s| > 0 {
      var rest := Split(s[1..], {c});
      SplitJoin(s[1..], c);
      if s[0] != c {
        var r := Split(s, {c});
        assert r == [[s[0]] + rest[0]] + rest[1..];
        if |rest| == 1 {
          assert Join(r, [c]) == [s[0]] + rest[0];
        } else {
          assert r[1..] == rest[1..];
          assert Join(rest, [c]) == rest[0] + [c] + Join(rest[1..], [c]);
        }
      } else {
        assert ([""] + rest)[1..] == rest;
      }
      assert s == [s[0]] + s[1..];
    }
  }

  /** Helper: a run free of the separator extends the first piece of what follows it. */
  lemma {:induction false} SplitAfterPlain(a: string, rest: string, seps: set<char>)
    requires forall i :: 0 <= i < |a| ==> a[i] !in seps
    ensures Split(a + rest, seps) == [a + Split(rest, seps)[0]] + Split(rest, seps)[1..]
  {
    if |a| > 0 {
      SplitAfterPlain(a[1..], rest, seps);
      assert (a + rest)[1..] == a[1..] + rest;
      var inner := Split(a[1..] + rest, seps);
      assert Split(a + rest, seps) == [[a[0]] + inner[0]] + inner[1..];
      assert [a[0]] + (a[1..] + Split(rest, seps)[0]) == a + Split(rest, seps)[0];
    } else {
      var r := Split(rest, seps);
      assert a + rest == rest && a + r[0] == r[0];
      assert r == [r[0]] + r[1..];
    }
  }

  /** Joining pieces free of `c` with `c` and splitting on `c` gives the pieces back. */
  lemma {:induction false} JoinSplit(xs: seq<string>, c: char)
    requires |xs| >= 1
    requires forall k, i :: 0 <= k < |xs| && 0 <= i < |xs[k]| ==> xs[k][i] != c
    ensures Split(Join(xs, [c]), {c}) == xs
  {
    if |xs| == 1 {
      SplitAfterPlain(xs[0], "", {c});
      assert xs[0] + "" == xs[0];
    } else {
      JoinSplit(xs[1..], c);
      var t := Join(xs[1..], [c]);
      SplitAfterPlain(xs[0], [c] + t, {c});
      assert xs[0] + [c] + t == xs[0] + ([c] + t);
      assert ([c] + t)[1..] == t;
      assert Split([c] + t, {c}) == [""] + xs[1..];
      assert xs[0] + "" == xs[0];
      assert xs == [xs[0]] + xs[1..];
    }
  }

  /** Decimal digits of a natural number, as `n.toString()` prints them. */
  function NatToString(n: nat): (r: string)
    ensures |r| >= 1
    ensures forall i :: 0 <= i < |r| ==> IsDigit(r[i])
  {
    var d := ['0' + (n % 10) as char];
    if n < 10 then d else NatToString(n / 10) + d
  }

  /** `n.toString()` for an integer. */
  function IntToString(n: int): string {
    if n < 0 then "-" + NatToString(-n) else NatToString(n)
  }

  /** The value of a run of decimal digits, as `parseInt(s, 10)` reads it. */
  function DigitsValue(s: string): nat
    requires forall i :: 0 <= i < |s| ==> IsDigit(s[i])
  {
    if |s| == 0 then 0 else DigitsValue(s[..|s| - 1]) * 10 + DigitValue(s[|s| - 1])
  }

  function DigitValue(c: char): nat
    requires IsDigit(c)
  {
    c as int - '0' as int
  }

  /** Reading the printed digits of `n` gives `n` back. */
  lemma {:induction false} NatToStringRoundTrip(n: nat)
    ensures DigitsValue(NatToString(n)) == n
  {
    var d := ['0' + (n % 10) as char];
    if n >= 10 {
      NatToStringRoundTrip(n / 10);
      var r := NatToString(n);
      assert r[..|r| - 1] == NatToString(n / 10);
    }
  }

  // ---------------------------------------------------------------------------
  // Ordering: `Array.prototype.sort()` with no comparator compares strings code unit by
  // code unit, a shorter prefix first.

  predicate Less(a: string, b: string)
    decreases |a|
  {
    if |a| == 0 then |b| > 0
    else if |b| == 0 then false
    else a[0] < b[0] || (a[0] == b[0] && Less(a[1..], b[1..]))
  }

  lemma {:induction false} LessIrreflexive(a: string)
    ensures !Less(a, a)
  {
    if |a| > 0 { LessIrreflexive(a[1..]); }
  }

  lemma {:induction false} LessTransitive(a: string, b: string, c: string)
    requires Less(a, b) && Less(b, c)
    ensures Less(a, c)
    decreases |a|
  {
    if |a| > 0 && a[0] == b[0] && b[0] == c[0] {
      LessTransitive(a[1..], b[1..], c[1..]);
    }
  }

  lemma {:induction false} LessTotal(a: string, b: string)
    ensures a == b || Less(a, b) || Less(b, a)
    decreases |a|
  {
    if |a| > 0 && |b| > 0 && a[0] == b[0] {
      LessTotal(a[1..], b[1..]);
      if a[1..] == b[1..] {
        assert a == [a[0]] + a[1..] && b == [b[0]] + b[1..];
      }
    }
  }

  /** Strictly increasing, hence duplicate-free. */
  predicate StrictlySorted(xs: seq<string>) {
    forall i, j :: 0 <= i < j < |xs| ==> Less(xs[i], xs[j])
  }

  /** Inserts `x` into a strictly sorted list unless it is already there. */
  function Insert(x: string, xs: seq<string>): (r: seq<string>)
    requires StrictlySorted(xs)
    ensures StrictlySorted(r)
    ensures forall y :: y in r <==> y == x || y in xs
  {
    if |xs| == 0 then [x]
    else if x == xs[0] then xs
    else if Less(x, xs[0]) then
      InsertFrontSorted(x, xs);
      [x] + xs
    else
      LessTotal(x, xs[0]);
      var tail := Insert(x, xs[1..]);
      assert forall y :: y in tail ==> Less(xs[0], y) by {
        forall y | y in tail ensures Less(xs[0], y) {
          if y != x {
            var j :| 1 <= j < |xs| && xs[j] == y;
          }
        }
      }
      [xs[0]] + tail
  }

  /** Helper: prefixing an element smaller than the head keeps a list sorted. */
  lemma InsertFrontSorted(x: string, xs: seq<string>)
    requires StrictlySorted(xs) && |xs| > 0 && Less(x, xs[0])
    ensures StrictlySorted([x] + xs)
  {
    forall j | 1 <= j < |xs| ensures Less(x, xs[j]) {
      LessTransitive(x, xs[0], xs[j]);
    }
  }

  /** `Array.from(new Set(xs)).sort()`: the distinct strings of `xs` in ascending order. */
  function SortedUnique(xs: seq<string>): (r: seq<string>)
    ensures StrictlySorted(r)
    ensures forall y :: y in r <==> y in xs
  {
    if |xs| == 0 then [] else Insert(xs[|xs| - 1], SortedUnique(xs[..|xs| - 1]))
  }

  /** A strictly sorted list never holds the same string twice. */
  lemma StrictlySortedDistinct(xs: seq<string>)
    requires StrictlySorted(xs)
    ensures forall i, j :: 0 <= i < j < |xs| ==> xs[i] != xs[j]
  {
    forall i, j | 0 <= i < j < |xs| ensures xs[i] != xs[j] {
      LessIrreflexive(xs[i]);
    }
  }
}

=== FILE: view_box.dfy ===
/** SVG view boxes as the preview and the pin locator read them: the attribute text split on
    single spaces and each part converted with `Number`. `Number` itself is a parameter:
    `Some(v)` for a numeric part, `None` for `NaN`. */
module ViewBox {
  import opened Wrappers
  import Text

  /** `Number(part)`: a value, or `None` for `NaN`. */
  type NumberOf = string -> Option<real>

  /** `[minX, minY, width, height]` of an SVG view box. */
  datatype Frame = Frame(minX: real, minY: real, width: real, height: real)

  /** `viewBox.split(' ').map(Number)`. */
  function Parts(text: string, toNumber: NumberOf): (r: seq<Option<real>>)
    ensures |r| == |Text.Split(text, {' '})|
  {
    var pieces := Text.Split(text, {' '});
    seq(|pieces|, i requires 0 <= i < |pieces| => toNumber(pieces[i]))
  }

  /** The pin locator's test `vb.length === 4 && !isNaN(vb[0]) && ... && !isNaN(vb[3])`: the
      frame when the text splits into exactly four numbers. */
  function Parse(text: string, toNumber: NumberOf): (r: Option<Frame>)
    ensures r.Some? <==> |Parts(text, toNumber)| == 4 && forall i :: 0 <= i < 4 ==> Parts(text, toNumber)[i].Some?
    ensures r.Some? ==> r.value == Frame(Parts(text, toNumber)[0].value, Parts(text, toNumber)[1].value,
                                         Parts(text, toNumber)[2].value, Parts(text, toNumber)[3].value)
  {
    var vb := Parts(text, toNumber);
    if |vb| == 4 && vb[0].Some? && vb[1].Some? && vb[2].Some? && vb[3].Some? then
      Some(Frame(vb[0].value, vb[1].value, vb[2].value, vb[3].value))
    else None
  }

  /** The default view box text splits into its four numerals. */
  lemma DefaultParts()
    ensures Text.Split("0 0 100 100", {' '}) == ["0", "0", "100", "100"]
  {
    FourWords("0", "0", "100", "100");
    assert "0" + (" " + ("0" + (" " + ("100" + (" " + "100"))))) == "0 0 100 100";
  }

  /** Helper: four space-free words joined by single spaces split back into the words. */
  lemma FourWords(a: string, b: string, c: string, d: string)
    requires forall i :: 0 <= i < |a| ==> a[i] != ' '
    requires forall i :: 0 <= i < |b| ==> b[i] != ' '
    requires forall i :: 0 <= i < |c| ==> c[i] != ' '
    requires forall i :: 0 <= i < |d| ==> d[i] != ' '
    ensures Text.Split(a + (" " + (b + (" " + (c + (" " + d))))), {' '}) == [a, b, c, d]
  {
    var cd := c + (" " + d);
    var bcd := b + (" " + cd);
    LastWord(d);
    FirstWord(c, d);
    FirstWord(b, cd);
    FirstWord(a, bcd);
    assert [a] + ([b] + ([c] + [d])) == [a, b, c, d];
  }

  /** Helper: a space-free word followed by a space is the first piece of the split. */
  lemma FirstWord(a: string, rest: string)
    requires forall i :: 0 <= i < |a| ==> a[i] != ' '
    ensures Text.Split(a + (" " + rest), {' '}) == [a] + Text.Split(rest, {' '})
  {
    Text.SplitAfterPlain(a, " " + rest, {' '});
    assert (" " + rest)[1..] == rest;
    assert a + "" == a;
  }

  /** Helper: a space-free word splits into itself. */
  lemma LastWord(d: string)
    requires forall i :: 0 <= i < |d| ==> d[i] != ' '
    ensures Text.Split(d, {' '}) == [d]
  {
    Text.SplitAfterPlain(d, "", {' '});
    assert d + "" == d;
  }
}

=== FILE: wrappers.dfy ===
/** Failure-compatible wrappers shared by every module of the model. */
module Wrappers {

  /** A value that may be absent: JavaScript's `null`/`undefined` results. */
  datatype Option<+T> = None | Some(value: T) {

    /** Returns the wrapped value, or `default` when there is none (JavaScript's `a || b` on objects). */
    function GetOr(default: T): T {
      match this
      case Some(v) => v
      case None => default
    }
  }

  /** The outcome of an operation that reports an error instead of throwing. */
  datatype Result<+T, +E> = Ok(value: T) | Err(error: E)
}
